=== FILE: README.md ===
# sieve_client in Dafny

A model of the core of `sieve_client`, a ManageSieve client library. It has two halves.

**The Sieve script parser** (`parser.rs`, `parser/util.rs`) is written with nom 7 combinators. Its three-way outcome is modelled as `Parsed<T> = Done(value, rest) | Error | Incomplete`:

- The streaming `char` reports `Incomplete` on empty input.
- `alt`, `many0`, `fold_many0` and `separated_list0/1` fall through only on `Error` and pass `Incomplete` on.
- Their guard against a parser that consumes nothing is kept as an explicit `Error`.

The model covers:

- quoted strings with the two escapes `\\` and `\"`;
- whitespace runs and string arrays;
- `require`;
- string comparisons;
- `header`/`address`/`allof`/`anyof` conditions;
- `if`/`elsif`/`else` blocks;
- the three flag commands;
- `fileinto`, `discard`, `keep` and `stop`;
- the expression list.

A printer (`SievePrinter`) writes every well-formed syntax tree back as text. The round-trip lemmas prove that parsing the printed text gives back the tree.

**The protocol client** (`sieve_client.rs`) is modelled as pure functions over what the server sends:

- the greeting, STARTTLS, capability reading and SASL PLAIN authentication in `connect`;
- the quoted-string and capability parsers;
- capability folding;
- the six script commands with their wire format and reply classification;
- literal framing (`{N}` followed by N raw bytes).

The inputs take two forms:

- Line-oriented replies are sequences of lines, as `read_line` returns them, with the line ending kept.
- Replies that mix lines and literals (GETSCRIPT, CHECKSCRIPT) are byte streams. Each such function returns the outcome together with the bytes it left unread.

Modules, in dependency order:

| module | file | contents |
|---|---|---|
| `Optional` | options.dfy | `Option`, `Result` |
| `Numbers` | numbers.dfy | decimal digits, `str::parse` for unsigned integers with a maximum |
| `Text` | text.dfy | prefixes, substring search, Unicode-whitespace `trim`, ASCII upper-casing, `split_whitespace` |
| `Bytes` | bytes.dfy | bytes, UTF-8 encoding, `read_line` on a byte stream |
| `Combinators` | combinators.dfy | nom's `Parsed` outcome, `alt`, `map`, `char`, `tag` |
| `SieveStrings` | sieve_strings.dfy | `parser/util.rs` |
| `SieveGrammar` | sieve_grammar.dfy | `parser.rs`: the syntax tree and the parsers |
| `SievePrinter` | sieve_printer.dfy | the inverse of the parsers (no counterpart in the source) |
| `SieveRoundTrip` | sieve_roundtrip.dfy | parse ∘ print = identity, per grammar rule |
| `SieveProperties` | sieve_properties.dfy | rejections and the behaviour of the expression list at its end |
| `ResponseLines` | lines.dfy | status classification, `parse_quoted_string`, `parse_literal_length`, `parse_script_line` |
| `ServerCapabilities` | capabilities.dfy | `parse_capability(_line)`, `update_capabilities`, `read_capabilities` |
| `Commands` | commands.dfy | the command lines the client writes |
| `ScriptOperations` | responses.dfy | list/get/put/delete/rename/set-active/check script |
| `Session` | session.dfy | `ignore_initial_greeting`, STARTTLS, `authenticate`, `connect` |

Where the code departs from the standard it follows or from its own comments, the model follows the code:

- **Undefined escapes.** Section 2.4.2 of RFC 5228 reads an undefined escape such as `\a` as the character alone. In `parse_escaped_char` (`parser/util.rs:11-17`), such a backslash stops the string body. The closing `char('"')` then fails, so the whole string is an `Error` (`SieveStrings.UndefinedEscapeFails`).
- **CHECKSCRIPT literal messages.** The comments at `sieve_client.rs:385` and `sieve_client.rs:414` say the warning or error message might be a literal string. The branch that would read it cannot be reached (see Findings).

## Model

| member | source | states |
|---|---|---|
| `SieveStrings.ParseEscapedChar` | sieve_client/src/parser/util.rs:11-17 | succeeds exactly on a backslash followed by `\` or `"`, yielding that character; needs more input exactly on `""` and `"\"` |
| `SieveStrings.ParseUnescapedSequence` | sieve_client/src/parser/util.rs:19-23 | succeeds exactly when the first character is neither `\` nor `"`; the run it takes is non-empty, holds only such characters and is maximal |
| `SieveStrings.ParseStringPart` | sieve_client/src/parser/util.rs:25-36 | a part is either a maximal plain run or one escaped `\`/`"`; it fails exactly at a string-body stop and needs more input exactly on an empty input or a lone backslash |
| `SieveStrings.ParseString` | sieve_client/src/parser/util.rs:38-49 | needs more input on empty text, fails when the text does not start with `"`, and on success starts with `"` and consumes something |
| `SieveStrings.ParseStringRoundTrip` | sieve_client/src/parser/util.rs:38-49 | decoding the escaped, quoted form of any string gives that string back, with any following text left untouched |
| `SieveStrings.ParseStringExactly` | sieve_client/src/parser/util.rs:38-49 | `parse_string` yields `(v, rest)` if and only if the input is the quoted escape of `v` followed by `rest`: decoding is injective and the escaper is its exact inverse |
| `SieveStrings.ParseStringInverse` | sieve_client/src/parser/util.rs:38-49 | whatever `parse_string` accepts is the quoted, escaped form of its value followed by the remainder |
| `SieveStrings.EmptyLiteral` | sieve_client/src/parser/util.rs:38-49 | `""` is a valid, empty string literal |
| `SieveStrings.UndefinedEscapeFails` | sieve_client/src/parser/util.rs:11-17 | a backslash before any character other than `\` or `"` makes the whole string literal an error |
| `SieveStrings.UnterminatedIsIncomplete` | sieve_client/src/parser/util.rs:38-49 | a literal cut off before its closing quote (possibly right after a backslash) asks for more input instead of failing |
| `SieveStrings.Multispace0` | sieve_client/src/parser/util.rs:51-60 | always succeeds; takes the longest prefix of space, tab, CR and LF and leaves the input otherwise unchanged |
| `SieveStrings.Multispace1` | sieve_client/src/parser/util.rs:62-64 | succeeds exactly when the input starts with whitespace, and then agrees with `multispace0` |
| `SieveStrings.Multispace0Of` | sieve_client/src/parser/util.rs:51-60 | on whitespace followed by a non-whitespace character, exactly the whitespace is consumed |
| `SieveStrings.ParseStringArray` | sieve_client/src/parser/util.rs:66-73 | needs more input on empty text, fails when the text does not start with `[`, and on success starts with `[` and consumes something |
| `SieveStrings.ParseStringArrayRoundTrip` | sieve_client/src/parser/util.rs:66-73 | any list of strings written as `[`, items and `,` with the same whitespace around each separator, decodes to that list (empty lists included) |
| `SieveStrings.TrailingCommaRejected` | sieve_client/src/parser/util.rs:66-73 | a comma before the closing bracket makes the array an error |
| `SieveStrings.DanglingComma` | sieve_client/src/parser/util.rs:66-73 | `separated_list0` does not consume a separator that is not followed by an element |
| `SieveStrings.ListBeforeTrailingComma` | sieve_client/src/parser/util.rs:66-73 | with a trailing comma, the list ends after the last real element and leaves `,]` unread |
| `SieveGrammar.FlagOf` | sieve_client/src/parser.rs:155-185 | the flag keeps the raw name; it is `Custom` exactly when the name is not one of the six system flags (case-sensitive) |
| `SieveGrammar.FlagOfName` | sieve_client/src/parser.rs:155-185 | mapping a well-formed flag's name back gives that flag, so the name-to-flag mapping is a bijection onto well-formed flags |
| `SieveGrammar.FlagsOf` | sieve_client/src/parser.rs:166-185 | each raw value maps to its own flag, in order |
| `SieveGrammar.Keyword` | sieve_client/src/parser.rs:34-42 | `value(v, tag(t))`: succeeds exactly when the input starts with `t`, yielding `v` and the text after `t` |
| `SieveGrammar.ParseComparison` | sieve_client/src/parser.rs:26-42 | never asks for more input, and consumes something on success |
| `SieveGrammar.ParseStringCondition` | sieve_client/src/parser.rs:51-67 | fails when no comparison starts the text; on success its comparison is the one that starts the text, and it consumes something |
| `SieveGrammar.ParseRequire` | sieve_client/src/parser.rs:17-24 | succeeds only on text starting with `require ` (with the space), failing on any other text; consumes something |
| `SieveGrammar.ParseCondition` | sieve_client/src/parser.rs:81-102 | every condition it yields is well formed: all `allof`/`anyof` lists, at every depth, are non-empty |
| `SieveGrammar.ListTest` | sieve_client/src/parser.rs:89-102 | `allof` yields an `AllOf` and `anyof` an `AnyOf`, each with well-formed members |
| `SieveGrammar.ParseConditionList` | sieve_client/src/parser.rs:69-79 | a parenthesised condition list is never empty (`separated_list1`) |
| `SieveGrammar.ParseFlags` | sieve_client/src/parser.rs:166-185 | every flag it yields is well formed |
| `SieveGrammar.SingleString` | sieve_client/src/parser.rs:166-185 | the single-string form yields exactly one value |
| `SieveGrammar.FlagCommand` | sieve_client/src/parser.rs:187-193 | succeeds only on text starting with its keyword, failing on any other; every flag it yields is well formed |
| `SieveGrammar.ParseFileInto` | sieve_client/src/parser.rs:220-224 | succeeds only on text starting with `fileinto`, failing on any other; consumes something |
| `SieveGrammar.ParseExpression` | sieve_client/src/parser.rs:208-229 | every expression it yields is well formed (all nested condition lists non-empty), and it consumes something |
| `SieveGrammar.SimpleIf` | sieve_client/src/parser.rs:104-118 | succeeds only on text starting with its keyword (`if` or `elsif`), failing on any other; the condition and the body are well formed |
| `SieveGrammar.ParseIf` | sieve_client/src/parser.rs:128-153 | succeeds only on text starting with `if`, failing on any other; the whole `if` block it yields is well formed |
| `SieveGrammar.ParseExpressionList` | sieve_client/src/parser.rs:231-233 | `many0` never fails: the result is a list (possibly empty) of well-formed expressions, or a request for more input |
| `SieveGrammar.ParseElsifs` | sieve_client/src/parser.rs:128-153 | the `elsif` branches never fail the `if`; each branch is well formed |
| `SieveGrammar.ParseElse` | sieve_client/src/parser.rs:133-141 | when the `else` parser fails (no `else` follows) the result is the empty block with nothing consumed; otherwise it is exactly that parser's outcome; never an error |
| `SieveRoundTrip.ComparisonRoundTrip` | sieve_client/src/parser.rs:34-42 | each of `:is`, `:contains`, `:matches` and `:regex` decodes to its own comparison |
| `SieveRoundTrip.StringConditionRoundTrip` | sieve_client/src/parser.rs:44-67 | any comparison with a source and a value string decodes back to itself |
| `SieveRoundTrip.ConditionRoundTrip` | sieve_client/src/parser.rs:81-102 | every well-formed condition, at any nesting depth, decodes back to itself |
| `SieveRoundTrip.ConditionListRoundTrip` | sieve_client/src/parser.rs:69-79 | every non-empty list of well-formed conditions in parentheses decodes back to itself |
| `SieveRoundTrip.FlagCommandRoundTrip` | sieve_client/src/parser.rs:187-193 | `addflag`/`removeflag`/`setflag` with an array of well-formed flags decodes back to those flags |
| `SieveRoundTrip.FileIntoRoundTrip` | sieve_client/src/parser.rs:208-229 | `fileinto "<folder>";` decodes to that folder for every folder name |
| `SieveRoundTrip.BlockRoundTrip` | sieve_client/src/parser.rs:104-118 | a braced block of well-formed expressions decodes back to them |
| `SieveRoundTrip.BranchRoundTrip` | sieve_client/src/parser.rs:104-118 | `<keyword> <condition> { ... }` decodes back to the condition and the body |
| `SieveRoundTrip.ElsifsRoundTrip` | sieve_client/src/parser.rs:128-153 | any list of `elsif` branches decodes back to itself, in source order |
| `SieveRoundTrip.ElseRoundTrip` | sieve_client/src/parser.rs:128-153 | an `else` block decodes back to its body |
| `SieveRoundTrip.IfRoundTrip` | sieve_client/src/parser.rs:120-153 | every well-formed `if` with its `elsif`s and optional `else` decodes back to itself |
| `SieveRoundTrip.ExpressionRoundTrip` | sieve_client/src/parser.rs:195-229 | every well-formed expression of each of the nine kinds decodes back to itself |
| `SieveRoundTrip.ExpressionsRoundTrip` | sieve_client/src/parser.rs:231-233 | a sequence of expressions decodes back to itself when the following text does not start an expression |
| `SieveRoundTrip.ScriptRoundTrip` | sieve_client/src/parser.rs:231-233 | a printed script, followed by any amount of whitespace, decodes back to exactly its expressions |
| `SieveRoundTrip.RequireCase` | sieve_client/src/parser.rs:17-24 | `require [..];` decodes to its list of names |
| `SieveProperties.RequireNeedsSpace` | sieve_client/src/parser.rs:17-24 | `require` must be followed by a space |
| `SieveProperties.SemicolonRightAfterArray` | sieve_client/src/parser.rs:17-24 | whitespace between the array and `;` makes `require` fail |
| `SieveProperties.SourceNeedsSpace` | sieve_client/src/parser.rs:51-67 | a comparison tag glued to its source string is rejected |
| `SieveProperties.ValueNeedsSpace` | sieve_client/src/parser.rs:51-67 | source and value strings must be separated by whitespace |
| `SieveProperties.HeaderNeedsSpace` | sieve_client/src/parser.rs:89-102 | `header` glued to its comparison is not a condition |
| `SieveProperties.AddressNeedsSpace` | sieve_client/src/parser.rs:89-102 | `address` glued to its comparison is not a condition |
| `SieveProperties.EmptyConditionList` | sieve_client/src/parser.rs:69-79 | `()` with only whitespace inside is rejected |
| `SieveProperties.SingleFlagString` | sieve_client/src/parser.rs:166-185 | a single string gives a one-element flag list |
| `SieveProperties.ListStops` | sieve_client/src/parser.rs:231-233 | whenever the expression list succeeds, what it leaves is not a further expression |
| `SieveProperties.ScriptAccepted` | sieve_client/src/parser.rs:231-233 | every printed well-formed script is accepted whole |
| `SieveProperties.TrailingTextRejected` | sieve_client/src/parser.rs:231-233 | text after the last expression that starts no command is left over, so the script is not accepted whole |
| `Numbers.DecimalRoundTrip` | sieve_client/src/sieve_client.rs:573-580 | `str::parse` of a number's decimal form gives the number when it fits the target width, and fails otherwise |
| `Numbers.NonDigitRejected` | sieve_client/src/sieve_client.rs:573-580 | any non-digit, other than a leading `+`, makes `str::parse` fail |
| `ResponseLines.Classify` | sieve_client/src/sieve_client.rs:260-270 | a reply is OK/NO/BYE exactly when its trimmed upper-cased text starts with that word |
| `ResponseLines.ClassifyIgnoresCase` | sieve_client/src/sieve_client.rs:258-270 | the status of a reply does not depend on letter case |
| `ResponseLines.ClassifyIgnoresLineEnd` | sieve_client/src/sieve_client.rs:258-270 | trailing whitespace (the CRLF) does not change a reply's status |
| `ResponseLines.BlankUntagged` | sieve_client/src/sieve_client.rs:172-174 | a blank line carries no status |
| `ResponseLines.FirstOk` | sieve_client/src/sieve_client.rs:433-449 | the first line whose status is OK, if there is one |
| `ResponseLines.FirstStatus` | sieve_client/src/sieve_client.rs:168-188 | the first line that carries any status, if there is one |
| `ResponseLines.ParseQuotedString` | sieve_client/src/sieve_client.rs:629-634 | never asks for more input; on success the input is `"v"` followed by the rest, with `v` free of quotes |
| `ResponseLines.QuotedStringOf` | sieve_client/src/sieve_client.rs:629-634 | any quote-free text in quotes decodes to itself |
| `ResponseLines.UnterminatedQuote` | sieve_client/src/sieve_client.rs:629-634 | a quote that is never closed is an error |
| `ResponseLines.ParseLiteralLength` | sieve_client/src/sieve_client.rs:573-580 | succeeds only on a whole line `{digits}` (a leading `+` allowed) whose value fits in a 64-bit `usize` |
| `ResponseLines.LiteralLengthOf` | sieve_client/src/sieve_client.rs:573-580 | `{N}` decodes to N exactly when N fits in a `usize` |
| `ResponseLines.LiteralNeedsWholeLine` | sieve_client/src/sieve_client.rs:573-580 | a line that does not start with `{` and end with `}` is never a literal header |
| `ResponseLines.ParseScriptLine` | sieve_client/src/sieve_client.rs:563-570 | as written: the name is the leading quoted string; the active flag is set exactly when the upper-cased whole line contains `ACTIVE` |
| `ResponseLines.ScriptLineOf` | sieve_client/src/sieve_client.rs:563-570 | a listing line decodes to its quoted name and the as-written active test |
| `ResponseLines.ActiveMarker` | sieve_client/src/sieve_client.rs:563-570 | `"name" ACTIVE` is read as an active script |
| `ResponseLines.ActiveInName` | sieve_client/src/sieve_client.rs:563-570 | a name containing `active` in any case makes the script look active, even without the marker |
| `ResponseLines.InactiveReportedActive` | sieve_client/src/sieve_client.rs:563-570 | the script `"inactive"`, listed without a marker, is reported active |
| `ResponseLines.ParseScriptLineCorrected` | sieve_client/src/sieve_client.rs:563-570 | accepts the same lines; the active flag is taken only from the text after the quoted name |
| `ResponseLines.ScriptLineCorrectedOf` | sieve_client/src/sieve_client.rs:563-570 | a listing line decodes back to exactly its name and active flag, for every name |
| `ResponseLines.ScriptLineReadingsAgree` | sieve_client/src/sieve_client.rs:563-570 | the two readings agree on the name, and the corrected one reports active only when the as-written one does |
| `ServerCapabilities.ParseCapability` | sieve_client/src/sieve_client.rs:636-644 | fails exactly when no quoted name starts the text; otherwise the text is the quoted name, a run of spaces and tabs, the quoted value if there is one, and the rest; without a value the blanks are still consumed and the rest starts with neither a blank nor a quoted string; never asks for more input |
| `ServerCapabilities.ParseCapabilityLine` | sieve_client/src/sieve_client.rs:483-498 | succeeds exactly when the capability takes the whole trimmed line, with the name and value `parse_capability` read; the trimmed line is then exactly `"name"` or ends with `"value"`; the invalid-format error comes exactly when no capability starts the line; otherwise the error is the trailing-content message followed by the text left over |
| `ServerCapabilities.CapabilityLineOf` | sieve_client/src/sieve_client.rs:483-498 | a written capability line, with any line ending, decodes to its name and value |
| `ServerCapabilities.UnquotedValueRejected` | sieve_client/src/sieve_client.rs:483-498 | an unquoted value is reported as trailing content, quoting that text |
| `ServerCapabilities.UnquotedNameRejected` | sieve_client/src/sieve_client.rs:483-498 | a line not starting with a quote has an invalid format |
| `ServerCapabilities.UpdateCapabilities` | sieve_client/src/sieve_client.rs:500-553 | only the field the upper-cased name selects changes; IMPLEMENTATION, LANGUAGE, OWNER and VERSION record the value (none when absent); SASL, SIEVE and NOTIFY with a value record its `split_whitespace` words; MAXREDIRECTS records a value that parses as a `u32` and otherwise keeps the old one; STARTTLS sets the flag; unknown names are stored under their original spelling, with "" for a missing value |
| `ServerCapabilities.FieldOf` | sieve_client/src/sieve_client.rs:500-503 | a name selects the field whose capability name is its upper-cased form, and `Other` exactly when no field has that name |
| `ServerCapabilities.FieldIgnoresCase` | sieve_client/src/sieve_client.rs:500-503 | capability names select the same field in any letter case |
| `ServerCapabilities.SaslRoundTrip` | sieve_client/src/sieve_client.rs:508-515 | a space-joined mechanism list is stored back as exactly those mechanisms |
| `ServerCapabilities.WordsRoundTrip` | sieve_client/src/sieve_client.rs:508-531 | `split_whitespace` inverts joining words with spaces |
| `ServerCapabilities.ListValueRead` | sieve_client/src/sieve_client.rs:508-531 | SASL, SIEVE and NOTIFY record exactly the words of their value, in order, whatever runs of White_Space surround and separate them |
| `Text.SplitSpaced` | sieve_client/src/sieve_client.rs:509-512 | `split_whitespace` gives back the words laid out with any White_Space runs around them and non-empty runs between them |
| `Text.SplitLayout` | sieve_client/src/sieve_client.rs:509-512 | every text is the words `split_whitespace` finds, laid out with White_Space runs (non-empty between words), so the two lemmas together pin the split down |
| `ServerCapabilities.MissingValue` | sieve_client/src/sieve_client.rs:500-553 | a list or number capability without a value changes nothing; IMPLEMENTATION and VERSION without a value are cleared |
| `ServerCapabilities.MaxRedirectsOf` | sieve_client/src/sieve_client.rs:524-530 | MAXREDIRECTS stores N when N fits in a `u32`, and otherwise keeps the old value |
| `ServerCapabilities.MaxRedirectsIgnoresText` | sieve_client/src/sieve_client.rs:524-530 | a MAXREDIRECTS value that is not a number leaves the capabilities unchanged |
| `ServerCapabilities.ApplyAllAppend` | sieve_client/src/sieve_client.rs:451-481 | folding capability lines in two pieces equals folding them all at once |
| `ServerCapabilities.ReadCapabilitiesFrom` | sieve_client/src/sieve_client.rs:451-481 | finishes exactly when an OK line arrives; the result folds the parsable lines before it, and reading resumes right after it |
| `ServerCapabilities.Record` | sieve_client/src/sieve_client.rs:469-477 | one line changes the capabilities by exactly the entries it parses to: the update for a capability line, nothing for any other line |
| `ServerCapabilities.ReadCapabilities` | sieve_client/src/sieve_client.rs:451-481 | starting from the defaults, folds every well-formed capability line before the first OK line |
| `ServerCapabilities.ListingEntries` | sieve_client/src/sieve_client.rs:483-498 | every written capability line is read back as its own entry |
| `ServerCapabilities.ListingFirstOk` | sieve_client/src/sieve_client.rs:451-481 | a capability line never ends the listing; the OK line does |
| `ServerCapabilities.CapabilitiesRoundTrip` | sieve_client/src/sieve_client.rs:451-553 | a server's capability listing plus OK reads back as those capabilities applied in order, leaving the lines after OK unread |
| `Commands.NameCommand` | sieve_client/src/sieve_client.rs:198 | the verb, a space, and the name verbatim between quotes, ended by CRLF |
| `Commands.GetScriptCommand` | sieve_client/src/sieve_client.rs:198 | `GETSCRIPT "`, the name verbatim, `"` CRLF |
| `Commands.DeleteScriptCommand` | sieve_client/src/sieve_client.rs:278 | `DELETESCRIPT "`, the name verbatim, `"` CRLF |
| `Commands.SetActiveCommand` | sieve_client/src/sieve_client.rs:334 | `SETACTIVE "`, the name verbatim, `"` CRLF |
| `Commands.RenameScriptCommand` | sieve_client/src/sieve_client.rs:308 | `RENAMESCRIPT "`, the old name, `" "`, the new name, `"` CRLF |
| `Commands.LiteralHeader` | sieve_client/src/sieve_client.rs:251 | the prefix, then the decimal byte length of the content between `{` and `}`, then CRLF |
| `Commands.PutScriptCommand` | sieve_client/src/sieve_client.rs:251-253 | ends with exactly the script's UTF-8 bytes, after a non-empty header |
| `Commands.CheckScriptCommand` | sieve_client/src/sieve_client.rs:360-362 | ends with exactly the script's UTF-8 bytes, after a non-empty header |
| `Commands.PlainMessage` | sieve_client/src/sieve_client.rs:593 | the bytes are NUL, the user's UTF-8 bytes, NUL, the password's UTF-8 bytes |
| `Commands.AuthenticateCommand` | sieve_client/src/sieve_client.rs:593-597 | `AUTHENTICATE "PLAIN" "`, the encoded PLAIN message verbatim, `"` CRLF |
| `Commands.NameCommandArgument` | sieve_client/src/sieve_client.rs:198 | `GETSCRIPT`/`DELETESCRIPT`/`SETACTIVE` carry the script name as one quoted argument, ending in CRLF |
| `Commands.RenameArguments` | sieve_client/src/sieve_client.rs:299-327 | RENAMESCRIPT carries the old and the new name as two quoted arguments, in that order |
| `Commands.QuoteInNameSplits` | sieve_client/src/sieve_client.rs:198 | names are not escaped, so a name containing `"` is cut short at that quote |
| `Commands.NameCommandFraming` | sieve_client/src/sieve_client.rs:198-200 | a name command without line feeds is exactly one line on the wire |
| `Commands.LiteralFraming` | sieve_client/src/sieve_client.rs:251-253 | the literal header is one line and the payload bytes follow it directly |
| `Commands.LiteralAnnounced` | sieve_client/src/sieve_client.rs:251 | the header announces the payload's byte length (not its character count), and that announcement is readable as a literal length |
| `Commands.PutScriptFraming` | sieve_client/src/sieve_client.rs:246-254 | PUTSCRIPT is one header line naming the script followed by exactly the script's bytes |
| `Commands.CheckScriptFraming` | sieve_client/src/sieve_client.rs:360-363 | CHECKSCRIPT is one header line followed by exactly the script's bytes |
| `Commands.PlainMessageFields` | sieve_client/src/sieve_client.rs:593-594 | the SASL PLAIN message splits on NUL into an empty authorisation id, the user and the password |
| `Bytes.ReadLine` | sieve_client/src/sieve_client.rs:202-203 | `read_line` splits the stream into a line ending at the first line feed (or at end of stream) and the unread rest |
| `Bytes.ReadLineOf` | sieve_client/src/sieve_client.rs:202-203 | a line without line feeds followed by LF is read exactly |
| `Bytes.Utf8Append` | sieve_client/src/sieve_client.rs:251-253 | encoding a concatenation is the concatenation of the encodings |
| `ScriptOperations.ReadTextLine` | sieve_client/src/sieve_client.rs:202-203 | the line read is the stream up to the first line feed; invalid UTF-8 is an I/O error |
| `ScriptOperations.ReadExact` | sieve_client/src/sieve_client.rs:211-216 | `read_exact` succeeds exactly when enough bytes remain, and splits off exactly that many |
| `ScriptOperations.ReadTextLineOf` | sieve_client/src/sieve_client.rs:202-203 | an encoded text line is read back as that text |
| `ScriptOperations.PutScriptReply` | sieve_client/src/sieve_client.rs:256-271 | OK is success, NO and BYE are server errors with the trimmed reply, anything else is an invalid response |
| `ScriptOperations.NamedReply` | sieve_client/src/sieve_client.rs:282-297 | OK is success, NO is script-not-found for the requested name, BYE is a server error, anything else an invalid response |
| `ScriptOperations.ReplyIgnoresCase` | sieve_client/src/sieve_client.rs:282-297 | the reply classification does not depend on letter case |
| `ScriptOperations.PutScript` | sieve_client/src/sieve_client.rs:246-271 | sends the PUTSCRIPT literal; the outcome is the PUTSCRIPT reply mapping, so it succeeds exactly on an OK reply |
| `ScriptOperations.DeleteScript` | sieve_client/src/sieve_client.rs:273-297 | sends DELETESCRIPT; the outcome is the named-reply mapping, where a NO reply means the script was not found |
| `ScriptOperations.RenameScript` | sieve_client/src/sieve_client.rs:299-327 | sends RENAMESCRIPT; the outcome is the named-reply mapping for the old name, where a NO reply means the old name was not found |
| `ScriptOperations.SetActiveScript` | sieve_client/src/sieve_client.rs:329-353 | sends SETACTIVE; the outcome is the named-reply mapping, where a NO reply means the script was not found |
| `ScriptOperations.ScriptEntry` | sieve_client/src/sieve_client.rs:182-186 | as written: a line names a script exactly when, trimmed, it starts with a quoted name; the script is active exactly when the upper-cased trimmed line, name included, contains `ACTIVE` |
| `ScriptOperations.ScriptEntryCorrected` | sieve_client/src/sieve_client.rs:182-186 | corrected: accepts the same lines with the same names; active exactly when `ACTIVE` follows the quoted name |
| `ScriptOperations.ListScriptsFrom` | sieve_client/src/sieve_client.rs:168-188 | for any line reader: finishes exactly at the first status line: on OK with the scripts the reader finds in the lines before it, on NO/BYE with a server error quoting that line; blank and unknown lines are skipped; reading resumes after the status line |
| `ScriptOperations.ListScripts` | sieve_client/src/sieve_client.rs:157-191 | as written: sends LISTSCRIPTS; the result is the scripts `ScriptEntry` reads in the lines before the terminating OK |
| `ScriptOperations.ListScriptsCorrected` | sieve_client/src/sieve_client.rs:157-191 | the same loop with the corrected line reader |
| `ScriptOperations.ScriptListing` | sieve_client/src/sieve_client.rs:157-191 | a server listing: one quoted line per script, with the active marker on the active one |
| `ScriptOperations.AsListed` | sieve_client/src/sieve_client.rs:563-570 | what the as-written reader reports per script: its name, active when it is active or its upper-cased name contains `ACTIVE` |
| `ScriptOperations.ListingLineUntagged` | sieve_client/src/sieve_client.rs:177-183 | a listing line is never mistaken for a status line |
| `ScriptOperations.ListingLineOf` | sieve_client/src/sieve_client.rs:182-186 | as written: a listing line is read as its name, marked active when it is active or when its name contains `active` in any case |
| `ScriptOperations.ListingLineCorrectedOf` | sieve_client/src/sieve_client.rs:182-186 | corrected: a listing line is read back as exactly its name and state |
| `ScriptOperations.ListingRead` | sieve_client/src/sieve_client.rs:182-187 | a reader that reads each listing line as a given script reads the whole listing as those scripts, in order |
| `ScriptOperations.ListingFirstStatus` | sieve_client/src/sieve_client.rs:168-188 | the listing ends at the status line that follows the script lines |
| `ScriptOperations.ListScriptsReadsBack` | sieve_client/src/sieve_client.rs:157-191 | as written, for every listing followed by OK: the names in order, each marked active when it is active or its name contains `active`, leaving what follows unread |
| `ScriptOperations.ListScriptsRoundTrip` | sieve_client/src/sieve_client.rs:157-191 | as written: a listing of scripts none of whose names contains `active`, followed by OK, yields exactly those scripts, leaving what follows unread |
| `ScriptOperations.ListScriptsCorrectedRoundTrip` | sieve_client/src/sieve_client.rs:157-191 | corrected: every listing followed by OK yields exactly its scripts, whatever the names |
| `ScriptOperations.ListScriptsRefused` | sieve_client/src/sieve_client.rs:178-182 | a listing cut off by NO or BYE is a server error carrying that line |
| `ScriptOperations.GetScriptReply` | sieve_client/src/sieve_client.rs:202-243 | never reads beyond what it is given; a first line that is not UTF-8 is an I/O error that has consumed that line; a first line starting with `{` is a literal header read on by `LiteralBody`, or a protocol error when it is not `{N}`; otherwise NO is not-found for the requested script, BYE a server error with the trimmed line, and any other line, OK included, an invalid response with the trimmed line, with the stream after the first line left unread |
| `ScriptOperations.LiteralBody` | sieve_client/src/sieve_client.rs:209-227 | on success exactly N bytes plus the two framing bytes were available, and the script is those N bytes decoded; fewer bytes are an I/O error that has drained the stream, for an N the process can allocate; other failures are I/O or server errors |
| `ScriptOperations.GetScript` | sieve_client/src/sieve_client.rs:193-244 | sends GETSCRIPT for the name, and its outcome is exactly what `GetScriptReply` reads for that name from the stream |
| `ScriptOperations.GetScriptRoundTrip` | sieve_client/src/sieve_client.rs:193-244 | `{N}`, N bytes of script, CRLF and an OK line yield the script (any text, CR/LF included); a non-OK final line is a server error with that line upper-cased; the stream after the final line is unread |
| `ScriptOperations.LiteralBodyOf` | sieve_client/src/sieve_client.rs:209-227 | the literal body is read exactly, then the framing pair, then the status line |
| `ScriptOperations.GetScriptNotFound` | sieve_client/src/sieve_client.rs:236-238 | a NO reply is script-not-found, and nothing after that line is read |
| `ScriptOperations.GetScriptBadHeader` | sieve_client/src/sieve_client.rs:228-231 | a line starting `{` that is not a literal header is a protocol error |
| `ScriptOperations.GetScriptShortLiteral` | sieve_client/src/sieve_client.rs:211-212 | a stream shorter than the announced literal gives an I/O error, for an N the process can allocate |
| `ScriptOperations.QuotedMessage` | sieve_client/src/sieve_client.rs:373-383 | the text between the first and last quote, present exactly when the line has two quotes |
| `ScriptOperations.QuotedMessageOf` | sieve_client/src/sieve_client.rs:373-383 | a quoted message between quote-free text is recovered exactly |
| `ScriptOperations.MessageOf` | sieve_client/src/sieve_client.rs:373-395 | as written: a quoted message wins; a literal is taken only when the line quotes nothing, contains `{` and parses whole as `{N}`; with no quoted message and no literal the fallback is the message |
| `ScriptOperations.LiteralNeverFound` | sieve_client/src/sieve_client.rs:384-395 | a line that does not start with `{` never yields a literal, so a status line never does |
| `ScriptOperations.MessageOfCorrected` | sieve_client/src/sieve_client.rs:373-395 | a quoted message still wins; a literal is taken from a trailing `{N}`, which must fit in a `usize` |
| `ScriptOperations.MessageOfCorrectedLiteral` | sieve_client/src/sieve_client.rs:384-395 | a quote-free status line ending in `{N}` announces a literal of N bytes |
| `ScriptOperations.ReadMessage` | sieve_client/src/sieve_client.rs:386-390 | an inline message reads nothing; a literal succeeds exactly when its N bytes are available; the only failure is an I/O error |
| `ScriptOperations.ReadMessageCorrected` | sieve_client/src/sieve_client.rs:386-390 | agrees with the as-written reading on success and failure, and also consumes the line end after the literal |
| `ScriptOperations.CheckStatus` | sieve_client/src/sieve_client.rs:369-430 | as written: never reads past the status line; OK is success, carrying the quoted message or "Script has warnings" when the line has `(WARNINGS)` and nothing otherwise; NO is a server error with the quoted message or the trimmed line; BYE is a server error and any other line an invalid response, both with the trimmed line |
| `ScriptOperations.CheckScriptReply` | sieve_client/src/sieve_client.rs:365-430 | as written: the reply never reads past its first line; a first line that is not UTF-8 is an I/O error that has consumed that line; otherwise the outcome is what `CheckStatus` makes of that line |
| `ScriptOperations.StatusLineNoLiteral` | sieve_client/src/sieve_client.rs:369-418 | an OK or NO line never starts with `{`, which is why the as-written literal branch cannot be reached |
| `ScriptOperations.CheckStatusCorrected` | sieve_client/src/sieve_client.rs:369-430 | success only on OK, and on OK either success or an I/O error; a warning only when the line has `(WARNINGS)`; BYE is a server error; other lines are invalid responses |
| `ScriptOperations.CheckScriptReplyCorrected` | sieve_client/src/sieve_client.rs:365-430 | never reads beyond what it is given; a first line that is not UTF-8 is an I/O error that has consumed that line |
| `ScriptOperations.CheckScript` | sieve_client/src/sieve_client.rs:355-431 | as written: sends the CHECKSCRIPT literal; the reply is read no further than its first line; an unreadable line is an I/O error; OK gives the quoted message, "Script has warnings" or nothing as `(WARNINGS)` and the quotes decide; NO gives the quoted message or the trimmed line; BYE and other lines give errors with the trimmed line |
| `ScriptOperations.CheckScriptCorrected` | sieve_client/src/sieve_client.rs:355-431 | sends the same literal, and its outcome is exactly what the corrected reader `CheckScriptReplyCorrected` gives; success only on an OK first line |
| `ScriptOperations.CheckScriptLiteralLeftUnread` | sieve_client/src/sieve_client.rs:413-418 | as written: `NO ... {N}` is reported with the header line as its message, and the N-byte literal is left unread on the stream |
| `ScriptOperations.CheckScriptLiteralRead` | sieve_client/src/sieve_client.rs:384-418 | corrected: for `NO ... {N}` or `OK (WARNINGS) ... {N}`, the N-byte message is returned and the stream continues after it |
| `ScriptOperations.CheckScriptQuoted` | sieve_client/src/sieve_client.rs:373-412 | a quoted diagnostic on NO or OK (WARNINGS) is returned the same way by both readings |
| `ScriptOperations.CheckScriptClean` | sieve_client/src/sieve_client.rs:369-399 | OK without `(WARNINGS)` means no warnings, for both readings |
| `Session.IgnoreGreeting` | sieve_client/src/sieve_client.rs:433-449 | finishes exactly when an OK line arrives, and resumes right after the first one |
| `Session.GreetingSkipped` | sieve_client/src/sieve_client.rs:433-449 | a greeting of capability lines followed by OK is skipped entirely |
| `Session.StartTlsReply` | sieve_client/src/sieve_client.rs:110-120 | STARTTLS succeeds exactly on OK; otherwise a protocol error quoting the trimmed reply |
| `Session.StartTls` | sieve_client/src/sieve_client.rs:110-136 | the upgrade succeeds exactly when the reply is OK, the host name is valid and the handshake succeeds; a non-OK reply is a protocol error quoting it, an invalid host the "Invalid hostname" protocol error, and a failed handshake `ConnectionFailed` |
| `Session.AuthReply` | sieve_client/src/sieve_client.rs:605-624 | OK is success; NO, BYE and anything else are authentication failures with three distinct messages |
| `Session.AuthMessagesDiffer` | sieve_client/src/sieve_client.rs:605-624 | the three failure messages can never coincide, whatever the reply text |
| `Session.Authenticate` | sieve_client/src/sieve_client.rs:582-625 | credentials are sent exactly when the server offers PLAIN; without PLAIN the outcome is the "mechanism not supported" failure and the reply is not read, with PLAIN it is the `AuthReply` classification of the response; success needs PLAIN and an OK reply |
| `Session.Login` | sieve_client/src/sieve_client.rs:139-152 | connected only after the capabilities end with OK, PLAIN is offered and authentication is accepted; then exactly the AUTHENTICATE line is sent |
| `Session.Connect` | sieve_client/src/sieve_client.rs:91-155 | connected only after the greeting's OK, an OK to STARTTLS, a valid host and a handshake; then it sends STARTTLS followed by the login; after the greeting, a failed upgrade is refused with exactly the STARTTLS error, having sent only STARTTLS |
| `Session.ConnectOpens` | sieve_client/src/sieve_client.rs:91-155 | a well-behaved server session ends connected with exactly the advertised capabilities, having sent STARTTLS and AUTHENTICATE |
| `Session.LoginOf` | sieve_client/src/sieve_client.rs:139-152 | without PLAIN the login fails before sending anything; with PLAIN and an OK it connects |
| `Session.NoPlainNoCredentials` | sieve_client/src/sieve_client.rs:585-590 | when PLAIN is not offered, the credentials never go on the wire |
| `Session.StartTlsRefused` | sieve_client/src/sieve_client.rs:115-120 | a refused STARTTLS stops the connection with a protocol error before the upgrade |

## Left out

- TCP, TLS (rustls, the certificate store and the handshake itself), `tokio` and the connection `Mutex`. The handshake outcome and host-name validity are boolean parameters of `Session.StartTls`. A failed handshake is `ConnectionFailed`, as the `?` on the connector's I/O error gives. A failed TCP connect and the other transport failures are not modelled, so `TlsError` is never produced. Among the readers, only the GETSCRIPT and CHECKSCRIPT byte readers produce `IoError`; the line readers listed below cannot.
- `String::from_utf8` and `from_utf8_lossy` on received bytes, and the base64 encoder: these are function parameters (`decode`, `lossy`, `encode`). Lemmas that need them assume only that they invert UTF-8 encoding (`DecodesUtf8`, `KeepsUtf8`).
- `to_uppercase` is modelled for ASCII letters only. Rust's full Unicode mapping also turns `ı` into `I`, `ſ` into `S` and `ﬆ` into `ST`, and can change a string's length. So a line the model does not match can match in the source: a listing line read as active by its `ACTIVE` test, a CHECKSCRIPT line carrying `(WARNINGS)`, or a capability name.
- At end of stream `read_line` returns an empty line, and the loops in `ignore_initial_greeting`, `read_capabilities` and `list_scripts` skip empty lines forever. The model returns `Stalled` (`Session.Connecting.Unfinished` for `connect`) when the given lines run out.
- Read failures on text-line replies are left out. `read_line` fails on a line that is not UTF-8 and on a transport error. In the source that failure becomes `ConnectionFailed` in `ignore_initial_greeting` (sieve_client/src/sieve_client.rs:437) and `read_capabilities` (sieve_client/src/sieve_client.rs:458), and `IoError` in `list_scripts` (sieve_client/src/sieve_client.rs:169) and the single-line replies (put/delete/rename/set-active, STARTTLS, AUTHENTICATE). The model gives these replies as text lines (`seq<string>` or `string`), so `Session.IgnoreGreeting`, `ServerCapabilities.ReadCapabilities`, `ScriptOperations.ListScripts` and the single-line readers never produce that error. Only the GETSCRIPT and CHECKSCRIPT readers work on a byte stream with I/O errors. The `IoError` payload (the `std::io::Error`) is dropped.
- ScriptOperations.LiteralBody and ScriptOperations.GetScriptShortLiteral: the source allocates `vec![0u8; N]` (sieve_client/src/sieve_client.rs:211) before reading the literal. That panics for N above `isize::MAX` and aborts the process when the allocation fails. The model has no panic or abort, so for such an N it reads on and gives the I/O error of a short stream (or the script, if the bytes are there); its promises hold only for an N the process can allocate.
- `ignore_initial_greeting` wraps the socket in its own `BufReader` and drops it. Any bytes buffered after the greeting's OK line would be lost. The model hands the lines after OK to the next step, and the STARTTLS reply and the post-TLS lines are separate parameters of `Session.Connect`.
- nom's error payloads (`nom::error::Error` position and kind) are dropped: every failure is `Error`. No caller reads them.
- `HashMap` for unknown capabilities is a Dafny `map`. `u16` ports, `Debug` formatting and the `capabilities()` accessor are not modelled.
- The GUI crate and the command-line and database code are not part of this model.
- `ScriptOperations.CheckScriptReplyCorrected`: its own contract states only what it reads and its read error. What it returns is stated by the lemmas `CheckScriptLiteralRead`, `CheckScriptQuoted` and `CheckScriptClean`, and by `CheckStatusCorrected`.

## Findings

| source | as written | input that shows it | evidently intended | confidence | as-written member | corrected member |
|---|---|---|---|---|---|---|
| sieve_client/src/sieve_client.rs:563-570 | `parse_script_line` looks for `ACTIVE` anywhere in the upper-cased line, the script name included | the LISTSCRIPTS line `"inactive"` (no marker) is reported as the active script | look for the marker only after the quoted name | not executed | `ResponseLines.InactiveReportedActive` | `ResponseLines.ScriptLineCorrectedOf` |
| sieve_client/src/sieve_client.rs:384-418 | the CHECKSCRIPT literal branch calls `parse_literal_length` on the whole status line, which starts with `OK` or `NO`, so it never finds a literal | the reply `NO {5}` CRLF `error` CRLF: the result is `ServerError("NO {5}")`, and the five message bytes stay unread for the next command | read the `{N}` at the end of the line, then the N-byte message and its line end | not executed | `ScriptOperations.CheckScriptLiteralLeftUnread` | `ScriptOperations.CheckScriptLiteralRead` |

`ScriptOperations.ListScripts` and `ScriptOperations.CheckScript` model the code as written. Each has a corrected counterpart built on the corrected definition:

- `ScriptOperations.ListScriptsCorrected` reads lines with `ScriptOperations.ScriptEntryCorrected`, which uses `ResponseLines.ParseScriptLineCorrected`. `ScriptOperations.ListScriptsReadsBack` states what the as-written listing reports for every listing; `ScriptOperations.ListScriptsCorrectedRoundTrip` states that the corrected one gives every listing back.
- `ScriptOperations.CheckScriptCorrected` reads the reply with `ScriptOperations.CheckScriptReplyCorrected`.

=== FILE: bytes.dfy ===
/**
 * Bytes on the wire: the UTF-8 view `str::as_bytes` gives of the text the
 * client writes, and the byte-oriented `read_line` of its buffered reader.
 */
module Bytes {

  newtype byte = b: int | 0 <= b < 256

  const LF: byte := 10

  /** UTF-8 encoding of one Unicode scalar value (RFC 3629 section 3). */
  function EncodeChar(c: char): (bs: seq<byte>)
    ensures 1 <= |bs| <= 4
    ensures (c as int < 0x80) <==> |bs| == 1
    ensures |bs| == 1 ==> bs[0] as int == c as int
  {
    var n := c as int;
    if n < 0x80 then [n as byte]
    else if n < 0x800 then [(0xC0 + n / 0x40) as byte, (0x80 + n % 0x40) as byte]
    else if n < 0x1_0000 then
      [(0xE0 + n / 0x1000) as byte, (0x80 + (n / 0x40) % 0x40) as byte, (0x80 + n % 0x40) as byte]
    else
      [(0xF0 + n / 0x4_0000) as byte, (0x80 + (n / 0x1000) % 0x40) as byte,
       (0x80 + (n / 0x40) % 0x40) as byte, (0x80 + n % 0x40) as byte]
  }

  /** `str::as_bytes`: the UTF-8 encoding of a whole string. */
  function Utf8(s: string): (bs: seq<byte>)
    ensures |bs| >= |s|
  {
    if |s| == 0 then [] else EncodeChar(s[0]) + Utf8(s[1..])
  }

  lemma {:induction false} Utf8Append(a: string, b: string)
    ensures Utf8(a + b) == Utf8(a) + Utf8(b)
  {
    if |a| > 0 {
      assert (a + b)[1..] == a[1..] + b;
      Utf8Append(a[1..], b);
    } else {
      assert a + b == b;
    }
  }

  /** Only an ASCII character encodes to an ASCII byte, and then to itself. */
  lemma EncodeAvoids(d: char, c: char)
    requires c as int < 0x80 && d != c
    ensures forall k :: 0 <= k < |EncodeChar(d)| ==> EncodeChar(d)[k] as int != c as int
  {
  }

  /** A string without the ASCII character `c` encodes without its byte. */
  lemma {:induction false} Utf8Avoids(s: string, c: char)
    requires c as int < 0x80
    requires forall i :: 0 <= i < |s| ==> s[i] != c
    ensures forall j :: 0 <= j < |Utf8(s)| ==> Utf8(s)[j] as int != c as int
  {
    if |s| > 0 {
      EncodeAvoids(s[0], c);
      Utf8Avoids(s[1..], c);
    }
  }

  /** Index of the first line feed in `bs`, or `|bs|` when there is none. */
  function LineEnd(bs: seq<byte>): (n: nat)
    ensures n <= |bs|
    ensures forall i :: 0 <= i < n ==> bs[i] != LF
    ensures n < |bs| ==> bs[n] == LF
  {
    if |bs| == 0 || bs[0] == LF then 0 else 1 + LineEnd(bs[1..])
  }

  /** `read_line`: everything up to and including the first line feed, or the
      whole remaining stream when no line feed is left (an empty line at end
      of stream). */
  function ReadLine(bs: seq<byte>): (r: (seq<byte>, seq<byte>))
    ensures r.0 + r.1 == bs
    ensures forall i :: 0 <= i < |r.0| - 1 ==> r.0[i] != LF
    ensures |r.1| > 0 ==> |r.0| > 0 && r.0[|r.0| - 1] == LF
  {
    var n := LineEnd(bs);
    if n == |bs| then (bs, []) else (bs[..n + 1], bs[n + 1..])
  }

  /** Reading a line from a stream that starts with a line-feed-free text and
      a line feed yields exactly that line. */
  lemma ReadLineOf(line: seq<byte>, rest: seq<byte>)
    requires forall i :: 0 <= i < |line| ==> line[i] != LF
    ensures ReadLine(line + [LF] + rest) == (line + [LF], rest)
  {
    var bs := line + [LF] + rest;
    LineEndAt(line, [LF] + rest);
    assert bs == line + ([LF] + rest);
    assert bs[..|line| + 1] == line + [LF];
  }

  lemma {:induction false} LineEndAt(line: seq<byte>, rest: seq<byte>)
    requires forall i :: 0 <= i < |line| ==> line[i] != LF
    requires |rest| > 0 && rest[0] == LF
    ensures LineEnd(line + rest) == |line|
  {
    if |line| > 0 {
      assert (line + rest)[1..] == line[1..] + rest;
      LineEndAt(line[1..], rest);
    }
  }
}

=== FILE: capabilities.dfy ===
/**
 * The capability listing a ManageSieve server sends after connecting and
 * after STARTTLS (section 1.7 of RFC 5804), as the client reads it
 * (sieve_client/src/sieve_client.rs): one line per capability, a quoted
 * name and an optional quoted value, ended by an `OK` line.
 */
module ServerCapabilities {
  import opened Optional
  import opened Text
  import opened Numbers
  import opened Combinators
  import opened ResponseLines

  datatype Capabilities = Capabilities(
    implementation: Option<string>,
    sasl: seq<string>,
    sieve: seq<string>,
    starttls: bool,
    maxRedirects: Option<nat>,
    notify: seq<string>,
    language: Option<string>,
    owner: Option<string>,
    version: Option<string>,
    other: map<string, string>)

  /** Nothing advertised. */
  const Default := Capabilities(None, [], [], false, None, [], None, None, None, map[])

  // ---------------------------------------------------------------- parsing

  /** The quoted value of a capability, or nothing. */
  function ValueText(value: Option<string>): string {
    if value.Some? then Quoted(value.value) else ""
  }

  /** `parse_capability`: a quoted name, spaces and tabs, and an optional
      quoted value; a value that does not parse is simply absent, and the
      spaces and tabs before it are consumed all the same. */
  function ParseCapability(s: string): (r: Parsed<(string, Option<string>)>)
    ensures !r.Incomplete?
    ensures r.Error? <==> !ParseQuotedString(s).Done?
    ensures r.Done? ==> NoQuote(r.value.0) && StartsWith(s, Quoted(r.value.0))
    ensures r.Done? && r.value.1.Some? ==> NoQuote(r.value.1.value)
    ensures r.Done? ==> exists w :: AllBlank(w) && s == Quoted(r.value.0) + w + ValueText(r.value.1) + r.rest
    ensures r.Done? && r.value.1.None? ==>
      (|r.rest| == 0 || !IsBlank(r.rest[0])) && !ParseQuotedString(r.rest).Done?
  {
    match ParseQuotedString(s)
    case Done(name, after) =>
      StartsWithAppend(Quoted(name), after);
      var t := SkipBlanks(after);
      (match ParseQuotedString(t)
       case Done(value, rest) =>
         CapabilityParts(s, name, after, t, ValueText(Some(value)), rest);
         Done((name, Some(value)), rest)
       case _ =>
         CapabilityParts(s, name, after, t, ValueText(None), t);
         Done((name, None), t))
    case _ => Error
  }

  /** The pieces `parse_capability` cuts a line into: the quoted name, the
      blanks it skips, the value text and what is left. */
  lemma CapabilityParts(s: string, name: string, after: string, t: string, value: string, rest: string)
    requires s == Quoted(name) + after
    requires t == SkipBlanks(after) && t == value + rest
    ensures |t| <= |after| && AllBlank(after[..|after| - |t|])
    ensures s == Quoted(name) + after[..|after| - |t|] + value + rest
  {
    var w := after[..|after| - |t|];
    assert after == w + t;
  }

  const InvalidFormat := "Invalid capability format"
  const TrailingContent := "Unexpected content after capability: "

  /** `parse_capability_line`: the trimmed line must be exactly one
      capability; the error names what went wrong. */
  function ParseCapabilityLine(line: string): (r: Result<(string, Option<string>), string>)
    ensures r.Ok? ==> NoQuote(r.value.0) && StartsWith(Trim(line), Quoted(r.value.0))
    ensures r.Ok? && r.value.1.None? ==> Trim(line) == Quoted(r.value.0)
    ensures r.Ok? && r.value.1.Some? ==> NoQuote(r.value.1.value) && EndsWith(Trim(line), Quoted(r.value.1.value))
    ensures r.Err? ==> r.error == InvalidFormat || StartsWith(r.error, TrailingContent)
    ensures r.Err? && r.error == InvalidFormat <==> ParseCapability(Trim(line)).Error?
    ensures r.Ok? <==> ParseCapability(Trim(line)).Done? && ParseCapability(Trim(line)).rest == ""
    ensures r.Ok? ==> r.value == ParseCapability(Trim(line)).value
    ensures r.Err? && r.error != InvalidFormat ==> r.error == TrailingContent + ParseCapability(Trim(line)).rest
  {
    var t := Trim(line);
    match ParseCapability(t)
    case Done(cap, remaining) =>
      if remaining != "" then
        StartsWithAppend(TrailingContent, remaining);
        Err(TrailingContent + remaining)
      else
        CapabilityShape(t);
        Ok(cap)
    case _ => Err(InvalidFormat)
  }

  /** What a capability that takes all of a trimmed line looks like. */
  lemma CapabilityShape(t: string)
    requires |t| > 0 ==> IsNotWhitespace(t[|t| - 1])
    requires ParseCapability(t).Done? && ParseCapability(t).rest == ""
    ensures var (name, value) := ParseCapability(t).value;
      (value.None? ==> t == Quoted(name))
      && (value.Some? ==> NoQuote(value.value) && EndsWith(t, Quoted(value.value)))
  {
    var name := ParseQuotedString(t).value;
    var after := ParseQuotedString(t).rest;
    var u := SkipBlanks(after);
    if ParseQuotedString(u).Done? {
      ValueShape(t, name, after, u, ParseQuotedString(u).value);
    } else {
      BareShape(t, name, after);
    }
  }

  lemma ValueShape(t: string, name: string, after: string, u: string, value: string)
    requires t == Quoted(name) + after
    requires |u| <= |after| && u == after[|after| - |u|..] && u == Quoted(value) + ""
    ensures EndsWith(t, Quoted(value))
  {
    assert t[|t| - |Quoted(value)|..] == after[|after| - |u|..];
  }

  lemma BareShape(t: string, name: string, after: string)
    requires t == Quoted(name) + after
    requires IsNotWhitespace(t[|t| - 1])
    requires forall i :: 0 <= i < |after| ==> IsBlank(after[i])
    ensures t == Quoted(name)
  {
    if |after| > 0 {
      assert false;
    }
  }

  /** A capability as a server writes it: the quoted name and, when there is
      a value, a space and the quoted value. */
  function CapabilityText(name: string, value: Option<string>): string {
    Quoted(name) + (if value.Some? then " " + Quoted(value.value) else "")
  }

  lemma SkipOneBlank(t: string)
    requires |t| > 0 && t[0] == '"'
    ensures SkipBlanks(" " + t) == t
  {
    PrefixLengthAppend(" ", t, IsBlank);
  }

  /** Every capability line a server writes, with its line terminator, reads
      back as the capability it describes. */
  lemma CapabilityLineOf(name: string, value: Option<string>, w: string)
    requires NoQuote(name) && (value.Some? ==> NoQuote(value.value))
    requires AllWhitespace(w)
    ensures ParseCapabilityLine(CapabilityText(name, value) + w) == Ok((name, value))
  {
    var text := CapabilityText(name, value);
    var tail := if value.Some? then " " + Quoted(value.value) else "";
    assert text[|text| - 1] == '"';
    TrimWhitespaceTail(text, w);
    QuotedStringOf(name, tail);
    if value.Some? {
      SkipOneBlank(Quoted(value.value));
      QuotedStringOf(value.value, "");
      assert Quoted(value.value) + "" == Quoted(value.value);
    }
  }

  /** A value written without quotes is not a value: it is reported as
      content after the capability. */
  lemma UnquotedValueRejected(name: string, v: string)
    requires NoQuote(name)
    requires |v| > 0 && v[0] != '"' && !IsBlank(v[0]) && IsNotWhitespace(v[|v| - 1])
    ensures ParseCapabilityLine(Quoted(name) + " " + v) == Err(TrailingContent + v)
  {
    var line := Quoted(name) + " " + v;
    TrimNoop(line);
    assert line == Quoted(name) + (" " + v);
    QuotedStringOf(name, " " + v);
    PrefixLengthAppend(" ", v, IsBlank);
  }

  /** A line that does not start, after trimming, with a quote is not a
      capability. */
  lemma UnquotedNameRejected(line: string)
    requires |Trim(line)| == 0 || Trim(line)[0] != '"'
    ensures ParseCapabilityLine(line) == Err(InvalidFormat)
  {
  }

  // --------------------------------------------------------------- updating

  /** The part of the capabilities a capability name addresses. */
  datatype Field =
    | Implementation | Sasl | Sieve | StartTls | MaxRedirects | Notify
    | Language | Owner | Version | Other

  /** The upper-case name a field is advertised under; `Other` has none. */
  function FieldName(f: Field): string {
    match f
    case Implementation => "IMPLEMENTATION"
    case Sasl => "SASL"
    case Sieve => "SIEVE"
    case StartTls => "STARTTLS"
    case MaxRedirects => "MAXREDIRECTS"
    case Notify => "NOTIFY"
    case Language => "LANGUAGE"
    case Owner => "OWNER"
    case Version => "VERSION"
    case Other => ""
  }

  /** Names are matched after upper-casing: a name addresses the field
      advertised under its upper-cased form, and `Other` when no field is. */
  function FieldOf(name: string): (f: Field)
    ensures f != Other ==> FieldName(f) == Upper(name)
    ensures f == Other <==> forall g: Field :: g != Other ==> FieldName(g) != Upper(name)
  {
    var n := Upper(name);
    if n == "IMPLEMENTATION" then Implementation
    else if n == "SASL" then Sasl
    else if n == "SIEVE" then Sieve
    else if n == "STARTTLS" then StartTls
    else if n == "MAXREDIRECTS" then MaxRedirects
    else if n == "NOTIFY" then Notify
    else if n == "LANGUAGE" then Language
    else if n == "OWNER" then Owner
    else if n == "VERSION" then Version
    else Other
  }

  /** Whatever case a server writes a name in, it addresses the same field. */
  lemma FieldIgnoresCase(name: string)
    ensures FieldOf(Lower(name)) == FieldOf(name)
    ensures FieldOf(Upper(name)) == FieldOf(name)
  {
    assert Lower(name) == MapChars(LowerChar, name);
    assert Upper(name) == MapChars(UpperChar, name);
    UpperOfMapped(name);
  }

  /** `a` and `b` differ at most in field `f`. */
  predicate AgreeExcept(a: Capabilities, b: Capabilities, f: Field) {
    (f != Implementation ==> a.implementation == b.implementation)
    && (f != Sasl ==> a.sasl == b.sasl)
    && (f != Sieve ==> a.sieve == b.sieve)
    && (f != StartTls ==> a.starttls == b.starttls)
    && (f != MaxRedirects ==> a.maxRedirects == b.maxRedirects)
    && (f != Notify ==> a.notify == b.notify)
    && (f != Language ==> a.language == b.language)
    && (f != Owner ==> a.owner == b.owner)
    && (f != Version ==> a.version == b.version)
    && (f != Other ==> a.other == b.other)
  }

  /** A list-valued capability: its words, or no change when it has no
      value. */
  function Words(old_: seq<string>, value: Option<string>): (r: seq<string>)
    ensures value.None? ==> r == old_
    ensures forall k :: 0 <= k < |r| && value.Some? ==> IsWord(r[k])
  {
    if value.Some? then SplitWhitespace(value.value) else old_
  }

  /** `update_capabilities`: record one capability. */
  function UpdateCapabilities(c: Capabilities, name: string, value: Option<string>): (r: Capabilities)
    ensures AgreeExcept(c, r, FieldOf(name))
    ensures FieldOf(name) == Implementation ==> r.implementation == value
    ensures FieldOf(name) == Language ==> r.language == value
    ensures FieldOf(name) == Owner ==> r.owner == value
    ensures FieldOf(name) == Version ==> r.version == value
    ensures value.Some? && FieldOf(name) == Sasl ==> r.sasl == SplitWhitespace(value.value)
    ensures value.Some? && FieldOf(name) == Sieve ==> r.sieve == SplitWhitespace(value.value)
    ensures value.Some? && FieldOf(name) == Notify ==> r.notify == SplitWhitespace(value.value)
    ensures FieldOf(name) == MaxRedirects ==>
      r.maxRedirects == (if value.Some? && ParseUnsigned(value.value, U32_MAX).Some?
                         then ParseUnsigned(value.value, U32_MAX) else c.maxRedirects)
    ensures FieldOf(name) == StartTls ==> r.starttls
    ensures FieldOf(name) == Other ==> r.other == c.other[name := if value.Some? then value.value else ""]
  {
    match FieldOf(name)
    case Implementation => c.(implementation := value)
    case Sasl => c.(sasl := Words(c.sasl, value))
    case Sieve => c.(sieve := Words(c.sieve, value))
    case StartTls => c.(starttls := true)
    case MaxRedirects =>
      if value.Some? && ParseUnsigned(value.value, U32_MAX).Some? then
        c.(maxRedirects := ParseUnsigned(value.value, U32_MAX))
      else c
    case Notify => c.(notify := Words(c.notify, value))
    case Language => c.(language := value)
    case Owner => c.(owner := value)
    case Version => c.(version := value)
    case Other => c.(other := c.other[name := if value.Some? then value.value else ""])
  }

  /** A mechanism list written with single spaces reads back word for word. */
  lemma SaslRoundTrip(c: Capabilities, name: string, mechanisms: seq<string>)
    requires FieldOf(name) == Sasl
    requires forall k :: 0 <= k < |mechanisms| ==> IsWord(mechanisms[k])
    ensures UpdateCapabilities(c, name, Some(JoinSpaced(mechanisms))).sasl == mechanisms
  {
    WordsRoundTrip(mechanisms);
  }

  /** `SASL`, `SIEVE` and `NOTIFY` record the words of their value in order,
      whatever runs of White_Space surround and separate them. */
  lemma ListValueRead(c: Capabilities, name: string, words: seq<string>, gaps: seq<string>)
    requires FieldOf(name) in {Sasl, Sieve, Notify}
    requires forall k :: 0 <= k < |words| ==> IsWord(words[k])
    requires Separators(gaps, |words|)
    ensures var r := UpdateCapabilities(c, name, Some(Spaced(words, gaps)));
      (FieldOf(name) == Sasl ==> r.sasl == words)
      && (FieldOf(name) == Sieve ==> r.sieve == words)
      && (FieldOf(name) == Notify ==> r.notify == words)
  {
    SplitSpaced(words, gaps);
  }

  lemma WordsRoundTrip(words: seq<string>)
    requires forall k :: 0 <= k < |words| ==> IsWord(words[k])
    ensures SplitWhitespace(JoinSpaced(words)) == words
  {
    var j := JoinSpaced(words);
    SplitJoinSpaced(words, "", "");
    assert "" + j == j;
    assert j + "" == j;
  }

  /** `SASL`, `SIEVE` and `NOTIFY` without a value leave the list alone,
      while `IMPLEMENTATION` and the other text fields without one are
      cleared. */
  lemma MissingValue(c: Capabilities, name: string)
    ensures FieldOf(name) in {Sasl, Sieve, Notify, MaxRedirects} ==> UpdateCapabilities(c, name, None) == c
    ensures FieldOf(name) == Implementation ==> UpdateCapabilities(c, name, None).implementation == None
    ensures FieldOf(name) == Version ==> UpdateCapabilities(c, name, None).version == None
  {
  }

  /** `MAXREDIRECTS` takes a decimal `u32`; a larger number changes nothing. */
  lemma MaxRedirectsOf(c: Capabilities, name: string, n: nat)
    requires FieldOf(name) == MaxRedirects
    ensures UpdateCapabilities(c, name, Some(Decimal(n))).maxRedirects
      == (if n <= U32_MAX then Some(n) else c.maxRedirects)
  {
    DecimalRoundTrip(n, U32_MAX);
  }

  /** Any value that is not a number leaves `MAXREDIRECTS` unchanged. */
  lemma MaxRedirectsIgnoresText(c: Capabilities, name: string, v: string, i: nat)
    requires FieldOf(name) == MaxRedirects
    requires i < |v| && !IsDigit(v[i]) && !(i == 0 && v[0] == '+')
    ensures UpdateCapabilities(c, name, Some(v)) == c
  {
    NonDigitRejected(v, U32_MAX, i);
  }

  // ---------------------------------------------------------------- reading

  /** The capabilities the lines describe, in order; lines that are not
      capabilities contribute nothing. */
  function Entries(lines: seq<string>): seq<(string, Option<string>)> {
    Accepted(CapabilityEntry, lines)
  }

  /** The capability a line holds, if it holds one. */
  function CapabilityEntry(line: string): Option<(string, Option<string>)> {
    if ParseCapabilityLine(line).Ok? then Some(ParseCapabilityLine(line).value) else None
  }

  /** Recording the entries one after the other. */
  function ApplyAll(c: Capabilities, es: seq<(string, Option<string>)>): Capabilities
    decreases |es|
  {
    if |es| == 0 then c else ApplyAll(UpdateCapabilities(c, es[0].0, es[0].1), es[1..])
  }

  lemma {:induction false} ApplyAllAppend(c: Capabilities, a: seq<(string, Option<string>)>, b: seq<(string, Option<string>)>)
    ensures ApplyAll(c, a + b) == ApplyAll(ApplyAll(c, a), b)
    decreases |a|
  {
    if |a| == 0 {
      assert a + b == b;
    } else {
      assert (a + b)[1..] == a[1..] + b;
      ApplyAllAppend(UpdateCapabilities(c, a[0].0, a[0].1), a[1..], b);
    }
  }

  /** `read_capabilities` from capabilities `c` on: skip blank lines, stop
      after the first `OK` line, and record every line that parses as a
      capability, ignoring those that do not. */
  function ReadCapabilitiesFrom(c: Capabilities, lines: seq<string>): (r: Reply<Capabilities>)
    ensures r.Finished? <==> FirstOk(lines).Some?
    ensures r.Finished? ==> r.rest == lines[FirstOk(lines).value + 1..]
    ensures r.Finished? ==> r.value == ApplyAll(c, Entries(lines[..FirstOk(lines).value]))
    decreases |lines|
  {
    if |lines| == 0 then Stalled
    else if Classify(lines[0]) == OkStatus then
      Finished(c, lines[1..])
    else
      // A blank line carries no status (`BlankUntagged`) and holds no
      // capability (`UnquotedNameRejected`), so skipping it is recording
      // nothing.
      var next := Record(c, lines[0]);
      ReadStep(c, lines, next);
      ReadCapabilitiesFrom(next, lines[1..])
  }

  /** What one line adds to the capabilities: the update it parses to, or
      nothing when it does not parse. */
  function Record(c: Capabilities, line: string): (r: Capabilities)
    ensures r == ApplyAll(c, Entries([line]))
  {
    match ParseCapabilityLine(line)
    case Ok((name, value)) => UpdateCapabilities(c, name, value)
    case Err(_) => c
  }

  /** One line that is not `OK`: its entries, if any, come first. */
  lemma ReadStep(c: Capabilities, lines: seq<string>, next: Capabilities)
    requires |lines| > 0 && Classify(lines[0]) != OkStatus
    requires next == ApplyAll(c, Entries([lines[0]]))
    ensures FirstOk(lines).Some? <==> FirstOk(lines[1..]).Some?
    ensures FirstOk(lines).Some? ==>
      FirstOk(lines).value == FirstOk(lines[1..]).value + 1
      && ApplyAll(c, Entries(lines[..FirstOk(lines).value]))
         == ApplyAll(next, Entries(lines[1..][..FirstOk(lines[1..]).value]))
  {
    if FirstOk(lines).Some? {
      ApplyPrefix(c, lines, FirstOk(lines[1..]).value);
    }
  }

  lemma ApplyPrefix(c: Capabilities, lines: seq<string>, k: nat)
    requires k < |lines|
    ensures ApplyAll(c, Entries(lines[..k + 1]))
      == ApplyAll(ApplyAll(c, Entries([lines[0]])), Entries(lines[1..][..k]))
  {
    SliceCons(lines, k);
    AcceptedAppend(CapabilityEntry, [lines[0]], lines[1..][..k]);
    ApplyAllAppend(c, Entries([lines[0]]), Entries(lines[1..][..k]));
  }

  /** `read_capabilities`: starting from nothing advertised. */
  function ReadCapabilities(lines: seq<string>): (r: Reply<Capabilities>)
    ensures r.Finished? <==> FirstOk(lines).Some?
    ensures r.Finished? ==> r.value == ApplyAll(Default, Entries(lines[..FirstOk(lines).value]))
  {
    ReadCapabilitiesFrom(Default, lines)
  }

  // ------------------------------------------------------------ round trip

  /** The listing a server sends for capabilities `es`, one per line. */
  function ListingLines(es: seq<(string, Option<string>)>): (lines: seq<string>)
    ensures |lines| == |es|
    ensures forall i :: 0 <= i < |es| ==> lines[i] == CapabilityText(es[i].0, es[i].1) + CRLF
  {
    if |es| == 0 then [] else [CapabilityText(es[0].0, es[0].1) + CRLF] + ListingLines(es[1..])
  }

  /** Names and values a quoted string can carry. */
  predicate Writable(es: seq<(string, Option<string>)>) {
    forall i :: 0 <= i < |es| ==> NoQuote(es[i].0) && (es[i].1.Some? ==> NoQuote(es[i].1.value))
  }

  /** A capability line never reads as the closing `OK`. */
  lemma CapabilityLineNotOk(name: string, value: Option<string>)
    ensures Classify(CapabilityText(name, value) + CRLF) != OkStatus
  {
    var text := CapabilityText(name, value);
    assert text[0] == '"' && text[|text| - 1] == '"';
    QuotedLineUntagged(text);
  }

  lemma WritableTail(es: seq<(string, Option<string>)>)
    requires |es| > 0 && Writable(es)
    ensures Writable(es[1..])
  {
    forall i | 0 <= i < |es| - 1 ensures NoQuote(es[1..][i].0) && (es[1..][i].1.Some? ==> NoQuote(es[1..][i].1.value)) {
      assert es[1..][i] == es[i + 1];
    }
  }

  lemma {:induction false} ListingEntries(es: seq<(string, Option<string>)>)
    requires Writable(es)
    ensures Entries(ListingLines(es)) == es
    decreases |es|
  {
    if |es| > 0 {
      WritableTail(es);
      ListingEntries(es[1..]);
      ListingStep(es);
    }
  }

  lemma EntryOf(name: string, value: Option<string>)
    requires NoQuote(name) && (value.Some? ==> NoQuote(value.value))
    ensures CapabilityEntry(CapabilityText(name, value) + CRLF) == Some((name, value))
  {
    CrlfWhitespace();
    CapabilityLineOf(name, value, CRLF);
  }

  lemma ListingStep(es: seq<(string, Option<string>)>)
    requires |es| > 0 && NoQuote(es[0].0) && (es[0].1.Some? ==> NoQuote(es[0].1.value))
    requires Entries(ListingLines(es[1..])) == es[1..]
    ensures Entries(ListingLines(es)) == es
  {
    var e := es[0];
    var line := CapabilityText(e.0, e.1) + CRLF;
    assert ListingLines(es) == [line] + ListingLines(es[1..]);
    EntryOf(e.0, e.1);
    AcceptedCons(CapabilityEntry, line, ListingLines(es[1..]), e);
    ConsTail(es);
  }

  lemma ListingFirstOk(es: seq<(string, Option<string>)>, ok: string, more: seq<string>)
    requires Classify(ok) == OkStatus
    ensures FirstOk(ListingLines(es) + [ok] + more) == Some(|es|)
  {
    var listing := ListingLines(es);
    forall i | 0 <= i < |listing| ensures !ReportsOk(listing[i]) {
      CapabilityLineNotOk(es[i].0, es[i].1);
    }
    FirstWhereAfter(ReportsOk, listing, ok, more);
  }

  /** A server's whole capability listing, up to and including its `OK`
      line, reads back as the capabilities it lists, recorded in order; the
      lines after the `OK` are left for the next reader. */
  lemma CapabilitiesRoundTrip(es: seq<(string, Option<string>)>, ok: string, more: seq<string>)
    requires Writable(es) && Classify(ok) == OkStatus
    ensures ReadCapabilities(ListingLines(es) + [ok] + more) == Finished(ApplyAll(Default, es), more)
  {
    var lines := ListingLines(es) + [ok] + more;
    ListingFirstOk(es, ok, more);
    AroundOne(ListingLines(es), ok, more);
    ListingEntries(es);
  }
}

=== FILE: combinators.dfy ===
/**
 * The part of nom 7 that the script parser is built from. A parser maps its
 * input to `Done(value, rest)`, to a plain `Error` (the next alternative may
 * still match), or to `Incomplete`, which the streaming `char` reports at
 * end of input and which every combinator passes on instead of backtracking.
 */
module Combinators {
  import opened Text

  datatype Parsed<+T> = Done(value: T, rest: string) | Error | Incomplete {

    predicate IsFailure() {
      !Done?
    }

    function PropagateFailure<U>(): Parsed<U>
      requires !Done?
    {
      if Error? then Error else Incomplete
    }

    function Extract(): (T, string)
      requires Done?
    {
      (value, rest)
    }
  }

  /** `alt((a, b))`: the second alternative runs only when the first failed
      with a plain error. */
  function Alt<T>(first: Parsed<T>, second: Parsed<T>): Parsed<T> {
    if first.Error? then second else first
  }

  /** `map(p, f)`. */
  function Map<T, U>(p: Parsed<T>, f: T -> U): (r: Parsed<U>)
    ensures r.Done? <==> p.Done?
    ensures r.Done? ==> r.value == f(p.value) && r.rest == p.rest
    ensures r.Incomplete? <==> p.Incomplete?
  {
    match p
    case Done(v, rest) => Done(f(v), rest)
    case Error => Error
    case Incomplete => Incomplete
  }

  /** `character::streaming::char(c)`. */
  function Char(c: char, s: string): (r: Parsed<char>)
    ensures r.Done? <==> |s| > 0 && s[0] == c
    ensures r.Incomplete? <==> |s| == 0
    ensures r.Done? ==> r.rest == s[1..]
  {
    if |s| == 0 then Incomplete else if s[0] == c then Done(c, s[1..]) else Error
  }

  /** `bytes::complete::tag(t)`: never incomplete. */
  function Tag(t: string, s: string): (r: Parsed<string>)
    ensures r.Done? <==> StartsWith(s, t)
    ensures r.Done? ==> r.rest == s[|t|..]
    ensures !r.Incomplete?
  {
    if StartsWith(s, t) then Done(t, s[|t|..]) else Error
  }

  /** A tag matches the text it starts. */
  lemma TagPrefix(t: string, rest: string)
    ensures Tag(t, t + rest) == Done(t, rest)
  {
    StartsWithAppend(t, rest);
    assert (t + rest)[|t|..] == rest;
  }

  /** A tag fails, without asking for more input, on text that differs from it
      at position `i`. */
  lemma TagMismatch(t: string, s: string, i: nat)
    requires i < |s| && i < |t| && s[i] != t[i]
    ensures Tag(t, s) == Error
  {
    MismatchAt(s, t, i);
  }
}

=== FILE: commands.dfy ===
/**
 * The commands the client writes (sieve_client/src/sieve_client.rs), as
 * text and as the bytes that go on the wire, and what a ManageSieve server
 * (RFC 5804) reads back from them: the quoted names, the one-line framing,
 * the `{N}` literals of PUTSCRIPT and CHECKSCRIPT, and the SASL PLAIN
 * message (RFC 4616) of AUTHENTICATE.
 */
module Commands {
  import opened Optional
  import opened Text
  import opened Numbers
  import opened Bytes
  import opened Combinators
  import opened ResponseLines

  const StartTlsCommand := "STARTTLS" + CRLF
  const ListScriptsCommand := "LISTSCRIPTS" + CRLF

  /** `pre`, `mid` and `post` written one after the other: the text starts
      with `pre`, ends with `post`, and `mid` sits between them. */
  lemma Framed(pre: string, mid: string, post: string)
    ensures var s := pre + mid + post;
      StartsWith(s, pre) && EndsWith(s, post) && |s| == |pre| + |mid| + |post|
      && s[|pre|..|s| - |post|] == mid
  {
    var s := pre + mid + post;
    assert s[..|pre|] == pre;
    assert s[|s| - |post|..] == post;
  }

  /** A command whose one argument is a quoted script name. Names are put
      between quotes as they are, without escaping: the name is carried
      verbatim between the quote after the verb and the quote before CRLF. */
  function NameCommand(verb: string, name: string): (c: string)
    ensures StartsWith(c, verb + " \"") && EndsWith(c, "\"" + CRLF)
    ensures |c| == |verb| + |name| + 5 && c[|verb| + 2..|c| - 3] == name
  {
    assert verb + " " + Quoted(name) + CRLF == (verb + " \"") + name + ("\"" + CRLF);
    Framed(verb + " \"", name, "\"" + CRLF);
    verb + " " + Quoted(name) + CRLF
  }

  /** GETSCRIPT with the name quoted. */
  function GetScriptCommand(name: string): (c: string)
    ensures StartsWith(c, "GETSCRIPT \"") && EndsWith(c, "\"" + CRLF)
    ensures |c| == |name| + 14 && c[11..|c| - 3] == name
  {
    NameCommand("GETSCRIPT", name)
  }

  /** DELETESCRIPT with the name quoted. */
  function DeleteScriptCommand(name: string): (c: string)
    ensures StartsWith(c, "DELETESCRIPT \"") && EndsWith(c, "\"" + CRLF)
    ensures |c| == |name| + 17 && c[14..|c| - 3] == name
  {
    NameCommand("DELETESCRIPT", name)
  }

  /** SETACTIVE with the name quoted. */
  function SetActiveCommand(name: string): (c: string)
    ensures StartsWith(c, "SETACTIVE \"") && EndsWith(c, "\"" + CRLF)
    ensures |c| == |name| + 14 && c[11..|c| - 3] == name
  {
    NameCommand("SETACTIVE", name)
  }

  /** RENAMESCRIPT with both names quoted, the old one first. */
  function RenameScriptCommand(oldName: string, newName: string): (c: string)
    ensures StartsWith(c, "RENAMESCRIPT \"") && EndsWith(c, "\"" + CRLF)
    ensures |c| == |oldName| + |newName| + 20
    ensures c[14..14 + |oldName|] == oldName && c[14 + |oldName|..17 + |oldName|] == "\" \""
    ensures c[17 + |oldName|..|c| - 3] == newName
  {
    var c := "RENAMESCRIPT " + Quoted(oldName) + " " + Quoted(newName) + CRLF;
    var between := "\" \"" + newName;
    assert c == "RENAMESCRIPT \"" + (oldName + between) + ("\"" + CRLF);
    Framed("RENAMESCRIPT \"", oldName + between, "\"" + CRLF);
    assert (oldName + between)[..|oldName|] == oldName;
    assert (oldName + between)[|oldName|..|oldName| + 3] == "\" \"";
    assert (oldName + between)[|oldName| + 3..] == newName;
    c
  }

  /** The first line of a command that carries `content` as a literal: the
      literal announces the length of the content's UTF-8 encoding, in
      decimal, between `{` and `}` at the end of the line. */
  function LiteralHeader(prefix: string, content: string): (h: string)
    ensures StartsWith(h, prefix + "{") && EndsWith(h, "}" + CRLF)
    ensures |h| == |prefix| + |Decimal(|Utf8(content)|)| + 4
    ensures h[|prefix| + 1..|h| - 3] == Decimal(|Utf8(content)|)
  {
    var d := Decimal(|Utf8(content)|);
    assert prefix + "{" + d + "}" + CRLF == (prefix + "{") + d + ("}" + CRLF);
    Framed(prefix + "{", d, "}" + CRLF);
    prefix + "{" + d + "}" + CRLF
  }

  /** PUTSCRIPT: the header line, then the content; nothing follows the
      content. */
  function PutScriptCommand(name: string, content: string): (c: seq<byte>)
    ensures |c| > |Utf8(content)| && c[|c| - |Utf8(content)|..] == Utf8(content)
  {
    var h := Utf8(LiteralHeader("PUTSCRIPT " + Quoted(name) + " ", content));
    assert (h + Utf8(content))[|h|..] == Utf8(content);
    h + Utf8(content)
  }

  /** CHECKSCRIPT: the same framing without a name. */
  function CheckScriptCommand(script: string): (c: seq<byte>)
    ensures |c| > |Utf8(script)| && c[|c| - |Utf8(script)|..] == Utf8(script)
  {
    var h := Utf8(LiteralHeader("CHECKSCRIPT ", script));
    assert (h + Utf8(script))[|h|..] == Utf8(script);
    h + Utf8(script)
  }

  /** The SASL PLAIN message: an empty authorization identity, NUL, the user,
      NUL, the password, as bytes. */
  function PlainMessage(user: string, password: string): (m: seq<byte>)
    ensures m == [NUL] + (Utf8(user) + [NUL] + Utf8(password))
  {
    PlainBytes(user, password);
    Utf8("\0" + user + "\0" + password)
  }

  /** AUTHENTICATE with the PLAIN mechanism and the message, encoded by
      `encode` (base64 with the standard alphabet), as a quoted string. */
  function AuthenticateCommand(user: string, password: string, encode: seq<byte> -> string): (c: string)
    ensures StartsWith(c, "AUTHENTICATE \"PLAIN\" \"") && EndsWith(c, "\"" + CRLF)
    ensures |c| == |encode(PlainMessage(user, password))| + 25
    ensures c[22..|c| - 3] == encode(PlainMessage(user, password))
  {
    var e := encode(PlainMessage(user, password));
    assert "AUTHENTICATE \"PLAIN\" " + Quoted(e) + CRLF == "AUTHENTICATE \"PLAIN\" \"" + e + ("\"" + CRLF);
    Framed("AUTHENTICATE \"PLAIN\" \"", e, "\"" + CRLF);
    "AUTHENTICATE \"PLAIN\" " + Quoted(e) + CRLF
  }

  // ------------------------------------------------------------- arguments

  /** The server reads back the name a command carries, up to the line end. */
  lemma NameCommandArgument(verb: string, name: string)
    requires NoQuote(name)
    ensures StartsWith(NameCommand(verb, name), verb + " ")
    ensures ParseQuotedString(NameCommand(verb, name)[|verb| + 1..]) == Done(name, CRLF)
  {
    var c := NameCommand(verb, name);
    assert c == (verb + " ") + (Quoted(name) + CRLF);
    StartsWithAppend(verb + " ", Quoted(name) + CRLF);
    assert c[|verb| + 1..] == Quoted(name) + CRLF;
    QuotedStringOf(name, CRLF);
  }

  /** ... and both names of RENAMESCRIPT, in order. */
  lemma RenameArguments(oldName: string, newName: string)
    requires NoQuote(oldName) && NoQuote(newName)
    ensures var args := RenameScriptCommand(oldName, newName)[13..];
      ParseQuotedString(args) == Done(oldName, " " + Quoted(newName) + CRLF)
      && ParseQuotedString(Quoted(newName) + CRLF) == Done(newName, CRLF)
  {
    var tail := " " + Quoted(newName) + CRLF;
    assert RenameScriptCommand(oldName, newName)[13..] == Quoted(oldName) + tail;
    QuotedStringOf(oldName, tail);
    QuotedStringOf(newName, CRLF);
  }

  /** A quote inside a name ends it early: the server reads only the part
      before the quote, and the rest is left over on the line. */
  lemma QuoteInNameSplits(verb: string, a: string, b: string)
    requires NoQuote(a)
    ensures ParseQuotedString(NameCommand(verb, a + "\"" + b)[|verb| + 1..]) == Done(a, b + "\"" + CRLF)
  {
    var c := NameCommand(verb, a + "\"" + b);
    assert c[|verb| + 1..] == Quoted(a) + (b + "\"" + CRLF);
    QuotedStringOf(a, b + "\"" + CRLF);
  }

  // --------------------------------------------------------------- framing

  predicate NoLineFeed(s: string) {
    forall i :: 0 <= i < |s| ==> s[i] != '\n'
  }

  /** Text without a line feed, then CRLF, is read by the server as exactly
      one line. */
  lemma OneLine(text: string, more: seq<byte>)
    requires NoLineFeed(text)
    ensures ReadLine(Utf8(text + CRLF) + more) == (Utf8(text + CRLF), more)
  {
    Utf8Avoids(text + "\r", '\n');
    Utf8Append(text + "\r", "\n");
    assert text + CRLF == (text + "\r") + "\n";
    assert Utf8("\n") == [LF];
    ReadLineOf(Utf8(text + "\r"), more);
  }

  /** A name command is one line as long as the name has no line feed. */
  lemma NameCommandFraming(verb: string, name: string, more: seq<byte>)
    requires NoLineFeed(verb) && NoLineFeed(name)
    ensures ReadLine(Utf8(NameCommand(verb, name)) + more) == (Utf8(NameCommand(verb, name)), more)
  {
    var text := verb + " " + Quoted(name);
    assert NoLineFeed(text) by {
      forall i | 0 <= i < |text| ensures text[i] != '\n' {
        if |verb| + 2 <= i < |text| - 1 {
          assert text[i] == name[i - |verb| - 2];
        }
      }
    }
    OneLine(text, more);
  }

  /** A literal command is its header line followed by the content: the
      server's line read stops right before the content. */
  lemma LiteralFraming(prefix: string, content: string, more: seq<byte>)
    requires NoLineFeed(prefix)
    ensures ReadLine(Utf8(LiteralHeader(prefix, content)) + (Utf8(content) + more))
      == (Utf8(LiteralHeader(prefix, content)), Utf8(content) + more)
  {
    var n := |Utf8(content)|;
    var text := prefix + "{" + Decimal(n) + "}";
    assert NoLineFeed(text) by {
      forall i | 0 <= i < |text| ensures text[i] != '\n' {
        if |prefix| < i < |text| - 1 {
          assert text[i] == Decimal(n)[i - |prefix| - 1];
        }
      }
    }
    assert LiteralHeader(prefix, content) == text + CRLF;
    OneLine(text, Utf8(content) + more);
  }

  /** The header ends in the literal `{N}`, and `N` is the number of content
      bytes that follow it. */
  lemma LiteralAnnounced(prefix: string, content: string)
    ensures var n := |Utf8(content)|;
      EndsWith(LiteralHeader(prefix, content), "{" + Decimal(n) + "}" + CRLF)
      && ParseLiteralLength("{" + Decimal(n) + "}") == (if n <= USIZE_MAX then Some(n) else None)
  {
    var n := |Utf8(content)|;
    var h := LiteralHeader(prefix, content);
    assert h == prefix + ("{" + Decimal(n) + "}" + CRLF);
    LiteralLengthOf(n);
  }

  /** PUTSCRIPT: the server reads the header line, then the content, and
      then, with nothing in between, whatever the client writes next. */
  lemma PutScriptFraming(name: string, content: string, more: seq<byte>)
    requires NoLineFeed(name)
    ensures ReadLine(PutScriptCommand(name, content) + more)
      == (Utf8(LiteralHeader("PUTSCRIPT " + Quoted(name) + " ", content)), Utf8(content) + more)
  {
    var prefix := "PUTSCRIPT " + Quoted(name) + " ";
    assert NoLineFeed(prefix) by {
      forall i | 0 <= i < |prefix| ensures prefix[i] != '\n' {
        if 11 <= i < |prefix| - 2 {
          assert prefix[i] == name[i - 11];
        }
      }
    }
    ConcatAssoc(Utf8(LiteralHeader(prefix, content)), Utf8(content), more);
    LiteralFraming(prefix, content, more);
  }

  /** CHECKSCRIPT frames the script the same way. */
  lemma CheckScriptFraming(script: string, more: seq<byte>)
    ensures ReadLine(CheckScriptCommand(script) + more)
      == (Utf8(LiteralHeader("CHECKSCRIPT ", script)), Utf8(script) + more)
  {
    ConcatAssoc(Utf8(LiteralHeader("CHECKSCRIPT ", script)), Utf8(script), more);
    LiteralFraming("CHECKSCRIPT ", script, more);
  }

  // ------------------------------------------------------------ SASL PLAIN

  const NUL: byte := 0

  /** Index of the first NUL byte, or `|bs|` when there is none. */
  function NulAt(bs: seq<byte>): (n: nat)
    ensures n <= |bs|
    ensures forall i :: 0 <= i < n ==> bs[i] != NUL
    ensures n < |bs| ==> bs[n] == NUL
  {
    if |bs| == 0 || bs[0] == NUL then 0 else 1 + NulAt(bs[1..])
  }

  /** The NUL-separated fields of a SASL PLAIN message, as a server splits
      it. */
  function NulFields(bs: seq<byte>): (fields: seq<seq<byte>>)
    ensures |fields| > 0
    decreases |bs|
  {
    var n := NulAt(bs);
    if n == |bs| then [bs] else [bs[..n]] + NulFields(bs[n + 1..])
  }

  predicate NulFree(bs: seq<byte>) {
    forall i :: 0 <= i < |bs| ==> bs[i] != NUL
  }

  lemma {:induction false} NulAtOf(a: seq<byte>, rest: seq<byte>)
    requires NulFree(a)
    requires |rest| > 0 && rest[0] == NUL
    ensures NulAt(a + rest) == |a|
    decreases |a|
  {
    if |a| > 0 {
      assert (a + rest)[1..] == a[1..] + rest;
      NulAtOf(a[1..], rest);
    }
  }

  lemma {:induction false} NulFreeField(a: seq<byte>)
    requires NulFree(a)
    ensures NulFields(a) == [a]
    decreases |a|
  {
    if |a| > 0 {
      NulFreeField(a[1..]);
    }
  }

  lemma NulFieldsCons(a: seq<byte>, rest: seq<byte>)
    requires NulFree(a)
    ensures NulFields(a + [NUL] + rest) == [a] + NulFields(rest)
  {
    var bs := a + [NUL] + rest;
    NulAtOf(a, [NUL] + rest);
    assert bs == a + ([NUL] + rest);
    assert bs[..|a|] == a;
    assert bs[|a| + 1..] == rest;
  }

  lemma NulFreeText(s: string)
    requires forall i :: 0 <= i < |s| ==> s[i] != '\0'
    ensures NulFree(Utf8(s))
  {
    Utf8Avoids(s, '\0');
  }

  lemma NulByte()
    ensures Utf8("\0") == [NUL]
  {
    assert "\0"[1..] == "";
  }

  lemma PlainBytes(user: string, password: string)
    ensures Utf8("\0" + user + "\0" + password) == [NUL] + (Utf8(user) + [NUL] + Utf8(password))
  {
    var a := "\0" + user;
    var b := a + "\0";
    NulByte();
    Utf8Append(b, password);
    Utf8Append(a, "\0");
    Utf8Append("\0", user);
    var u := Utf8(user);
    var p := Utf8(password);
    assert Utf8(b) == [NUL] + u + [NUL];
    assert Utf8(b + password) == [NUL] + u + [NUL] + p;
    ConcatAssoc([NUL] + u, [NUL], p);
    ConcatAssoc([NUL], u, [NUL] + p);
    ConcatAssoc(u, [NUL], p);
  }

  /** A server splitting the PLAIN message at its NUL bytes finds an empty
      authorization identity, the user and the password, as long as neither
      of them contains NUL. */
  lemma PlainMessageFields(user: string, password: string)
    requires forall i :: 0 <= i < |user| ==> user[i] != '\0'
    requires forall i :: 0 <= i < |password| ==> password[i] != '\0'
    ensures NulFields(PlainMessage(user, password)) == [[], Utf8(user), Utf8(password)]
  {
    var u := Utf8(user);
    var p := Utf8(password);
    assert [NUL] + (u + [NUL] + p) == [] + [NUL] + (u + [NUL] + p);
    NulFreeText(user);
    NulFreeText(password);
    NulFieldsCons([], u + [NUL] + p);
    NulFieldsCons(u, p);
    NulFreeField(p);
  }
}

=== FILE: lines.dfy ===
/**
 * How the ManageSieve client (RFC 5804) reads one response line
 * (sieve_client/src/sieve_client.rs): the OK / NO / BYE classification of a
 * trimmed, upper-cased line, the quoted strings of capability and script
 * lines, and the `{N}` literal-length header.
 */
module ResponseLines {
  import opened Optional
  import opened Text
  import opened Numbers
  import opened Combinators

  // --------------------------------------------------------- classification

  /** `line.trim().to_uppercase()`: the form every status test looks at. */
  function Normal(line: string): string {
    Upper(Trim(line))
  }

  datatype Status = OkStatus | NoStatus | ByeStatus | Untagged

  /** The status a response line reports: `OK`, `NO` or `BYE` as a prefix of
      its normal form, tested in that order, and anything else. */
  function Classify(line: string): (st: Status)
    ensures st == OkStatus <==> StartsWith(Normal(line), "OK")
    ensures st == NoStatus <==> StartsWith(Normal(line), "NO")
    ensures st == ByeStatus <==> StartsWith(Normal(line), "BYE")
  {
    var n := Normal(line);
    if StartsWith(n, "OK") then OkStatus
    else if StartsWith(n, "NO") then NoStatus
    else if StartsWith(n, "BYE") then ByeStatus
    else Untagged
  }

  /** The classification ignores the case the server wrote the line in. */
  lemma ClassifyIgnoresCase(line: string)
    ensures Classify(Lower(line)) == Classify(line)
    ensures Classify(Upper(line)) == Classify(line)
  {
    NormalCase(line);
  }

  /** The classification ignores White_Space after the text, such as the line
      terminator `read_line` keeps. */
  lemma ClassifyIgnoresLineEnd(core: string, w: string)
    requires |core| > 0 && IsNotWhitespace(core[0]) && IsNotWhitespace(core[|core| - 1])
    requires forall i :: 0 <= i < |w| ==> IsWhitespace(w[i])
    ensures Classify(core + w) == Classify(core)
  {
    TrimWhitespaceTail(core, w);
    TrimNoop(core);
  }

  /** The test is a prefix test: any word that merely begins with a status,
      such as `OKAY` or `NOTE`, counts as that status. */
  lemma OkPrefix(tail: string)
    requires |tail| == 0 || IsNotWhitespace(tail[|tail| - 1])
    ensures Classify("OK" + tail) == OkStatus
  {
    TrimNoop("OK" + tail);
    assert Upper("OK" + tail)[..2] == "OK";
  }

  lemma NoPrefix(tail: string)
    requires |tail| == 0 || IsNotWhitespace(tail[|tail| - 1])
    ensures Classify("NO" + tail) == NoStatus
  {
    TrimNoop("NO" + tail);
    assert Upper("NO" + tail)[..2] == "NO";
  }

  lemma ByePrefix(tail: string)
    requires |tail| == 0 || IsNotWhitespace(tail[|tail| - 1])
    ensures Classify("BYE" + tail) == ByeStatus
  {
    TrimNoop("BYE" + tail);
    assert Upper("BYE" + tail)[..3] == "BYE";
  }

  /** A line whose normal form starts with anything but `O`, `N` or `B` has
      no status. */
  lemma OtherInitialUntagged(line: string)
    requires |Normal(line)| > 0 && Normal(line)[0] !in "ONB"
    ensures Classify(line) == Untagged
  {
    var n := Normal(line);
    MismatchAt(n, "OK", 0);
    MismatchAt(n, "NO", 0);
    MismatchAt(n, "BYE", 0);
  }

  /** A line that is empty after trimming has no status. */
  lemma BlankUntagged(line: string)
    requires Trim(line) == ""
    ensures Classify(line) == Untagged
  {
  }

  /** The first line, from the front, that reports `OK`. */
  function FirstOk(lines: seq<string>): (r: Option<nat>)
    ensures r.Some? ==> r.value < |lines| && Classify(lines[r.value]) == OkStatus
    ensures r.Some? ==> forall i :: 0 <= i < r.value ==> Classify(lines[i]) != OkStatus
    ensures r.None? ==> forall i :: 0 <= i < |lines| ==> Classify(lines[i]) != OkStatus
  {
    FirstWhere(ReportsOk, lines)
  }

  predicate ReportsOk(line: string) {
    Classify(line) == OkStatus
  }

  /** Past a line that is not `OK`, the first `OK` is one line further on. */
  lemma FirstOkStep(lines: seq<string>)
    requires |lines| > 0 && Classify(lines[0]) != OkStatus
    ensures FirstOk(lines).Some? <==> FirstOk(lines[1..]).Some?
    ensures FirstOk(lines).Some? ==>
      FirstOk(lines).value == FirstOk(lines[1..]).value + 1
      && lines[FirstOk(lines).value + 1..] == lines[1..][FirstOk(lines[1..]).value + 1..]
  {
  }

  /** The index of the first element `p` holds of. */
  function FirstWhere<T>(p: T -> bool, s: seq<T>): (r: Option<nat>)
    ensures r.Some? ==> r.value < |s| && p(s[r.value])
    ensures r.Some? ==> forall i :: 0 <= i < r.value ==> !p(s[i])
    ensures r.None? ==> forall i :: 0 <= i < |s| ==> !p(s[i])
  {
    if |s| == 0 then None
    else if p(s[0]) then Some(0)
    else match FirstWhere(p, s[1..])
      case Some(k) => Some(k + 1)
      case None => None
  }

  /** An element `p` holds of, after elements it does not hold of, is the
      first. */
  lemma FirstWhereAfter<T>(p: T -> bool, a: seq<T>, x: T, b: seq<T>)
    requires forall i :: 0 <= i < |a| ==> !p(a[i])
    requires p(x)
    ensures FirstWhere(p, a + [x] + b) == Some(|a|)
  {
    var s := a + [x] + b;
    assert s[|a|] == x;
    assert forall i :: 0 <= i < |a| ==> s[i] == a[i];
  }

  /** Whether a line reports a status at all. */
  predicate HasStatus(line: string) {
    Classify(line) != Untagged
  }

  /** The first line, from the front, with a status. */
  function FirstStatus(lines: seq<string>): (r: Option<nat>)
    ensures r.Some? ==> r.value < |lines| && Classify(lines[r.value]) != Untagged
    ensures r.Some? ==> forall i :: 0 <= i < r.value ==> Classify(lines[i]) == Untagged
    ensures r.None? ==> forall i :: 0 <= i < |lines| ==> Classify(lines[i]) == Untagged
  {
    FirstWhere(HasStatus, lines)
  }

  /** The outcome of a loop that reads response lines until one ends it. The
      client's reads at end of input yield empty lines, which every such
      loop skips, so a loop that runs out of lines never returns: `Stalled`. */
  datatype Reply<+T> = Finished(value: T, rest: seq<string>) | Stalled

  const CRLF := "\r\n"

  lemma CrlfWhitespace()
    ensures AllWhitespace(CRLF)
  {
  }

  /** `text` written as a line, with CRLF, trims back to `text` when it has
      no White_Space at either end. */
  lemma TrimmedLine(text: string)
    requires |text| > 0 && IsNotWhitespace(text[0]) && IsNotWhitespace(text[|text| - 1])
    ensures Trim(text + CRLF) == text
  {
    CrlfWhitespace();
    TrimWhitespaceTail(text, CRLF);
  }

  /** A line whose text is enclosed in double quotes reports no status. */
  lemma QuotedLineUntagged(text: string)
    requires |text| > 1 && text[0] == '"' && text[|text| - 1] == '"'
    ensures Classify(text + CRLF) == Untagged
  {
    TrimmedLine(text);
    assert Normal(text + CRLF)[0] == '"';
    OtherInitialUntagged(text + CRLF);
  }

  /** What `parse` makes of one line: its result, or nothing. */
  function Take<T>(parse: string -> Option<T>, line: string): (r: seq<T>)
    ensures |r| <= 1
  {
    match parse(line)
    case Some(v) => [v]
    case None => []
  }

  /** The results of `parse` on the lines it accepts, in order. */
  function Accepted<T>(parse: string -> Option<T>, lines: seq<string>): (r: seq<T>)
    ensures |r| <= |lines|
  {
    if |lines| == 0 then [] else Take(parse, lines[0]) + Accepted(parse, lines[1..])
  }

  lemma {:induction false} AcceptedAppend<T>(parse: string -> Option<T>, a: seq<string>, b: seq<string>)
    ensures Accepted(parse, a + b) == Accepted(parse, a) + Accepted(parse, b)
    decreases |a|
  {
    if |a| == 0 {
      assert a + b == b;
    } else {
      assert (a + b)[1..] == a[1..] + b;
      AcceptedAppend(parse, a[1..], b);
      ConcatAssoc(Take(parse, a[0]), Accepted(parse, a[1..]), Accepted(parse, b));
    }
  }

  lemma EmptyBefore<T>(s: seq<T>)
    ensures [] + s == s
  {
  }

  lemma PairOf<T>(a: T, b: T)
    ensures [a] + [b] == [a, b]
  {
  }

  lemma EmptyTail<T>(a: T)
    ensures [a] + [] == [a]
  {
  }

  lemma AcceptedCons<T>(parse: string -> Option<T>, line: string, lines: seq<string>, v: T)
    requires parse(line) == Some(v)
    ensures Accepted(parse, [line] + lines) == [v] + Accepted(parse, lines)
  {
    assert ([line] + lines)[1..] == lines;
  }

  lemma AroundOne<T>(a: seq<T>, x: T, b: seq<T>)
    ensures (a + [x] + b)[..|a|] == a && (a + [x] + b)[|a|] == x && (a + [x] + b)[|a| + 1..] == b
  {
  }

  lemma SliceCons<T>(s: seq<T>, k: nat)
    requires k < |s|
    ensures s[..k + 1] == [s[0]] + s[1..][..k]
  {
  }

  // --------------------------------------------------------- quoted strings

  predicate NoQuote(s: string) {
    forall i :: 0 <= i < |s| ==> s[i] != '"'
  }

  /** `"` + `s` + `"`. */
  function Quoted(s: string): string {
    "\"" + s + "\""
  }

  /** `parse_quoted_string`: `"`, everything up to the next `"`, and that
      `"`, with no escapes. All three parts are complete parsers, so a
      missing quote is a plain failure. */
  function ParseQuotedString(s: string): (r: Parsed<string>)
    ensures !r.Incomplete?
    ensures r.Done? ==> NoQuote(r.value) && s == Quoted(r.value) + r.rest
  {
    if |s| == 0 || s[0] != '"' then Error
    else
      var n := FindChar(s[1..], '"');
      if n < 0 then Error
      else
        assert s == Quoted(s[1..1 + n]) + s[n + 2..] by {
          assert s[1..][n] == s[n + 1];
        }
        Done(s[1..1 + n], s[n + 2..])
  }

  /** A quoted string without inner quotes reads back, leaving what follows. */
  lemma QuotedStringOf(v: string, rest: string)
    requires NoQuote(v)
    ensures ParseQuotedString(Quoted(v) + rest) == Done(v, rest)
  {
    var s := Quoted(v) + rest;
    assert s[1..] == v + ("\"" + rest);
    assert s[1..][|v|] == '"';
    assert forall i :: 0 <= i < |v| ==> s[1..][i] == v[i];
    assert FindChar(s[1..], '"') == |v|;
    assert s[1..1 + |v|] == v;
    assert s[|v| + 2..] == rest;
  }

  /** Text without a closing quote is rejected. */
  lemma UnterminatedQuote(v: string)
    requires NoQuote(v)
    ensures ParseQuotedString("\"" + v) == Error
  {
    assert ("\"" + v)[1..] == v;
  }

  /** `space0`: the spaces and tabs at the front. */
  predicate IsBlank(c: char) {
    c == ' ' || c == '\t'
  }

  /** Only spaces and tabs. */
  predicate AllBlank(w: string) {
    forall i :: 0 <= i < |w| ==> IsBlank(w[i])
  }

  function SkipBlanks(s: string): (r: string)
    ensures |r| <= |s| && r == s[|s| - |r|..]
    ensures forall i :: 0 <= i < |s| - |r| ==> IsBlank(s[i])
    ensures |r| == 0 || !IsBlank(r[0])
  {
    s[PrefixLength(s, IsBlank)..]
  }

  // -------------------------------------------------------- literal lengths

  /** `parse_literal_length`: `Some(n)` only when the whole line is `{`, the
      text of a `usize`, and `}`. */
  function ParseLiteralLength(line: string): (r: Option<nat>)
    ensures r.Some? ==> |line| >= 3 && line[0] == '{' && line[|line| - 1] == '}'
    ensures r.Some? ==> r.value <= USIZE_MAX
    ensures r.Some? ==> forall i :: 2 <= i < |line| - 1 ==> IsDigit(line[i])
  {
    if StartsWith(line, "{") && EndsWith(line, "}") then
      assert line[..1][0] == line[0] && line[|line| - 1..][0] == line[|line| - 1];
      var n := ParseUnsigned(line[1..|line| - 1], USIZE_MAX);
      assert n.Some? ==> forall i :: 2 <= i < |line| - 1 ==> line[i] == line[1..|line| - 1][i - 1];
      n
    else None
  }

  /** The header the client's own literals carry reads back as their length,
      as long as it fits a `usize`. */
  lemma LiteralLengthOf(n: nat)
    ensures ParseLiteralLength("{" + Decimal(n) + "}") == (if n <= USIZE_MAX then Some(n) else None)
  {
    var line := "{" + Decimal(n) + "}";
    assert line[..1] == "{";
    assert line[|line| - 1..] == "}";
    assert line[1..|line| - 1] == Decimal(n);
    DecimalRoundTrip(n, USIZE_MAX);
  }

  /** Anything before the `{` or after the `}` defeats the header. */
  lemma LiteralNeedsWholeLine(line: string)
    requires |line| > 0 && (line[0] != '{' || line[|line| - 1] != '}')
    ensures ParseLiteralLength(line) == None
  {
  }

  // ----------------------------------------------------------- script lines

  /** `parse_script_line`: the quoted name at the front, and whether the
      upper-cased whole line, name included, contains `ACTIVE`. */
  function ParseScriptLine(line: string): (r: Option<(string, bool)>)
    ensures r.Some? ==> NoQuote(r.value.0) && StartsWith(line, Quoted(r.value.0))
    ensures r.Some? ==> (r.value.1 <==> Contains(Upper(line), "ACTIVE"))
    ensures r.None? <==> ParseQuotedString(line).Error?
  {
    match ParseQuotedString(line)
    case Done(name, rest) =>
      StartsWithAppend(Quoted(name), rest);
      Some((name, Contains(Upper(line), "ACTIVE")))
    case _ => None
  }

  /** A line with a quoted name reports that name. */
  lemma ScriptLineOf(name: string, tail: string)
    requires NoQuote(name)
    ensures ParseScriptLine(Quoted(name) + tail) == Some((name, Contains(Upper(Quoted(name) + tail), "ACTIVE")))
  {
    QuotedStringOf(name, tail);
  }

  /** The `ACTIVE` marker after the name marks the script active. */
  lemma ActiveMarker(name: string)
    requires NoQuote(name)
    ensures ParseScriptLine(Quoted(name) + " ACTIVE") == Some((name, true))
  {
    var q := Quoted(name);
    ScriptLineOf(name, ActiveMark(true));
    ActiveMarkRead(true);
    UpperAppend(q, ActiveMark(true));
    ContainsSuffix(Upper(q), Upper(ActiveMark(true)), "ACTIVE");
  }

  /** So does `active` anywhere in the name itself, in any case: the whole
      line is searched. */
  lemma ActiveInName(name: string, i: nat)
    requires NoQuote(name)
    requires i + 6 <= |name| && Upper(name)[i..i + 6] == "ACTIVE"
    ensures ParseScriptLine(Quoted(name)) == Some((name, true))
  {
    QuotedStringOf(name, "");
    assert Quoted(name) + "" == Quoted(name);
    var u := Upper(Quoted(name));
    assert u[i + 1..i + 7] == Upper(name)[i..i + 6];
    ContainsAt(u, "ACTIVE", i + 1);
  }

  /** The quotes around a name add no `ACTIVE` to it and hide none. */
  lemma QuotedActive(name: string)
    ensures Contains(Upper(Quoted(name)), "ACTIVE") == Contains(Upper(name), "ACTIVE")
  {
    UpperAppend("\"" + name, "\"");
    UpperAppend("\"", name);
    assert Upper("\"") == "\"";
    if Contains(Upper(name), "ACTIVE") {
      ActiveInQuotes(Upper(name));
    }
    if Contains(Upper(Quoted(name)), "ACTIVE") {
      ActiveInsideQuotes(Upper(name));
    }
  }

  lemma ActiveInQuotes(n: string)
    requires Contains(n, "ACTIVE")
    ensures Contains("\"" + n + "\"", "ACTIVE")
  {
    var u := "\"" + n + "\"";
    var i := ContainsFound(n, "ACTIVE");
    assert u[i + 1..i + 7] == n[i..i + 6];
    ContainsAt(u, "ACTIVE", i + 1);
  }

  lemma ActiveInsideQuotes(n: string)
    requires Contains("\"" + n + "\"", "ACTIVE")
    ensures Contains(n, "ACTIVE")
  {
    var u := "\"" + n + "\"";
    var i := ContainsFound(u, "ACTIVE");
    assert u[i] == 'A' && u[i + 5] == 'E';
    assert 1 <= i && i + 6 <= |n| + 1;
    assert n[i - 1..i + 5] == u[i..i + 6];
    ContainsAt(n, "ACTIVE", i - 1);
  }

  /** `"inactive"`, which names an inactive script, is reported active. */
  lemma InactiveReportedActive()
    ensures ParseScriptLine("\"inactive\"") == Some(("inactive", true))
  {
    assert Upper("inactive")[2..8] == "ACTIVE";
    assert Quoted("inactive") == "\"inactive\"";
    ActiveInName("inactive", 2);
  }

  /** A script line as RFC 5804 section 2.7 lays it out: the quoted name,
      and the `ACTIVE` marker after it for the active script. The marker is
      looked for only after the name. */
  function ParseScriptLineCorrected(line: string): (r: Option<(string, bool)>)
    ensures r.Some? ==> NoQuote(r.value.0) && StartsWith(line, Quoted(r.value.0))
    ensures r.Some? ==> (r.value.1 <==> Contains(Upper(line[|Quoted(r.value.0)|..]), "ACTIVE"))
    ensures r.None? <==> ParseScriptLine(line).None?
  {
    match ParseQuotedString(line)
    case Done(name, rest) =>
      StartsWithAppend(Quoted(name), rest);
      assert line[|Quoted(name)|..] == rest;
      Some((name, Contains(Upper(rest), "ACTIVE")))
    case _ => None
  }

  /** The line a server writes for a script reads back as that script and
      its state, whatever the name. */
  lemma ScriptLineCorrectedOf(name: string, active: bool)
    requires NoQuote(name)
    ensures ParseScriptLineCorrected(Quoted(name) + ActiveMark(active)) == Some((name, active))
  {
    QuotedStringOf(name, ActiveMark(active));
    ActiveMarkRead(active);
  }

  function ActiveMark(active: bool): string {
    if active then " ACTIVE" else ""
  }

  lemma ActiveMarkRead(active: bool)
    ensures Contains(Upper(ActiveMark(active)), "ACTIVE") == active
  {
    if active {
      assert Upper(" ACTIVE") == " ACTIVE";
      assert " ACTIVE"[1..7] == "ACTIVE";
      ContainsAt(" ACTIVE", "ACTIVE", 1);
    }
  }

  /** The two readings agree on the name, and on the state whenever the name
      does not itself contain `active`. */
  lemma ScriptLineReadingsAgree(line: string)
    requires ParseScriptLine(line).Some?
    ensures ParseScriptLineCorrected(line).Some?
    ensures ParseScriptLineCorrected(line).value.0 == ParseScriptLine(line).value.0
    ensures ParseScriptLineCorrected(line).value.1 ==> ParseScriptLine(line).value.1
  {
    var name := ParseQuotedString(line).value;
    var rest := ParseQuotedString(line).rest;
    UpperAppend(Quoted(name), rest);
    if Contains(Upper(rest), "ACTIVE") {
      ContainsSuffix(Upper(Quoted(name)), Upper(rest), "ACTIVE");
    }
  }
}

=== FILE: numbers.dfy ===
/**
 * Decimal integers as the client writes them (`{}` formatting) and reads
 * them (`str::parse::<u32>()` / `str::parse::<usize>()`).
 */
module Numbers {
  import opened Optional

  /** Largest `u32`, the type of `Capabilities.maxredirects`. */
  const U32_MAX: nat := 0xFFFF_FFFF
  /** Largest `usize` on a 64-bit target, the type of a literal length. */
  const USIZE_MAX: nat := 0xFFFF_FFFF_FFFF_FFFF

  predicate IsDigit(c: char) {
    '0' <= c <= '9'
  }

  predicate AllDigits(s: string) {
    forall i :: 0 <= i < |s| ==> IsDigit(s[i])
  }

  function DigitChar(d: nat): (c: char)
    requires d < 10
    ensures IsDigit(c)
  {
    (('0' as int) + d) as char
  }

  function DigitValue(c: char): nat
    requires IsDigit(c)
  {
    (c as int) - ('0' as int)
  }

  /** The decimal text of `n`, without sign or leading zeros. */
  function Decimal(n: nat): (s: string)
    ensures |s| > 0 && AllDigits(s)
  {
    if n < 10 then [DigitChar(n)] else Decimal(n / 10) + [DigitChar(n % 10)]
  }

  /** The value of a run of decimal digits, most significant first. */
  function DigitsValue(s: string): nat
    requires AllDigits(s)
  {
    if |s| == 0 then 0 else 10 * DigitsValue(s[..|s| - 1]) + DigitValue(s[|s| - 1])
  }

  /** Rust's `str::parse` for an unsigned integer type whose largest value is
      `max`: an optional `+`, then at least one ASCII digit, and no overflow. */
  function ParseUnsigned(s: string, max: nat): (r: Option<nat>)
    ensures r.Some? ==> r.value <= max
    ensures r.Some? ==> |s| > 0 && (IsDigit(s[0]) || s[0] == '+')
    ensures r.Some? ==> forall i :: 1 <= i < |s| ==> IsDigit(s[i])
  {
    var digits := if |s| > 0 && s[0] == '+' then s[1..] else s;
    if |digits| == 0 || !AllDigits(digits) then None
    else if DigitsValue(digits) <= max then Some(DigitsValue(digits))
    else None
  }

  lemma {:induction false} DecimalValue(n: nat)
    ensures DigitsValue(Decimal(n)) == n
  {
    if n >= 10 {
      var s := Decimal(n);
      assert s[..|s| - 1] == Decimal(n / 10);
      DecimalValue(n / 10);
    }
  }

  /** Formatting then parsing gives the number back exactly when it fits the
      target type. */
  lemma DecimalRoundTrip(n: nat, max: nat)
    ensures ParseUnsigned(Decimal(n), max) == (if n <= max then Some(n) else None)
  {
    DecimalValue(n);
  }

  /** A text holding any character other than a digit after its optional
      leading `+` does not parse. */
  lemma NonDigitRejected(s: string, max: nat, i: nat)
    requires i < |s| && !IsDigit(s[i]) && !(i == 0 && s[0] == '+')
    ensures ParseUnsigned(s, max) == None
  {
    if |s| > 0 && s[0] == '+' {
      assert s[1..][i - 1] == s[i];
    }
  }
}

=== FILE: options.dfy ===
/** The optional values and results the Rust source returns. */
module Optional {

  datatype Option<+T> = None | Some(value: T) {

    predicate IsFailure() {
      None?
    }

    function PropagateFailure<U>(): Option<U>
      requires None?
    {
      None
    }

    function Extract(): T
      requires Some?
    {
      value
    }
  }

  /** The outcome used wherever the Rust source returns `Result<T, E>`. */
  datatype Result<+T, +E> = Ok(value: T) | Err(error: E) {

    predicate IsFailure() {
      Err?
    }

    function PropagateFailure<U>(): Result<U, E>
      requires Err?
    {
      Err(error)
    }

    function Extract(): T
      requires Ok?
    {
      value
    }
  }
}

=== FILE: responses.dfy ===
/**
 * The script operations of the ManageSieve client
 * (sieve_client/src/sieve_client.rs): the command each one writes and how
 * it reads the server's response (RFC 5804 sections 2.3 to 2.10).
 */
module ScriptOperations {
  import opened Optional
  import opened Text
  import opened Numbers
  import opened Bytes
  import opened Combinators
  import opened ResponseLines
  import opened Commands

  datatype ManageSieveError =
    | IoError
    | ProtocolError(message: string)
    | ServerError(message: string)
    | ScriptNotFound(name: string)
    | InvalidResponse(line: string)

  /** The outcome of an operation that reads from the server's byte stream,
      with the bytes it leaves unread. */
  datatype Exchange<+T> = Exchange(outcome: Result<T, ManageSieveError>, rest: seq<byte>)

  /** `decode` reads every UTF-8 encoding back as its text, as `read_line`
      does; it reports invalid UTF-8 as `None`. */
  ghost predicate DecodesUtf8(decode: seq<byte> -> Option<string>) {
    forall s: string :: decode(Utf8(s)) == Some(s)
  }

  /** `lossy` reads valid UTF-8 as its text, as `String::from_utf8_lossy`
      does. */
  ghost predicate KeepsUtf8(lossy: seq<byte> -> string) {
    forall s: string :: lossy(Utf8(s)) == s
  }

  /** `read_line` into a `String`: a line that is not UTF-8 is an I/O
      error, and the line is consumed all the same (`FailedLine`). */
  function ReadTextLine(stream: seq<byte>, decode: seq<byte> -> Option<string>)
    : (r: Result<(string, seq<byte>), ManageSieveError>)
    ensures r.Err? <==> decode(ReadLine(stream).0).None?
    ensures r.Ok? ==> r.value.1 == ReadLine(stream).1 && Unread(r.value.1, stream)
  {
    var (line, rest) := ReadLine(stream);
    match decode(line)
    case Some(text) => Ok((text, rest))
    case None => Err(IoError)
  }

  /** `read_exact`: fewer bytes than asked for is an I/O error, once all of
      them have been consumed (`Drained`). */
  function ReadExact(stream: seq<byte>, n: nat): (r: Result<(seq<byte>, seq<byte>), ManageSieveError>)
    ensures r.Ok? <==> n <= |stream|
    ensures r.Ok? ==> r.value.0 + r.value.1 == stream && |r.value.0| == n
    ensures r.Ok? ==> Unread(r.value.1, stream)
  {
    if n <= |stream| then Ok((stream[..n], stream[n..])) else Err(IoError)
  }

  lemma ReadTextLineOf(text: string, more: seq<byte>, decode: seq<byte> -> Option<string>)
    requires NoLineFeed(text) && DecodesUtf8(decode)
    ensures ReadTextLine(Utf8(text + CRLF) + more, decode) == Ok((text + CRLF, more))
  {
    OneLine(text, more);
  }

  /** A suffix of `s`: what is left after reading some of it. */
  predicate Unread(rest: seq<byte>, s: seq<byte>) {
    |rest| <= |s| && rest == s[|s| - |rest|..]
  }

  /** What a failed `read_line` leaves: the bytes after the line it
      consumed. */
  function FailedLine(stream: seq<byte>): (rest: seq<byte>)
    ensures Unread(rest, stream) && ReadLine(stream).0 + rest == stream
  {
    var (line, after) := ReadLine(stream);
    assert stream[|stream| - |after|..] == after by {
      assert stream == line + after;
    }
    after
  }

  /** What a failed `read_exact` leaves: nothing, as the stream ended. */
  function Drained(stream: seq<byte>): (rest: seq<byte>)
    ensures Unread(rest, stream) && |rest| == 0
  {
    []
  }

  lemma UnreadTrans(a: seq<byte>, b: seq<byte>, c: seq<byte>)
    requires Unread(a, b) && Unread(b, c)
    ensures Unread(a, c)
  {
  }

  // ------------------------------------------------------ one-line replies

  /** The reply to PUTSCRIPT: `NO` and `BYE` are both server errors. */
  function PutScriptReply(response: string): (r: Result<(), ManageSieveError>)
    ensures r.Ok? <==> Classify(response) == OkStatus
    ensures r == Err(ServerError(Trim(response))) <==> Classify(response) in {NoStatus, ByeStatus}
    ensures r == Err(InvalidResponse(Trim(response))) <==> Classify(response) == Untagged
  {
    match Classify(response)
    case OkStatus => Ok(())
    case NoStatus => Err(ServerError(Trim(response)))
    case ByeStatus => Err(ServerError(Trim(response)))
    case Untagged => Err(InvalidResponse(Trim(response)))
  }

  /** The reply to DELETESCRIPT, RENAMESCRIPT and SETACTIVE: `NO` means the
      script named `name` was not found. */
  function NamedReply(response: string, name: string): (r: Result<(), ManageSieveError>)
    ensures r.Ok? <==> Classify(response) == OkStatus
    ensures r == Err(ScriptNotFound(name)) <==> Classify(response) == NoStatus
    ensures r == Err(ServerError(Trim(response))) <==> Classify(response) == ByeStatus
    ensures r == Err(InvalidResponse(Trim(response))) <==> Classify(response) == Untagged
  {
    match Classify(response)
    case OkStatus => Ok(())
    case NoStatus => Err(ScriptNotFound(name))
    case ByeStatus => Err(ServerError(Trim(response)))
    case Untagged => Err(InvalidResponse(Trim(response)))
  }

  /** Which way a reply goes does not depend on the case of the response. */
  lemma ReplyIgnoresCase(response: string, name: string)
    ensures NamedReply(Lower(response), name).Ok? == NamedReply(response, name).Ok?
    ensures (NamedReply(Lower(response), name) == Err(ScriptNotFound(name)))
         == (NamedReply(response, name) == Err(ScriptNotFound(name)))
    ensures PutScriptReply(Lower(response)).Ok? == PutScriptReply(response).Ok?
  {
    ClassifyIgnoresCase(response);
  }

  /** `put_script`: the command, and the outcome the response gives. */
  function PutScript(name: string, content: string, response: string): (r: (seq<byte>, Result<(), ManageSieveError>))
    ensures r.0 == PutScriptCommand(name, content)
    ensures r.1.Ok? <==> Classify(response) == OkStatus
    ensures r.1 == PutScriptReply(response)
  {
    (PutScriptCommand(name, content), PutScriptReply(response))
  }

  /** `delete_script`. */
  function DeleteScript(name: string, response: string): (r: (string, Result<(), ManageSieveError>))
    ensures r.0 == DeleteScriptCommand(name)
    ensures r.1 == Err(ScriptNotFound(name)) <==> Classify(response) == NoStatus
    ensures r.1 == NamedReply(response, name)
  {
    (DeleteScriptCommand(name), NamedReply(response, name))
  }

  /** `rename_script`: a `NO` reports the old name as not found. */
  function RenameScript(oldName: string, newName: string, response: string): (r: (string, Result<(), ManageSieveError>))
    ensures r.0 == RenameScriptCommand(oldName, newName)
    ensures r.1 == Err(ScriptNotFound(oldName)) <==> Classify(response) == NoStatus
    ensures r.1 == NamedReply(response, oldName)
  {
    (RenameScriptCommand(oldName, newName), NamedReply(response, oldName))
  }

  /** `set_active_script`. */
  function SetActiveScript(name: string, response: string): (r: (string, Result<(), ManageSieveError>))
    ensures r.0 == SetActiveCommand(name)
    ensures r.1 == Err(ScriptNotFound(name)) <==> Classify(response) == NoStatus
    ensures r.1 == NamedReply(response, name)
  {
    (SetActiveCommand(name), NamedReply(response, name))
  }

  // ------------------------------------------------------------ LISTSCRIPTS

  /** The script a listing line names, as `list_scripts` reads it: the
      trimmed line must start with a quote, and `parse_script_line` then
      looks for `ACTIVE` anywhere on it, the name included. */
  function ScriptEntry(line: string): (r: Option<(string, bool)>)
    ensures r.Some? <==> StartsWith(Trim(line), "\"") && !ParseQuotedString(Trim(line)).Error?
    ensures r.Some? ==> NoQuote(r.value.0) && StartsWith(Trim(line), Quoted(r.value.0))
    ensures r.Some? ==> (r.value.1 <==> Contains(Upper(Trim(line)), "ACTIVE"))
  {
    var t := Trim(line);
    if StartsWith(t, "\"") then ParseScriptLine(t) else None
  }

  /** The same, with `ACTIVE` looked for only after the name. */
  function ScriptEntryCorrected(line: string): (r: Option<(string, bool)>)
    ensures r.Some? <==> ScriptEntry(line).Some?
    ensures r.Some? ==> r.value.0 == ScriptEntry(line).value.0
    ensures r.Some? ==> (r.value.1 <==> Contains(Upper(Trim(line)[|Quoted(r.value.0)|..]), "ACTIVE"))
  {
    var t := Trim(line);
    if StartsWith(t, "\"") then
      if ParseScriptLine(t).Some? then
        ScriptLineReadingsAgree(t);
        ParseScriptLineCorrected(t)
      else ParseScriptLineCorrected(t)
    else None
  }

  /** The scripts the lines list, in order, as `entry` reads them. */
  function Listed(entry: string -> Option<(string, bool)>, lines: seq<string>): seq<(string, bool)> {
    Accepted(entry, lines)
  }

  /** `list_scripts` after the scripts `acc` have been listed, reading each
      line with `entry`: blank lines are skipped, `OK` ends the listing, `NO`
      and `BYE` end it with a server error, and every other line that reads
      as a script line adds that script. */
  function ListScriptsFrom(entry: string -> Option<(string, bool)>, acc: seq<(string, bool)>, lines: seq<string>)
    : (r: Reply<Result<seq<(string, bool)>, ManageSieveError>>)
    ensures r.Finished? <==> FirstStatus(lines).Some?
    ensures r.Finished? ==> r.rest == lines[FirstStatus(lines).value + 1..]
    ensures r.Finished? && Classify(lines[FirstStatus(lines).value]) == OkStatus
      ==> r.value == Ok(acc + Listed(entry, lines[..FirstStatus(lines).value]))
    ensures r.Finished? && Classify(lines[FirstStatus(lines).value]) != OkStatus
      ==> r.value == Err(ServerError(Trim(lines[FirstStatus(lines).value])))
    decreases |lines|
  {
    if |lines| == 0 then Stalled
    else if Classify(lines[0]) == OkStatus then
      assert lines[..0] == [] && acc + [] == acc;
      Finished(Ok(acc), lines[1..])
    else if Classify(lines[0]) != Untagged then
      Finished(Err(ServerError(Trim(lines[0]))), lines[1..])
    else
      // Blank lines carry no status (`BlankUntagged`) and, like every line
      // that is not a quoted script line, list nothing.
      var next := acc + Take(entry, lines[0]);
      ListStep(entry, acc, lines, next);
      ListScriptsFrom(entry, next, lines[1..])
  }

  lemma ListStep(entry: string -> Option<(string, bool)>, acc: seq<(string, bool)>, lines: seq<string>,
                 next: seq<(string, bool)>)
    requires |lines| > 0 && Classify(lines[0]) == Untagged
    requires next == acc + Take(entry, lines[0])
    ensures FirstStatus(lines).Some? <==> FirstStatus(lines[1..]).Some?
    ensures FirstStatus(lines).Some? ==>
      FirstStatus(lines).value == FirstStatus(lines[1..]).value + 1
      && acc + Listed(entry, lines[..FirstStatus(lines).value])
         == next + Listed(entry, lines[1..][..FirstStatus(lines[1..]).value])
  {
    if FirstStatus(lines).Some? {
      var k := FirstStatus(lines[1..]).value;
      SliceCons(lines, k);
      AcceptedAppend(entry, [lines[0]], lines[1..][..k]);
      ConcatAssoc(acc, Take(entry, lines[0]), Listed(entry, lines[1..][..k]));
    }
  }

  /** `list_scripts`: the command, and what the response lines give. */
  function ListScripts(lines: seq<string>): (r: (string, Reply<Result<seq<(string, bool)>, ManageSieveError>>))
    ensures r.0 == ListScriptsCommand
    ensures r.1.Finished? <==> FirstStatus(lines).Some?
    ensures r.1.Finished? && Classify(lines[FirstStatus(lines).value]) == OkStatus
      ==> r.1.value == Ok(Listed(ScriptEntry, lines[..FirstStatus(lines).value]))
  {
    assert FirstStatus(lines).Some? ==>
      [] + Listed(ScriptEntry, lines[..FirstStatus(lines).value]) == Listed(ScriptEntry, lines[..FirstStatus(lines).value]) by {
      if FirstStatus(lines).Some? {
        EmptyBefore(Listed(ScriptEntry, lines[..FirstStatus(lines).value]));
      }
    }
    (ListScriptsCommand, ListScriptsFrom(ScriptEntry, [], lines))
  }

  /** `list_scripts` with the corrected reading of the `ACTIVE` marker. */
  function ListScriptsCorrected(lines: seq<string>): (r: (string, Reply<Result<seq<(string, bool)>, ManageSieveError>>))
    ensures r.0 == ListScriptsCommand
    ensures r.1.Finished? <==> FirstStatus(lines).Some?
    ensures r.1.Finished? && Classify(lines[FirstStatus(lines).value]) == OkStatus
      ==> r.1.value == Ok(Listed(ScriptEntryCorrected, lines[..FirstStatus(lines).value]))
  {
    assert FirstStatus(lines).Some? ==>
      [] + Listed(ScriptEntryCorrected, lines[..FirstStatus(lines).value])
      == Listed(ScriptEntryCorrected, lines[..FirstStatus(lines).value]) by {
      if FirstStatus(lines).Some? {
        EmptyBefore(Listed(ScriptEntryCorrected, lines[..FirstStatus(lines).value]));
      }
    }
    (ListScriptsCommand, ListScriptsFrom(ScriptEntryCorrected, [], lines))
  }

  /** The line a server writes to list one script. */
  function ListingLine(script: (string, bool)): string {
    Quoted(script.0) + ActiveMark(script.1) + CRLF
  }

  /** The lines a server writes to list `scripts`. */
  function ScriptListing(scripts: seq<(string, bool)>): (lines: seq<string>)
    ensures |lines| == |scripts|
    ensures forall i :: 0 <= i < |scripts| ==> lines[i] == ListingLine(scripts[i])
  {
    if |scripts| == 0 then []
    else [ListingLine(scripts[0])] + ScriptListing(scripts[1..])
  }

  predicate Listable(scripts: seq<(string, bool)>) {
    forall i :: 0 <= i < |scripts| ==> NoQuote(scripts[i].0)
  }

  /** What `list_scripts` reports for a listed script: active when it is,
      and also when its name contains `active` in any case. */
  function AsRead(script: (string, bool)): (string, bool) {
    (script.0, script.1 || Contains(Upper(script.0), "ACTIVE"))
  }

  function AsListed(scripts: seq<(string, bool)>): (r: seq<(string, bool)>)
    ensures |r| == |scripts|
    ensures forall i :: 0 <= i < |scripts| ==> r[i] == AsRead(scripts[i])
  {
    seq(|scripts|, i requires 0 <= i < |scripts| => AsRead(scripts[i]))
  }

  /** A listing line has no status. */
  lemma ListingLineUntagged(script: (string, bool))
    ensures !HasStatus(ListingLine(script))
  {
    var text := Quoted(script.0) + ActiveMark(script.1);
    ListingTextEnds(script);
    TrimmedLine(text);
    assert Upper(text)[0] == '"';
    OtherInitialUntagged(text + CRLF);
  }

  lemma ListingTextEnds(script: (string, bool))
    ensures var text := Quoted(script.0) + ActiveMark(script.1);
      |text| > 0 && text[0] == '"' && IsNotWhitespace(text[|text| - 1])
  {
  }

  /** `list_scripts` reads a listing line as its script, marked active also
      when the name contains `active`. */
  lemma ListingLineOf(script: (string, bool))
    requires NoQuote(script.0)
    ensures ScriptEntry(ListingLine(script)) == Some(AsRead(script))
  {
    var q := Quoted(script.0);
    var text := q + ActiveMark(script.1);
    ListingTextEnds(script);
    TrimmedLine(text);
    assert StartsWith(text, "\"");
    ScriptLineOf(script.0, ActiveMark(script.1));
    UpperAppend(q, ActiveMark(script.1));
    MarkedActive(Upper(q), script.1);
    QuotedActive(script.0);
  }

  /** `ACTIVE` is on the upper-cased line when it is on the name's part or
      the marker is there. */
  lemma MarkedActive(u: string, active: bool)
    ensures Contains(u + Upper(ActiveMark(active)), "ACTIVE") == (active || Contains(u, "ACTIVE"))
  {
    ActiveMarkRead(active);
    if active {
      ContainsSuffix(u, Upper(ActiveMark(active)), "ACTIVE");
    } else {
      assert Upper(ActiveMark(active)) == "";
      assert u + "" == u;
    }
  }

  /** The corrected reading gives a listing line's script back exactly. */
  lemma ListingLineCorrectedOf(script: (string, bool))
    requires NoQuote(script.0)
    ensures ScriptEntryCorrected(ListingLine(script)) == Some(script)
  {
    var text := Quoted(script.0) + ActiveMark(script.1);
    ListingTextEnds(script);
    TrimmedLine(text);
    assert StartsWith(text, "\"");
    ScriptLineCorrectedOf(script.0, script.1);
  }

  /** A listing is read line by line: when `entry` reads each listing line
      as `out` says, it reads the whole listing as `out`. */
  lemma {:induction false} ListingRead(entry: string -> Option<(string, bool)>, scripts: seq<(string, bool)>,
                                       out: seq<(string, bool)>)
    requires |out| == |scripts|
    requires forall i :: 0 <= i < |scripts| ==> entry(ListingLine(scripts[i])) == Some(out[i])
    ensures Listed(entry, ScriptListing(scripts)) == out
    decreases |scripts|
  {
    if |scripts| > 0 {
      assert forall i :: 0 <= i < |scripts| - 1 ==> scripts[1..][i] == scripts[i + 1] && out[1..][i] == out[i + 1];
      ListingRead(entry, scripts[1..], out[1..]);
      var line := ListingLine(scripts[0]);
      assert ScriptListing(scripts) == [line] + ScriptListing(scripts[1..]);
      AcceptedCons(entry, line, ScriptListing(scripts[1..]), out[0]);
      ConsTail(out);
    }
  }

  /** After a listing, the line with a status is the first with one. */
  lemma ListingFirstStatus(scripts: seq<(string, bool)>, end: string, more: seq<string>)
    requires HasStatus(end)
    ensures FirstStatus(ScriptListing(scripts) + [end] + more) == Some(|scripts|)
  {
    var listing := ScriptListing(scripts);
    forall i | 0 <= i < |listing| ensures !HasStatus(listing[i]) {
      ListingLineUntagged(scripts[i]);
    }
    FirstWhereAfter(HasStatus, listing, end, more);
  }

  /** Any listing of scripts, ended by `OK`: `list_scripts` reads back the
      names in order, each marked active when it is active or when its name
      contains `active` in any case; the lines after it are left for the
      next reader. */
  lemma ListScriptsReadsBack(scripts: seq<(string, bool)>, ok: string, more: seq<string>)
    requires Listable(scripts) && Classify(ok) == OkStatus
    ensures ListScripts(ScriptListing(scripts) + [ok] + more).1 == Finished(Ok(AsListed(scripts)), more)
  {
    ListingFirstStatus(scripts, ok, more);
    AroundOne(ScriptListing(scripts), ok, more);
    forall i | 0 <= i < |scripts| ensures ScriptEntry(ListingLine(scripts[i])) == Some(AsListed(scripts)[i]) {
      ListingLineOf(scripts[i]);
    }
    ListingRead(ScriptEntry, scripts, AsListed(scripts));
  }

  /** Names without `active` in them: the listing reads back as exactly
      those scripts with their states. */
  lemma ListScriptsRoundTrip(scripts: seq<(string, bool)>, ok: string, more: seq<string>)
    requires Listable(scripts) && Classify(ok) == OkStatus
    requires forall i :: 0 <= i < |scripts| ==> !Contains(Upper(scripts[i].0), "ACTIVE")
    ensures ListScripts(ScriptListing(scripts) + [ok] + more).1 == Finished(Ok(scripts), more)
  {
    ListScriptsReadsBack(scripts, ok, more);
    assert AsListed(scripts) == scripts;
  }

  /** The corrected reading gives every listing back exactly, whatever the
      names. */
  lemma ListScriptsCorrectedRoundTrip(scripts: seq<(string, bool)>, ok: string, more: seq<string>)
    requires Listable(scripts) && Classify(ok) == OkStatus
    ensures ListScriptsCorrected(ScriptListing(scripts) + [ok] + more).1 == Finished(Ok(scripts), more)
  {
    ListingFirstStatus(scripts, ok, more);
    AroundOne(ScriptListing(scripts), ok, more);
    forall i | 0 <= i < |scripts| ensures ScriptEntryCorrected(ListingLine(scripts[i])) == Some(scripts[i]) {
      ListingLineCorrectedOf(scripts[i]);
    }
    ListingRead(ScriptEntryCorrected, scripts, scripts);
  }

  /** A listing cut short by `NO` or `BYE` is a server error quoting that
      line, whatever came before. */
  lemma ListScriptsRefused(scripts: seq<(string, bool)>, refusal: string, more: seq<string>)
    requires Classify(refusal) in {NoStatus, ByeStatus}
    ensures ListScripts(ScriptListing(scripts) + [refusal] + more).1
      == Finished(Err(ServerError(Trim(refusal))), more)
  {
    ListingFirstStatus(scripts, refusal, more);
    AroundOne(ScriptListing(scripts), refusal, more);
  }

  // -------------------------------------------------------------- GETSCRIPT

  const InvalidLiteral := "Invalid literal length format"

  /** The reply to GETSCRIPT. A first line that starts with `{` must be a
      literal header `{N}`: then N bytes of script, two bytes that are
      skipped unread, and a final line that must report `OK`. Any other
      first line is an error. */
  function GetScriptReply(stream: seq<byte>, name: string, decode: seq<byte> -> Option<string>,
                          lossy: seq<byte> -> string): (r: Exchange<string>)
    ensures Unread(r.rest, stream)
    ensures r.outcome.Err? && r.outcome.error.ScriptNotFound? ==> r.outcome.error.name == name
    ensures ReadTextLine(stream, decode).Err? ==> r == Exchange(Err(IoError), FailedLine(stream))
    ensures var first := ReadTextLine(stream, decode);
      first.Ok? && StartsWith(Trim(first.value.0), "{") && ParseLiteralLength(Trim(first.value.0)).None?
      ==> r == Exchange(Err(ProtocolError(InvalidLiteral)), first.value.1)
    ensures var first := ReadTextLine(stream, decode);
      first.Ok? && StartsWith(Trim(first.value.0), "{") && ParseLiteralLength(Trim(first.value.0)).Some?
      ==> r == LiteralBody(first.value.1, ParseLiteralLength(Trim(first.value.0)).value, decode, lossy)
    ensures var first := ReadTextLine(stream, decode);
      first.Ok? && !StartsWith(Trim(first.value.0), "{") && Classify(first.value.0) == NoStatus
      ==> r == Exchange(Err(ScriptNotFound(name)), first.value.1)
    ensures var first := ReadTextLine(stream, decode);
      first.Ok? && !StartsWith(Trim(first.value.0), "{") && Classify(first.value.0) == ByeStatus
      ==> r == Exchange(Err(ServerError(Trim(first.value.0))), first.value.1)
    ensures var first := ReadTextLine(stream, decode);
      first.Ok? && !StartsWith(Trim(first.value.0), "{") && Classify(first.value.0) in {OkStatus, Untagged}
      ==> r == Exchange(Err(InvalidResponse(Trim(first.value.0))), first.value.1)
  {
    match ReadTextLine(stream, decode)
    case Err(e) => Exchange(Err(e), FailedLine(stream))
    case Ok((response, s1)) =>
      var line := Trim(response);
      if StartsWith(line, "{") then
        match ParseLiteralLength(line)
        case None => Exchange(Err(ProtocolError(InvalidLiteral)), s1)
        case Some(n) =>
          LiteralBody(s1, n, decode, lossy)
      else if Classify(response) == NoStatus then Exchange(Err(ScriptNotFound(name)), s1)
      else if Classify(response) == ByeStatus then Exchange(Err(ServerError(line)), s1)
      else Exchange(Err(InvalidResponse(line)), s1)
  }

  /** What follows a literal header: the literal, two skipped bytes, and the
      final status line, whose upper-cased text is the error when it is not
      `OK`. */
  function LiteralBody(s1: seq<byte>, n: nat, decode: seq<byte> -> Option<string>,
                       lossy: seq<byte> -> string): (r: Exchange<string>)
    ensures Unread(r.rest, s1)
    ensures r.outcome.Ok? ==> n + 2 <= |s1| && r.outcome.value == lossy(s1[..n])
    ensures r.outcome.Err? ==> r.outcome.error == IoError || r.outcome.error.ServerError?
    ensures |s1| < n + 2 ==> r == Exchange(Err(IoError), [])
  {
    match ReadExact(s1, n)
    case Err(e) => Exchange(Err(e), Drained(s1))
    case Ok((content, s2)) =>
      match ReadExact(s2, 2)
      case Err(e) => Exchange(Err(e), Drained(s2))
      case Ok((_, s3)) =>
        match ReadTextLine(s3, decode)
        case Err(e) => Exchange(Err(e), FailedLine(s3))
        case Ok((response, s4)) =>
          var final := Normal(response);
          if StartsWith(final, "OK") then Exchange(Ok(lossy(content)), s4)
          else Exchange(Err(ServerError(final)), s4)
  }

  /** `get_script`: the command, and what the response gives. */
  function GetScript(name: string, stream: seq<byte>, decode: seq<byte> -> Option<string>,
                     lossy: seq<byte> -> string): (r: (string, Exchange<string>))
    ensures r.0 == GetScriptCommand(name)
    ensures r.1 == GetScriptReply(stream, name, decode, lossy)
    ensures Unread(r.1.rest, stream)
  {
    (GetScriptCommand(name), GetScriptReply(stream, name, decode, lossy))
  }

  /** The literal header a server announces `n` bytes with. */
  function LiteralMark(n: nat): string {
    "{" + Decimal(n) + "}"
  }

  lemma LiteralMarkLine(n: nat)
    ensures NoLineFeed(LiteralMark(n))
    ensures Trim(LiteralMark(n) + CRLF) == LiteralMark(n)
    ensures StartsWith(LiteralMark(n), "{")
  {
    var m := LiteralMark(n);
    forall i | 0 <= i < |m| ensures m[i] != '\n' {
      if 0 < i < |m| - 1 {
        assert m[i] == Decimal(n)[i - 1];
      }
    }
    TrimmedLine(m);
  }

  /** A script returned as a literal reads back as that script, and the
      response is consumed up to its final line, whatever the two bytes
      after the literal and whatever the final line says. */
  lemma GetScriptRoundTrip(name: string, script: string, sep: seq<byte>, final: string, more: seq<byte>,
                           decode: seq<byte> -> Option<string>, lossy: seq<byte> -> string)
    requires DecodesUtf8(decode) && KeepsUtf8(lossy)
    requires |Utf8(script)| <= USIZE_MAX && |sep| == 2 && NoLineFeed(final)
    ensures var n := |Utf8(script)|;
      GetScriptReply(Utf8(LiteralMark(n) + CRLF) + (Utf8(script) + sep + (Utf8(final + CRLF) + more)),
                     name, decode, lossy)
      == Exchange(if Classify(final + CRLF) == OkStatus then Ok(script)
                  else Err(ServerError(Normal(final + CRLF))), more)
  {
    var n := |Utf8(script)|;
    var tail := Utf8(final + CRLF) + more;
    var s1 := Utf8(script) + sep + tail;
    LiteralMarkLine(n);
    ReadTextLineOf(LiteralMark(n), s1, decode);
    LiteralLengthOf(n);
    LiteralBodyOf(script, sep, final, more, decode, lossy);
  }

  lemma LiteralBodyOf(script: string, sep: seq<byte>, final: string, more: seq<byte>,
                      decode: seq<byte> -> Option<string>, lossy: seq<byte> -> string)
    requires DecodesUtf8(decode) && KeepsUtf8(lossy)
    requires |sep| == 2 && NoLineFeed(final)
    ensures LiteralBody(Utf8(script) + sep + (Utf8(final + CRLF) + more), |Utf8(script)|, decode, lossy)
      == Exchange(if Classify(final + CRLF) == OkStatus then Ok(script)
                  else Err(ServerError(Normal(final + CRLF))), more)
  {
    LiteralSplit(Utf8(script), sep, Utf8(final + CRLF) + more);
    ReadTextLineOf(final, more, decode);
  }

  /** A literal of `|body|` bytes, its two-byte separator and what follows,
      cut where `read_literal` cuts them. */
  lemma LiteralSplit(body: seq<byte>, sep: seq<byte>, tail: seq<byte>)
    requires |sep| == 2
    ensures (body + sep + tail)[..|body|] == body
    ensures (body + sep + tail)[|body|..] == sep + tail
    ensures (sep + tail)[2..] == tail
  {
    assert (body + sep + tail)[|body|..] == sep + tail;
  }

  /** `NO` to GETSCRIPT: the script was not found. */
  lemma GetScriptNotFound(name: string, refusal: string, more: seq<byte>,
                          decode: seq<byte> -> Option<string>, lossy: seq<byte> -> string)
    requires DecodesUtf8(decode) && NoLineFeed(refusal) && Classify(refusal + CRLF) == NoStatus
    ensures GetScriptReply(Utf8(refusal + CRLF) + more, name, decode, lossy)
      == Exchange(Err(ScriptNotFound(name)), more)
  {
    ReadTextLineOf(refusal, more, decode);
    RefusedFirstLine(Utf8(refusal + CRLF) + more, refusal + CRLF, more, name, decode, lossy);
  }

  lemma RefusedFirstLine(stream: seq<byte>, response: string, s1: seq<byte>, name: string,
                         decode: seq<byte> -> Option<string>, lossy: seq<byte> -> string)
    requires ReadTextLine(stream, decode) == Ok((response, s1)) && Classify(response) == NoStatus
    ensures GetScriptReply(stream, name, decode, lossy) == Exchange(Err(ScriptNotFound(name)), s1)
  {
    StatusLineNoLiteral(response);
  }

  /** A first line that starts with `{` but is not a literal header is a
      protocol error. */
  lemma GetScriptBadHeader(name: string, header: string, more: seq<byte>,
                           decode: seq<byte> -> Option<string>, lossy: seq<byte> -> string)
    requires DecodesUtf8(decode) && NoLineFeed(header)
    requires StartsWith(Trim(header + CRLF), "{") && ParseLiteralLength(Trim(header + CRLF)).None?
    ensures GetScriptReply(Utf8(header + CRLF) + more, name, decode, lossy)
      == Exchange(Err(ProtocolError(InvalidLiteral)), more)
  {
    ReadTextLineOf(header, more, decode);
  }

  /** A literal longer than what the server sends is an I/O error. */
  lemma GetScriptShortLiteral(name: string, n: nat, more: seq<byte>,
                              decode: seq<byte> -> Option<string>, lossy: seq<byte> -> string)
    requires DecodesUtf8(decode) && n <= USIZE_MAX && |more| < n
    ensures GetScriptReply(Utf8(LiteralMark(n) + CRLF) + more, name, decode, lossy).outcome == Err(IoError)
  {
    LiteralMarkLine(n);
    ReadTextLineOf(LiteralMark(n), more, decode);
    LiteralLengthOf(n);
  }

  // ------------------------------------------------------------ CHECKSCRIPT

  const Warned := "Script has warnings"

  /** The text between the first and the last `"` of a line, when those are
      two different quotes. */
  function QuotedMessage(line: string): (r: Option<string>)
    ensures r.None? <==> forall i, j :: 0 <= i < j < |line| ==> line[i] != '"' || line[j] != '"'
  {
    var a := FindChar(line, '"');
    var b := FindLastChar(line, '"');
    if 0 <= a < b then Some(line[a + 1..b]) else None
  }

  /** A message quoted once, with no other quote on the line, reads back
      whole, quotes inside it included. */
  lemma QuotedMessageOf(head: string, msg: string, tail: string)
    requires NoQuote(head) && NoQuote(tail)
    ensures QuotedMessage(head + Quoted(msg) + tail) == Some(msg)
  {
    var line := head + Quoted(msg) + tail;
    var a := |head|;
    var b := |head| + |msg| + 1;
    assert line[a] == '"' && line[b] == '"';
    assert forall i :: 0 <= i < a ==> line[i] == head[i];
    assert forall i :: b < i < |line| ==> line[i] == tail[i - b - 1];
    assert line[a + 1..b] == msg;
  }

  /** The message of a status line that announces no literal: the quoted
      text, or `fallback` when the line quotes nothing. */
  function QuotedOr(line: string, fallback: string): string {
    match QuotedMessage(line)
    case Some(text) => text
    case None => fallback
  }

  /** Where the message of a CHECKSCRIPT status line is: quoted on the line,
      in a literal of `size` bytes after it, or nowhere, when a fallback text
      stands in. */
  datatype Message = Text(text: string) | Literal(size: nat)

  /** The message of a status line as `check_script` finds it: quoted on the
      line; else, when the line contains `{`, a literal announced by the
      whole line; else the fallback. */
  function MessageOf(line: string, fallback: string): (m: Message)
    ensures m.Literal? ==> ParseLiteralLength(line) == Some(m.size)
    ensures m.Literal? ==> QuotedMessage(line).None? && Contains(line, "{")
    ensures QuotedMessage(line).Some? ==> m == Text(QuotedMessage(line).value)
    ensures QuotedMessage(line).None? && !m.Literal? ==> m == Text(fallback)
  {
    if FindChar(line, '"') >= 0 then
      match QuotedMessage(line)
      case Some(text) => Text(text)
      case None => Text(fallback)
    else if Contains(line, "{") then
      match ParseLiteralLength(line)
      case Some(n) => Literal(n)
      case None => Text(fallback)
    else Text(fallback)
  }

  /** A status line cannot announce a literal the way `check_script` looks
      for one: that needs the line to start with `{`. */
  lemma LiteralNeverFound(line: string, fallback: string)
    requires |line| > 0 && line[0] != '{'
    ensures MessageOf(line, fallback).Text?
  {
    LiteralNeedsWholeLine(line);
  }

  /** The message of a status line with the literal announced by the `{N}`
      at its end. */
  function MessageOfCorrected(line: string, fallback: string): (m: Message)
    ensures m.Literal? ==> |line| >= 3 && line[|line| - 1] == '}' && m.size <= USIZE_MAX
    ensures QuotedMessage(line).Some? ==> m == Text(QuotedMessage(line).value)
  {
    if FindChar(line, '"') >= 0 then
      match QuotedMessage(line)
      case Some(text) => Text(text)
      case None => Text(fallback)
    else
      var i := FindLastChar(line, '{');
      if i < 0 then Text(fallback)
      else match ParseLiteralLength(line[i..])
        case Some(n) =>
          assert line[i..][|line[i..]| - 1] == line[|line| - 1];
          Literal(n)
        case None => Text(fallback)
  }

  /** A line ending in a literal header announces that literal. */
  lemma MessageOfCorrectedLiteral(head: string, n: nat, fallback: string)
    requires NoQuote(head) && n <= USIZE_MAX
    ensures MessageOfCorrected(head + LiteralMark(n), fallback) == Literal(n)
  {
    var line := head + LiteralMark(n);
    var d := Decimal(n);
    assert LiteralMark(n) == "{" + d + "}";
    assert forall i :: 0 <= i < |d| ==> IsDigit(d[i]);
    assert forall i :: 0 <= i < |head| ==> line[i] == head[i];
    assert forall i :: |head| < i < |line| - 1 ==> line[i] == d[i - |head| - 1];
    assert line[|head|] == '{' && line[|line| - 1] == '}';
    assert FindChar(line, '"') < 0;
    assert FindLastChar(line, '{') == |head|;
    assert line[|head|..] == LiteralMark(n);
    LiteralLengthOf(n);
  }

  /** Reads the message: a literal is read from the stream. */
  function ReadMessage(s: seq<byte>, m: Message, lossy: seq<byte> -> string)
    : (r: Result<(string, seq<byte>), ManageSieveError>)
    ensures r.Ok? ==> Unread(r.value.1, s)
    ensures m.Text? ==> r == Ok((m.text, s))
    ensures m.Literal? ==> (r.Ok? <==> m.size <= |s|)
    ensures r.Err? ==> r.error == IoError
  {
    match m
    case Text(text) => Ok((text, s))
    case Literal(n) =>
      match ReadExact(s, n)
      case Err(e) => Err(e)
      case Ok((content, rest)) => Ok((lossy(content), rest))
  }

  /** Reads the message; a literal is followed by the end of the response
      line, which is read too. */
  function ReadMessageCorrected(s: seq<byte>, m: Message, lossy: seq<byte> -> string)
    : (r: Result<(string, seq<byte>), ManageSieveError>)
    ensures r.Ok? ==> Unread(r.value.1, s)
    ensures m.Text? ==> r == Ok((m.text, s))
    ensures r.Ok? == ReadMessage(s, m, lossy).Ok?
  {
    match ReadMessage(s, m, lossy)
    case Err(e) => Err(e)
    case Ok((text, rest)) =>
      if m.Literal? then
        var after := ReadLine(rest).1;
        assert ReadLine(rest).0 + after == rest;
        Ok((text, after))
      else Ok((text, rest))
  }

  /** The reply to CHECKSCRIPT as `check_script` reads it: a status line,
      and whatever it announces. */
  function CheckScriptReply(stream: seq<byte>, decode: seq<byte> -> Option<string>,
                            lossy: seq<byte> -> string): (r: Exchange<Option<string>>)
    ensures Unread(r.rest, stream)
    ensures ReadTextLine(stream, decode).Ok? ==> r.rest == ReadTextLine(stream, decode).value.1
    ensures ReadTextLine(stream, decode).Err? ==> r == Exchange(Err(IoError), FailedLine(stream))
    ensures ReadTextLine(stream, decode).Ok? ==>
      r == CheckStatus(ReadTextLine(stream, decode).value.0, ReadTextLine(stream, decode).value.1, lossy)
  {
    match ReadTextLine(stream, decode)
    case Err(e) => Exchange(Err(e), FailedLine(stream))
    case Ok((response, s1)) => CheckStatus(response, s1, lossy)
  }

  /** What `check_script` makes of the status line `response`, `s1` being
      the stream after it. `OK` is a success, with the warnings when the line
      has the `(WARNINGS)` response code; `NO` is a server error with the
      message; `BYE` and anything else are errors quoting the line. Nothing
      after the line is ever read. */
  function CheckStatus(response: string, s1: seq<byte>, lossy: seq<byte> -> string)
    : (r: Exchange<Option<string>>)
    ensures r.rest == s1
    ensures r.outcome.Ok? <==> Classify(response) == OkStatus
    ensures Classify(response) == OkStatus ==>
      r.outcome == Ok(if Contains(Upper(Trim(response)), "(WARNINGS)")
                      then Some(QuotedOr(Trim(response), Warned)) else None)
    ensures Classify(response) == NoStatus ==> r.outcome == Err(ServerError(QuotedOr(Trim(response), Trim(response))))
    ensures Classify(response) == ByeStatus ==> r.outcome == Err(ServerError(Trim(response)))
    ensures Classify(response) == Untagged ==> r.outcome == Err(InvalidResponse(Trim(response)))
  {
    var line := Trim(response);
    match Classify(response)
    case OkStatus =>
      if Contains(Upper(line), "(WARNINGS)") then
        StatusLineNoLiteral(response);
        LiteralNeverFound(line, Warned);
        (match ReadMessage(s1, MessageOf(line, Warned), lossy)
         case Err(e) => Exchange(Err(e), Drained(s1))
         case Ok((msg, s2)) => Exchange(Ok(Some(msg)), s2))
      else Exchange(Ok(None), s1)
    case NoStatus =>
      StatusLineNoLiteral(response);
      LiteralNeverFound(line, line);
      (match ReadMessage(s1, MessageOf(line, line), lossy)
       case Err(e) => Exchange(Err(e), Drained(s1))
       case Ok((msg, s2)) => Exchange(Err(ServerError(msg)), s2))
    case ByeStatus => Exchange(Err(ServerError(line)), s1)
    case Untagged => Exchange(Err(InvalidResponse(line)), s1)
  }

  /** An `OK` or `NO` line, trimmed, starts with its status, not `{`. */
  lemma StatusLineNoLiteral(response: string)
    requires Classify(response) in {OkStatus, NoStatus}
    ensures |Trim(response)| > 0 && Trim(response)[0] != '{'
  {
    assert Normal(response)[0] in "ON";
    assert Normal(response)[0] == UpperChar(Trim(response)[0]);
  }

  /** The reply to CHECKSCRIPT, with a literal message read as the `{N}` at
      the end of the status line announces it. */
  function CheckScriptReplyCorrected(stream: seq<byte>, decode: seq<byte> -> Option<string>,
                                     lossy: seq<byte> -> string): (r: Exchange<Option<string>>)
    ensures Unread(r.rest, stream)
    ensures ReadTextLine(stream, decode).Err? ==> r == Exchange(Err(IoError), FailedLine(stream))
  {
    match ReadTextLine(stream, decode)
    case Err(e) => Exchange(Err(e), FailedLine(stream))
    case Ok((response, s1)) => CheckStatusCorrected(response, s1, lossy)
  }

  /** The status line of the reply to CHECKSCRIPT, with a literal message
      read, together with the rest of the line after it. */
  function CheckStatusCorrected(response: string, s1: seq<byte>, lossy: seq<byte> -> string)
    : (r: Exchange<Option<string>>)
    ensures Unread(r.rest, s1)
    ensures r.outcome.Ok? ==> Classify(response) == OkStatus
    ensures Classify(response) == OkStatus ==> r.outcome.Ok? || r.outcome.error == IoError
    ensures r.outcome.Ok? && r.outcome.value.Some? ==> Contains(Upper(Trim(response)), "(WARNINGS)")
    ensures Classify(response) == ByeStatus ==> r == Exchange(Err(ServerError(Trim(response))), s1)
    ensures Classify(response) == Untagged ==> r == Exchange(Err(InvalidResponse(Trim(response))), s1)
  {
    var line := Trim(response);
    match Classify(response)
    case OkStatus =>
      if Contains(Upper(line), "(WARNINGS)") then
        (match ReadMessageCorrected(s1, MessageOfCorrected(line, Warned), lossy)
         case Err(e) => Exchange(Err(e), Drained(s1))
         case Ok((msg, s2)) => Exchange(Ok(Some(msg)), s2))
      else Exchange(Ok(None), s1)
    case NoStatus =>
      (match ReadMessageCorrected(s1, MessageOfCorrected(line, line), lossy)
       case Err(e) => Exchange(Err(e), Drained(s1))
       case Ok((msg, s2)) => Exchange(Err(ServerError(msg)), s2))
    case ByeStatus => Exchange(Err(ServerError(line)), s1)
    case Untagged => Exchange(Err(InvalidResponse(line)), s1)
  }

  /** `check_script`: the command, and what the response gives. Nothing
      after the status line is read. */
  function CheckScript(script: string, stream: seq<byte>, decode: seq<byte> -> Option<string>,
                       lossy: seq<byte> -> string): (r: (seq<byte>, Exchange<Option<string>>))
    ensures r.0 == CheckScriptCommand(script)
    ensures Unread(r.1.rest, stream)
    ensures ReadTextLine(stream, decode).Ok? ==> r.1.rest == ReadLine(stream).1
    ensures r.1.outcome.Ok? <==> ReadTextLine(stream, decode).Ok? && Classify(ReadTextLine(stream, decode).value.0) == OkStatus
    ensures ReadTextLine(stream, decode).Err? ==> r.1.outcome == Err(IoError)
    ensures var line := ReadTextLine(stream, decode);
      line.Ok? && Classify(line.value.0) == OkStatus ==>
        r.1.outcome == Ok(if Contains(Upper(Trim(line.value.0)), "(WARNINGS)")
                          then Some(QuotedOr(Trim(line.value.0), Warned)) else None)
    ensures var line := ReadTextLine(stream, decode);
      line.Ok? && Classify(line.value.0) == NoStatus ==>
        r.1.outcome == Err(ServerError(QuotedOr(Trim(line.value.0), Trim(line.value.0))))
    ensures var line := ReadTextLine(stream, decode);
      line.Ok? && Classify(line.value.0) == ByeStatus ==> r.1.outcome == Err(ServerError(Trim(line.value.0)))
    ensures var line := ReadTextLine(stream, decode);
      line.Ok? && Classify(line.value.0) == Untagged ==> r.1.outcome == Err(InvalidResponse(Trim(line.value.0)))
  {
    (CheckScriptCommand(script), CheckScriptReply(stream, decode, lossy))
  }

  /** `check_script` with the corrected reader of literal messages. */
  function CheckScriptCorrected(script: string, stream: seq<byte>, decode: seq<byte> -> Option<string>,
                                lossy: seq<byte> -> string): (r: (seq<byte>, Exchange<Option<string>>))
    ensures r.0 == CheckScriptCommand(script)
    ensures r.1 == CheckScriptReplyCorrected(stream, decode, lossy)
    ensures Unread(r.1.rest, stream)
    ensures r.1.outcome.Ok? ==> ReadTextLine(stream, decode).Ok? && Classify(ReadTextLine(stream, decode).value.0) == OkStatus
  {
    (CheckScriptCommand(script), CheckScriptReplyCorrected(stream, decode, lossy))
  }

  // ------------------------------------------- CHECKSCRIPT, line by line

  /** A status line `head` followed by a literal header. */
  lemma AnnouncingLine(head: string, n: nat)
    requires NoQuote(head) && NoLineFeed(head) && |head| > 0 && IsNotWhitespace(head[0])
    ensures var line := head + LiteralMark(n);
      NoQuote(line) && NoLineFeed(line) && Trim(line + CRLF) == line
  {
    var line := head + LiteralMark(n);
    var d := Decimal(n);
    assert LiteralMark(n) == "{" + d + "}";
    assert forall i :: 0 <= i < |d| ==> IsDigit(d[i]);
    assert forall i :: 0 <= i < |head| ==> line[i] == head[i];
    assert forall i :: |head| < i < |line| - 1 ==> line[i] == d[i - |head| - 1];
    assert line[|head|] == '{' && line[|line| - 1] == '}';
    TrimmedLine(line);
  }

  /** `NO {N}`, the literal and the end of the response line: `check_script`
      takes the status line itself for the message and leaves the literal
      unread, where the next command's reply is looked for. */
  lemma CheckScriptLiteralLeftUnread(head: string, msg: string, more: seq<byte>,
                                     decode: seq<byte> -> Option<string>, lossy: seq<byte> -> string)
    requires DecodesUtf8(decode)
    requires NoQuote(head) && NoLineFeed(head) && |head| > 0 && IsNotWhitespace(head[0])
    requires Classify(head + LiteralMark(|Utf8(msg)|) + CRLF) == NoStatus
    ensures var line := head + LiteralMark(|Utf8(msg)|);
      CheckScriptReply(Utf8(line + CRLF) + (Utf8(msg) + (Utf8(CRLF) + more)), decode, lossy)
      == Exchange(Err(ServerError(line)), Utf8(msg) + (Utf8(CRLF) + more))
  {
    var line := head + LiteralMark(|Utf8(msg)|);
    var s1 := Utf8(msg) + (Utf8(CRLF) + more);
    AnnouncingLine(head, |Utf8(msg)|);
    ReadTextLineOf(line, s1, decode);
    UnquotedRefusal(line, s1, lossy);
  }

  /** A `NO` line without quotes is its own message. */
  lemma UnquotedRefusal(line: string, s1: seq<byte>, lossy: seq<byte> -> string)
    requires NoQuote(line) && Trim(line + CRLF) == line && Classify(line + CRLF) == NoStatus
    ensures CheckStatus(line + CRLF, s1, lossy) == Exchange(Err(ServerError(line)), s1)
  {
    StatusLineNoLiteral(line + CRLF);
    LiteralNeverFound(line, line);
  }

  /** The same response read by the corrected reader: the literal is the
      message, and the whole response is consumed. With `OK` and the
      `(WARNINGS)` code the literal holds the warnings. */
  lemma CheckScriptLiteralRead(head: string, msg: string, more: seq<byte>,
                               decode: seq<byte> -> Option<string>, lossy: seq<byte> -> string)
    requires DecodesUtf8(decode) && KeepsUtf8(lossy) && |Utf8(msg)| <= USIZE_MAX
    requires NoQuote(head) && NoLineFeed(head) && |head| > 0 && IsNotWhitespace(head[0])
    requires var line := head + LiteralMark(|Utf8(msg)|);
      Classify(line + CRLF) == NoStatus
      || (Classify(line + CRLF) == OkStatus && Contains(Upper(line), "(WARNINGS)"))
    ensures var line := head + LiteralMark(|Utf8(msg)|);
      CheckScriptReplyCorrected(Utf8(line + CRLF) + (Utf8(msg) + (Utf8(CRLF) + more)), decode, lossy)
      == Exchange(if Classify(line + CRLF) == NoStatus then Err(ServerError(msg)) else Ok(Some(msg)), more)
  {
    var n := |Utf8(msg)|;
    var line := head + LiteralMark(n);
    var s1 := Utf8(msg) + (Utf8(CRLF) + more);
    AnnouncingLine(head, n);
    ReadTextLineOf(line, s1, decode);
    MessageOfCorrectedLiteral(head, n, Warned);
    MessageOfCorrectedLiteral(head, n, line);
    LiteralMessageRead(msg, more, lossy);
    LiteralStatus(line, n, s1, lossy);
  }

  /** A literal message, then the end of its response line. */
  lemma LiteralMessageRead(msg: string, more: seq<byte>, lossy: seq<byte> -> string)
    requires KeepsUtf8(lossy)
    ensures ReadMessageCorrected(Utf8(msg) + (Utf8(CRLF) + more), Literal(|Utf8(msg)|), lossy) == Ok((msg, more))
  {
    var s1 := Utf8(msg) + (Utf8(CRLF) + more);
    assert s1[..|Utf8(msg)|] == Utf8(msg) && s1[|Utf8(msg)|..] == Utf8(CRLF) + more;
    OneLine("", more);
    assert "" + CRLF == CRLF;
  }

  lemma LiteralStatus(line: string, n: nat, s1: seq<byte>, lossy: seq<byte> -> string)
    requires Trim(line + CRLF) == line
    requires MessageOfCorrected(line, Warned) == Literal(n) && MessageOfCorrected(line, line) == Literal(n)
    requires ReadMessageCorrected(s1, Literal(n), lossy).Ok?
    requires Classify(line + CRLF) == NoStatus
      || (Classify(line + CRLF) == OkStatus && Contains(Upper(line), "(WARNINGS)"))
    ensures var (msg, rest) := ReadMessageCorrected(s1, Literal(n), lossy).value;
      CheckStatusCorrected(line + CRLF, s1, lossy)
      == Exchange(if Classify(line + CRLF) == NoStatus then Err(ServerError(msg)) else Ok(Some(msg)), rest)
  {
  }

  /** A message quoted on the status line is the message, and nothing after
      the line is read; both readers agree on it. */
  lemma CheckScriptQuoted(head: string, msg: string, tail: string, more: seq<byte>,
                          decode: seq<byte> -> Option<string>, lossy: seq<byte> -> string)
    requires DecodesUtf8(decode) && NoQuote(head) && NoQuote(tail)
    requires var line := head + Quoted(msg) + tail;
      NoLineFeed(line) && |head| > 0 && IsNotWhitespace(head[0]) && IsNotWhitespace(line[|line| - 1])
    requires var line := head + Quoted(msg) + tail;
      Classify(line + CRLF) == NoStatus
      || (Classify(line + CRLF) == OkStatus && Contains(Upper(line), "(WARNINGS)"))
    ensures var line := head + Quoted(msg) + tail;
      var reply := Exchange(if Classify(line + CRLF) == NoStatus then Err(ServerError(msg)) else Ok(Some(msg)), more);
      CheckScriptReplyCorrected(Utf8(line + CRLF) + more, decode, lossy) == reply
      && CheckScriptReply(Utf8(line + CRLF) + more, decode, lossy) == reply
  {
    var line := head + Quoted(msg) + tail;
    assert line[0] == head[0];
    TrimmedLine(line);
    ReadTextLineOf(line, more, decode);
    QuotedMessageOf(head, msg, tail);
    assert line[|head|] == '"';
  }

  /** `OK` without the `(WARNINGS)` code: no warnings, and nothing after the
      line is read. */
  lemma CheckScriptClean(response: string, more: seq<byte>,
                         decode: seq<byte> -> Option<string>, lossy: seq<byte> -> string)
    requires DecodesUtf8(decode) && NoLineFeed(response)
    requires Classify(response + CRLF) == OkStatus && !Contains(Upper(Trim(response + CRLF)), "(WARNINGS)")
    ensures CheckScriptReplyCorrected(Utf8(response + CRLF) + more, decode, lossy) == Exchange(Ok(None), more)
    ensures CheckScriptReply(Utf8(response + CRLF) + more, decode, lossy) == Exchange(Ok(None), more)
  {
    ReadTextLineOf(response, more, decode);
  }
}

=== FILE: session.dfy ===
/**
 * Opening a session (sieve_client/src/sieve_client.rs, `connect`): the
 * greeting that is read past, STARTTLS (RFC 5804 section 2.2), the
 * capabilities the server lists over TLS, and authentication with SASL PLAIN
 * (RFC 5804 section 2.1). The network, the TLS handshake and the host-name
 * check are parameters: their outcome is given, not computed.
 */
module Session {
  import opened Optional
  import opened Text
  import opened Bytes
  import opened ResponseLines
  import opened Commands
  import opened ServerCapabilities

  datatype ConnectError =
    | ConnectionFailed
    | ProtocolError(message: string)
    | TlsError
    | AuthenticationFailed(message: string)

  /** `ignore_initial_greeting`: lines are read, and dropped, up to and
      including the first `OK`. */
  function IgnoreGreeting(lines: seq<string>): (r: Reply<()>)
    ensures r.Finished? <==> FirstOk(lines).Some?
    ensures r.Finished? ==> r == Finished((), lines[FirstOk(lines).value + 1..])
    decreases |lines|
  {
    if |lines| == 0 then Stalled
    else if Classify(lines[0]) == OkStatus then Finished((), lines[1..])
    else
      // Blank lines carry no status (`BlankUntagged`): skipped like the rest.
      FirstOkStep(lines);
      IgnoreGreeting(lines[1..])
  }

  /** The greeting a server opens with is its capability listing and `OK`:
      all of it is read past, and nothing after it. */
  lemma GreetingSkipped(es: seq<(string, Option<string>)>, ok: string, more: seq<string>)
    requires Classify(ok) == OkStatus
    ensures IgnoreGreeting(ListingLines(es) + [ok] + more) == Finished((), more)
  {
    ListingFirstOk(es, ok, more);
    AroundOne(ListingLines(es), ok, more);
  }

  const StartTlsFailed := "STARTTLS failed: "

  /** The reply to STARTTLS: anything but `OK` ends the connection attempt. */
  function StartTlsReply(response: string): (r: Result<(), ConnectError>)
    ensures r.Ok? <==> Classify(response) == OkStatus
    ensures r.Err? ==> r.error == ProtocolError(StartTlsFailed + Trim(response))
  {
    if StartsWith(Normal(response), "OK") then Ok(())
    else Err(ProtocolError(StartTlsFailed + Trim(response)))
  }

  const Rejected := "Server rejected credentials: "
  const Disconnected := "Server disconnected: "
  const Unexpected := "Unexpected response: "
  const NoPlain := "SASL PLAIN mechanism not supported"

  /** The reply to AUTHENTICATE: every status but `OK` is an authentication
      failure, told apart by its message. */
  function AuthReply(response: string): (r: Result<(), ConnectError>)
    ensures r.Ok? <==> Classify(response) == OkStatus
    ensures r == Err(AuthenticationFailed(Rejected + Trim(response))) <==> Classify(response) == NoStatus
    ensures r == Err(AuthenticationFailed(Disconnected + Trim(response))) <==> Classify(response) == ByeStatus
    ensures r == Err(AuthenticationFailed(Unexpected + Trim(response))) <==> Classify(response) == Untagged
  {
    var line := Trim(response);
    AuthMessagesDiffer(line, line);
    match Classify(response)
    case OkStatus => Ok(())
    case NoStatus => Err(AuthenticationFailed(Rejected + line))
    case ByeStatus => Err(AuthenticationFailed(Disconnected + line))
    case Untagged => Err(AuthenticationFailed(Unexpected + line))
  }

  /** The three failure messages differ in their first word, so no failure
      is taken for another. */
  lemma AuthMessagesDiffer(a: string, b: string)
    ensures Rejected + a != Disconnected + b
    ensures Rejected + a != Unexpected + b
    ensures Disconnected + a != Unexpected + b
  {
    assert (Rejected + a)[0] == 'S' && (Disconnected + b)[0] == 'S' && (Unexpected + b)[0] == 'U';
    assert (Rejected + a)[7] == 'r' && (Disconnected + b)[7] == 'd';
    assert (Disconnected + a)[0] == 'S';
  }

  /** `authenticate`: the command written, if any, and the outcome. Without
      PLAIN among the SASL mechanisms nothing is written and the response is
      not read. */
  function Authenticate(caps: Capabilities, user: string, password: string,
                        encode: seq<byte> -> string, response: string)
    : (r: (Option<string>, Result<(), ConnectError>))
    ensures r.0.Some? <==> "PLAIN" in caps.sasl
    ensures r.0.Some? ==> r.0.value == AuthenticateCommand(user, password, encode)
    ensures r.1.Ok? <==> "PLAIN" in caps.sasl && Classify(response) == OkStatus
    ensures "PLAIN" !in caps.sasl ==> r.1 == Err(AuthenticationFailed(NoPlain))
    ensures "PLAIN" in caps.sasl ==> r.1 == AuthReply(response)
  {
    if "PLAIN" !in caps.sasl then (None, Err(AuthenticationFailed(NoPlain)))
    else (Some(AuthenticateCommand(user, password, encode)), AuthReply(response))
  }

  /** What a connection attempt comes to. `Unfinished` is a server that never
      ends its greeting or its capability listing. */
  datatype Connecting = Connected(capabilities: Capabilities) | Refused(error: ConnectError) | Unfinished

  /** The line `read_line` gives: the next line, or nothing at the end of
      the input. */
  function NextLine(lines: seq<string>): string {
    if |lines| > 0 then lines[0] else ""
  }

  /** STARTTLS and what follows it before TLS is up: the response must be
      `OK`, the host name valid and the handshake successful. A failed
      handshake is an I/O error of the connector, so it surfaces as
      `ConnectionFailed`. */
  function StartTls(startTls: string, validHost: bool, handshake: bool): (r: Result<(), ConnectError>)
    ensures r.Ok? <==> Classify(startTls) == OkStatus && validHost && handshake
    ensures Classify(startTls) != OkStatus ==> r == Err(ProtocolError(StartTlsFailed + Trim(startTls)))
    ensures Classify(startTls) == OkStatus && !validHost ==> r == Err(ProtocolError("Invalid hostname"))
    ensures Classify(startTls) == OkStatus && validHost && !handshake ==> r == Err(ConnectionFailed)
  {
    match StartTlsReply(startTls)
    case Err(e) => Err(e)
    case Ok(_) =>
      if !validHost then Err(ProtocolError("Invalid hostname"))
      else if !handshake then Err(ConnectionFailed)
      else Ok(())
  }

  /** Over TLS: the capabilities are read, then the client authenticates.
      It gives the commands written and what the attempt comes to. */
  function Login(secured: seq<string>, user: string, password: string, encode: seq<byte> -> string)
    : (r: (seq<string>, Connecting))
    ensures r.1.Unfinished? <==> !ReadCapabilities(secured).Finished?
    ensures r.1.Connected? ==>
      ReadCapabilities(secured).Finished?
      && r.1.capabilities == ReadCapabilities(secured).value
      && "PLAIN" in r.1.capabilities.sasl
      && Classify(NextLine(ReadCapabilities(secured).rest)) == OkStatus
    ensures r.1.Connected? ==> r.0 == [AuthenticateCommand(user, password, encode)]
  {
    match ReadCapabilities(secured)
    case Stalled => ([], Unfinished)
    case Finished(caps, rest) =>
      var (command, outcome) := Authenticate(caps, user, password, encode, NextLine(rest));
      var written := if command.Some? then [command.value] else [];
      match outcome
      case Ok(_) => (written, Connected(caps))
      case Err(e) => (written, Refused(e))
  }

  /** `connect`, given what the server sends: the greeting before STARTTLS,
      the STARTTLS response, whether the host name is valid and the TLS
      handshake succeeds, and the lines the server sends over TLS. It gives
      the commands written and what the attempt comes to. */
  function Connect(greeting: seq<string>, startTls: string, validHost: bool, handshake: bool,
                   secured: seq<string>, user: string, password: string,
                   encode: seq<byte> -> string): (r: (seq<string>, Connecting))
    ensures r.1.Connected? ==>
      FirstOk(greeting).Some? && Classify(startTls) == OkStatus && validHost && handshake
    ensures r.1.Connected? ==> r == ([StartTlsCommand] + Login(secured, user, password, encode).0,
                                     Login(secured, user, password, encode).1)
    ensures r.1.Unfinished? <==>
      (FirstOk(greeting).None?
       || (StartTls(startTls, validHost, handshake).Ok? && !ReadCapabilities(secured).Finished?))
    ensures FirstOk(greeting).Some? && StartTls(startTls, validHost, handshake).Err? ==>
      r == ([StartTlsCommand], Refused(StartTls(startTls, validHost, handshake).error))
  {
    match IgnoreGreeting(greeting)
    case Stalled => ([], Unfinished)
    case Finished(_, _) =>
      match StartTls(startTls, validHost, handshake)
      case Err(e) => ([StartTlsCommand], Refused(e))
      case Ok(_) =>
        var (written, outcome) := Login(secured, user, password, encode);
        ([StartTlsCommand] + written, outcome)
  }

  /** A server that greets, accepts STARTTLS, lists capabilities with PLAIN
      among them and accepts the credentials: the session opens with exactly
      those capabilities. */
  lemma ConnectOpens(greeting: seq<(string, Option<string>)>, ok: string, plain: seq<string>,
                     startTls: string, es: seq<(string, Option<string>)>, ok2: string,
                     accepted: string, more: seq<string>,
                     user: string, password: string, encode: seq<byte> -> string)
    requires Classify(ok) == OkStatus && Classify(startTls) == OkStatus
    requires Writable(es) && Classify(ok2) == OkStatus && Classify(accepted) == OkStatus
    requires "PLAIN" in ApplyAll(Default, es).sasl
    ensures Connect(ListingLines(greeting) + [ok] + plain, startTls, true, true,
                    ListingLines(es) + [ok2] + ([accepted] + more), user, password, encode)
      == ([StartTlsCommand, AuthenticateCommand(user, password, encode)], Connected(ApplyAll(Default, es)))
  {
    var secured := ListingLines(es) + [ok2] + ([accepted] + more);
    GreetingSkipped(greeting, ok, plain);
    CapabilitiesRoundTrip(es, ok2, [accepted] + more);
    LoginOf(secured, ApplyAll(Default, es), [accepted] + more, user, password, encode);
    ConnectThrough(ListingLines(greeting) + [ok] + plain, startTls, true, true, secured, user, password, encode);
    PairOf(StartTlsCommand, AuthenticateCommand(user, password, encode));
  }

  /** Past the greeting and STARTTLS, the attempt is the login over TLS. */
  lemma ConnectThrough(greeting: seq<string>, startTls: string, validHost: bool, handshake: bool,
                       secured: seq<string>, user: string, password: string, encode: seq<byte> -> string)
    requires FirstOk(greeting).Some? && StartTls(startTls, validHost, handshake).Ok?
    ensures Connect(greeting, startTls, validHost, handshake, secured, user, password, encode)
      == ([StartTlsCommand] + Login(secured, user, password, encode).0, Login(secured, user, password, encode).1)
  {
  }

  /** The login once the capabilities are read. */
  lemma LoginOf(secured: seq<string>, caps: Capabilities, rest: seq<string>,
                user: string, password: string, encode: seq<byte> -> string)
    requires ReadCapabilities(secured) == Finished(caps, rest)
    ensures "PLAIN" !in caps.sasl ==>
      Login(secured, user, password, encode) == ([], Refused(AuthenticationFailed(NoPlain)))
    ensures "PLAIN" in caps.sasl && Classify(NextLine(rest)) == OkStatus ==>
      Login(secured, user, password, encode) == ([AuthenticateCommand(user, password, encode)], Connected(caps))
  {
  }

  /** Without PLAIN, the credentials are never written: only STARTTLS is
      sent, and the attempt fails. */
  lemma NoPlainNoCredentials(greeting: seq<string>, startTls: string, secured: seq<string>,
                             user: string, password: string, encode: seq<byte> -> string)
    requires FirstOk(greeting).Some? && Classify(startTls) == OkStatus
    requires ReadCapabilities(secured).Finished? && "PLAIN" !in ReadCapabilities(secured).value.sasl
    ensures Connect(greeting, startTls, true, true, secured, user, password, encode)
      == ([StartTlsCommand], Refused(AuthenticationFailed(NoPlain)))
  {
    var r := ReadCapabilities(secured);
    LoginOf(secured, r.value, r.rest, user, password, encode);
    SilentRefusal(greeting, startTls, secured, user, password, encode, AuthenticationFailed(NoPlain));
  }

  /** A login refused before anything is written leaves STARTTLS as the only
      command of the attempt. */
  lemma SilentRefusal(greeting: seq<string>, startTls: string, secured: seq<string>,
                      user: string, password: string, encode: seq<byte> -> string, e: ConnectError)
    requires FirstOk(greeting).Some? && Classify(startTls) == OkStatus
    requires Login(secured, user, password, encode) == ([], Refused(e))
    ensures Connect(greeting, startTls, true, true, secured, user, password, encode)
      == ([StartTlsCommand], Refused(e))
  {
    ConnectThrough(greeting, startTls, true, true, secured, user, password, encode);
    EmptyTail(StartTlsCommand);
  }

  /** A refused STARTTLS stops the attempt before TLS: nothing more is
      written, whatever follows. */
  lemma StartTlsRefused(greeting: seq<string>, startTls: string, validHost: bool, handshake: bool,
                        secured: seq<string>, user: string, password: string, encode: seq<byte> -> string)
    requires FirstOk(greeting).Some? && Classify(startTls) != OkStatus
    ensures Connect(greeting, startTls, validHost, handshake, secured, user, password, encode)
      == ([StartTlsCommand], Refused(ProtocolError(StartTlsFailed + Trim(startTls))))
  {
  }
}

=== FILE: sieve_grammar.dfy ===
/**
 * The Sieve script parser (sieve_client/src/parser.rs): a recursive-descent
 * parser over nom combinators for a subset of RFC 5228 (require, if / elsif /
 * else, header and address tests, allof / anyof, fileinto, discard, keep,
 * stop) plus the addflag / removeflag / setflag actions of RFC 5232.
 */
module SieveGrammar {
  import opened Text
  import opened Combinators
  import opened SieveStrings

  // ------------------------------------------------------------------ trees

  datatype Comparison = Is | Contains | Matches | Regex

  datatype StringCondition = StringCondition(comparison: Comparison, source: string, value: string)

  datatype Condition =
    | Header(test: StringCondition)
    | Address(test: StringCondition)
    | AllOf(all: seq<Condition>)
    | AnyOf(any: seq<Condition>)

  /** A condition with the block it guards: the `if` part or one `elsif`. */
  datatype Branch = Branch(condition: Condition, body: seq<Expression>)

  datatype IfBlock = IfBlock(condition: Condition, body: seq<Expression>, elsifs: seq<Branch>, elseBlock: seq<Expression>)

  datatype Flag = Seen | Flagged | Answered | Deleted | Draft | Recent | Custom(name: string)

  datatype Expression =
    | Require(extensions: seq<string>)
    | If(block: IfBlock)
    | FileInto(folder: string)
    | AddFlag(added: seq<Flag>)
    | RemoveFlag(removed: seq<Flag>)
    | SetFlag(flags: seq<Flag>)
    | Discard
    | Keep
    | Stop

  // ----------------------------------------------------------------- flags

  /** The system flags of section 2.3.2 of RFC 3501 that get their own variant. */
  predicate IsSystemFlagName(name: string) {
    name == "\\Seen" || name == "\\Flagged" || name == "\\Answered"
    || name == "\\Deleted" || name == "\\Draft" || name == "\\Recent"
  }

  /** The name a flag is written with. */
  function FlagName(f: Flag): string {
    match f
    case Seen => "\\Seen"
    case Flagged => "\\Flagged"
    case Answered => "\\Answered"
    case Deleted => "\\Deleted"
    case Draft => "\\Draft"
    case Recent => "\\Recent"
    case Custom(name) => name
  }

  /** The flag a name denotes: the six system names, compared exactly and
      case-sensitively, and everything else kept as written. */
  function FlagOf(name: string): (f: Flag)
    ensures FlagName(f) == name
    ensures f.Custom? <==> !IsSystemFlagName(name)
  {
    if name == "\\Seen" then Seen
    else if name == "\\Flagged" then Flagged
    else if name == "\\Answered" then Answered
    else if name == "\\Deleted" then Deleted
    else if name == "\\Draft" then Draft
    else if name == "\\Recent" then Recent
    else Custom(name)
  }

  /** A flag the parser can produce: a custom flag never carries a system name. */
  predicate WellFormedFlag(f: Flag) {
    f.Custom? ==> !IsSystemFlagName(f.name)
  }

  /** Reading back the name of a flag gives the same flag. */
  lemma FlagOfName(f: Flag)
    requires WellFormedFlag(f)
    ensures FlagOf(FlagName(f)) == f
  {
  }

  /** Maps every name of a list to its flag, in order. */
  function FlagsOf(names: seq<string>): (fs: seq<Flag>)
    ensures |fs| == |names|
    ensures forall i :: 0 <= i < |names| ==> fs[i] == FlagOf(names[i])
  {
    seq(|names|, i requires 0 <= i < |names| => FlagOf(names[i]))
  }

  // ------------------------------------------------------ well-formed trees

  predicate WellFormedCondition(c: Condition) {
    match c
    case Header(_) => true
    case Address(_) => true
    case AllOf(cs) => |cs| > 0 && forall x | x in cs :: WellFormedCondition(x)
    case AnyOf(cs) => |cs| > 0 && forall x | x in cs :: WellFormedCondition(x)
  }

  predicate WellFormedConditions(cs: seq<Condition>) {
    forall i :: 0 <= i < |cs| ==> WellFormedCondition(cs[i])
  }

  predicate WellFormedFlags(fs: seq<Flag>) {
    forall i :: 0 <= i < |fs| ==> WellFormedFlag(fs[i])
  }

  lemma ConsConditions(c: Condition, cs: seq<Condition>)
    requires WellFormedCondition(c) && WellFormedConditions(cs)
    ensures WellFormedConditions([c] + cs)
  {
  }

  lemma ConsExpressions(e: Expression, es: seq<Expression>)
    requires WellFormedExpression(e) && WellFormedExpressions(es)
    ensures WellFormedExpressions([e] + es)
  {
  }

  lemma ConsBranches(b: Branch, bs: seq<Branch>)
    requires WellFormedCondition(b.condition) && WellFormedExpressions(b.body)
    requires WellFormedBranches(bs)
    ensures WellFormedBranches([b] + bs)
  {
  }

  // ------------------------------------------------------------ the parsers

  /** `tag(t).map(|_| v)`. */
  function Keyword<T>(t: string, v: T, s: string): (r: Parsed<T>)
    ensures r.Done? <==> StartsWith(s, t)
    ensures r.Done? ==> r.value == v && r.rest == s[|t|..]
    ensures !r.Incomplete?
  {
    var k :- Tag(t, s);
    Done(v, k.1)
  }

  /** `parse_require`: `require` and one space, optional whitespace, a string
      array and `;` right after the `]`. */
  function ParseRequire(s: string): (r: Parsed<seq<string>>)
    ensures r.Done? ==> |r.rest| < |s|
    ensures r.Done? ==> StartsWith(s, "require ")
    ensures !StartsWith(s, "require ") ==> r.Error?
  {
    var k :- Tag("require ", s);
    var names :- ParseStringArray(Multispace0(k.1).rest);
    var semi :- Char(';', names.1);
    Done(names.0, semi.1)
  }

  /** `parse_string_comparison_type`. */
  function ParseComparison(s: string): (r: Parsed<Comparison>)
    ensures !r.Incomplete?
    ensures r.Done? ==> |r.rest| < |s|
  {
    Alt(Keyword(":is", Is, s),
    Alt(Keyword(":contains", Contains, s),
    Alt(Keyword(":matches", Matches, s),
        Keyword(":regex", Regex, s))))
  }

  /** `parse_string_condition`: a comparison, then the source and the value
      literals, each after at least one whitespace character. */
  function ParseStringCondition(s: string): (r: Parsed<StringCondition>)
    ensures r.Done? ==> |r.rest| < |s|
    ensures r.Done? ==> ParseComparison(s).Done? && r.value.comparison == ParseComparison(s).value
    ensures ParseComparison(s).Error? ==> r.Error?
  {
    var cmp :- ParseComparison(s);
    var gap1 :- Multispace1(cmp.1);
    var source :- ParseString(gap1.1);
    var gap2 :- Multispace1(source.1);
    var value :- ParseString(gap2.1);
    Done(StringCondition(cmp.0, source.0, value.0), value.1)
  }

  /** `parse_condition`: `header` or `address` with at least one whitespace
      character before the comparison, or `allof` / `anyof` with optional
      whitespace before the parenthesised list. */
  function ParseCondition(s: string): (r: Parsed<Condition>)
    ensures r.Done? ==> |r.rest| < |s| && WellFormedCondition(r.value)
    decreases |s|, 2
  {
    Alt(HeaderTest(s),
    Alt(AddressTest(s),
    Alt(ListTest("allof", s),
        ListTest("anyof", s))))
  }

  function HeaderTest(s: string): (r: Parsed<Condition>)
    ensures r.Done? ==> |r.rest| < |s| && r.value.Header?
  {
    var k :- Tag("header", s);
    var gap :- Multispace1(k.1);
    var test :- ParseStringCondition(gap.1);
    Done(Header(test.0), test.1)
  }

  function AddressTest(s: string): (r: Parsed<Condition>)
    ensures r.Done? ==> |r.rest| < |s| && r.value.Address?
  {
    var k :- Tag("address", s);
    var gap :- Multispace1(k.1);
    var test :- ParseStringCondition(gap.1);
    Done(Address(test.0), test.1)
  }

  /** `allof` or `anyof` (`kw` is one of the two) and its condition list. */
  function ListTest(kw: string, s: string): (r: Parsed<Condition>)
    ensures r.Done? ==> |r.rest| < |s| && WellFormedCondition(r.value)
    ensures r.Done? ==> if kw == "allof" then r.value.AllOf? else r.value.AnyOf?
    decreases |s|, 1
  {
    var k :- Tag(kw, s);
    var list :- ParseConditionList(Multispace0(k.1).rest);
    Done(if kw == "allof" then AllOf(list.0) else AnyOf(list.0), list.1)
  }

  /** `parse_condition_list`: `(`, whitespace, one or more conditions separated
      by whitespace-tolerant commas, whitespace, `)`. */
  function ParseConditionList(s: string): (r: Parsed<seq<Condition>>)
    ensures r.Done? ==> |r.rest| < |s| && |r.value| > 0 && WellFormedConditions(r.value)
    decreases |s|, 0
  {
    var open :- Char('(', s);
    var items :- ConditionList1(Multispace0(open.1).rest);
    var close :- Char(')', Multispace0(items.1).rest);
    Done(items.0, close.1)
  }

  /** `separated_list1(separator, parse_condition)`. */
  function ConditionList1(s: string): (r: Parsed<seq<Condition>>)
    ensures r.Done? ==> |r.rest| < |s| && |r.value| > 0 && WellFormedConditions(r.value)
    decreases |s|, 3
  {
    var first :- ParseCondition(s);
    var more :- ConditionTail(first.1);
    ConsConditions(first.0, more.0);
    Done([first.0] + more.0, more.1)
  }

  /** The (separator, condition) repetition of `separated_list1`; on a failed
      element the input before the separator is kept. */
  function ConditionTail(s: string): (r: Parsed<seq<Condition>>)
    ensures r.Done? ==> |r.rest| <= |s| && WellFormedConditions(r.value)
    decreases |s|, 0
  {
    match Separator(s)
    case Error => Done([], s)
    case Incomplete => Incomplete
    case Done(_, t) =>
      if |t| >= |s| then Error
      else
        match ParseCondition(t)
        case Error => Done([], s)
        case Incomplete => Incomplete
        case Done(c, u) =>
          var more :- ConditionTail(u);
          ConsConditions(c, more.0);
          Done([c] + more.0, more.1)
  }

  // ------------------------------------------------------- flags and actions

  /** `parse_flags`: one string literal, taken as a one-element list, or a
      string array; each name becomes its flag. */
  function ParseFlags(s: string): (r: Parsed<seq<Flag>>)
    ensures r.Done? ==> |r.rest| < |s| && WellFormedFlags(r.value)
  {
    var names :- Alt(SingleString(s), ParseStringArray(s));
    Done(FlagsOf(names.0), names.1)
  }

  /** `parse_string.map(|s| vec![s])`. */
  function SingleString(s: string): (r: Parsed<seq<string>>)
    ensures r.Done? ==> |r.rest| < |s| && |r.value| == 1
  {
    var x :- ParseString(s);
    Done([x.0], x.1)
  }

  /** `flag_command(kw)`: the keyword, at least one whitespace character, the
      flags, optional whitespace, `;`. */
  function FlagCommand(kw: string, s: string): (r: Parsed<seq<Flag>>)
    ensures r.Done? ==> |r.rest| < |s| && WellFormedFlags(r.value)
    ensures r.Done? ==> StartsWith(s, kw)
    ensures !StartsWith(s, kw) ==> r.Error?
  {
    var k :- Tag(kw, s);
    var gap :- Multispace1(k.1);
    var flags :- ParseFlags(gap.1);
    var semi :- Char(';', Multispace0(flags.1).rest);
    Done(flags.0, semi.1)
  }

  /** `fileinto`, at least one whitespace character, a string literal and `;`. */
  function ParseFileInto(s: string): (r: Parsed<string>)
    ensures r.Done? ==> |r.rest| < |s|
    ensures r.Done? ==> StartsWith(s, "fileinto")
    ensures !StartsWith(s, "fileinto") ==> r.Error?
  {
    var k :- Tag("fileinto", s);
    var gap :- Multispace1(k.1);
    var folder :- ParseString(gap.1);
    var semi :- Char(';', folder.1);
    Done(folder.0, semi.1)
  }

  // ---------------------------------------------------- blocks and commands

  /** Whether an expression tree is one the parser can produce. */
  predicate WellFormedExpression(e: Expression)
    decreases e, 1
  {
    match e
    case If(b) => WellFormedIf(b)
    case AddFlag(fs) => WellFormedFlags(fs)
    case RemoveFlag(fs) => WellFormedFlags(fs)
    case SetFlag(fs) => WellFormedFlags(fs)
    case _ => true
  }

  predicate WellFormedIf(b: IfBlock)
    decreases b, 0
  {
    WellFormedCondition(b.condition)
    && (forall x | x in b.body :: WellFormedExpression(x))
    && (forall br | br in b.elsifs :: WellFormedCondition(br.condition)
          && forall x | x in br.body :: WellFormedExpression(x))
    && (forall x | x in b.elseBlock :: WellFormedExpression(x))
  }

  predicate WellFormedExpressions(es: seq<Expression>) {
    forall i :: 0 <= i < |es| ==> WellFormedExpression(es[i])
  }

  predicate WellFormedBranches(bs: seq<Branch>) {
    forall i :: 0 <= i < |bs| ==> WellFormedCondition(bs[i].condition) && WellFormedExpressions(bs[i].body)
  }

  /** `parse_expression_list`: `many0(parse_expression)`. It stops at the first
      input no expression matches and returns that input unconsumed; it never
      fails outright, but passes on a request for more input. */
  function ParseExpressionList(s: string): (r: Parsed<seq<Expression>>)
    ensures !r.Error?
    ensures r.Done? ==> |r.rest| <= |s| && WellFormedExpressions(r.value)
    decreases |s|, 4
  {
    match ParseExpression(s)
    case Error => Done([], s)
    case Incomplete => Incomplete
    case Done(e, t) =>
      if |t| >= |s| then Error
      else
        var more :- ParseExpressionList(t);
        ConsExpressions(e, more.0);
        Done([e] + more.0, more.1)
  }

  /** `parse_expression`: optional whitespace, then the first command that
      matches, tried in a fixed order. */
  function ParseExpression(s: string): (r: Parsed<Expression>)
    ensures r.Done? ==> |r.rest| < |s| && WellFormedExpression(r.value)
    decreases |s|, 3
  {
    var t := Multispace0(s).rest;
    Alt(Map(ParseRequire(t), (names: seq<string>) => Require(names)),
    Alt(Map(ParseIf(t), (b: IfBlock) => If(b)),
    Alt(Map(FlagCommand("addflag", t), (fs: seq<Flag>) => AddFlag(fs)),
    Alt(Map(FlagCommand("removeflag", t), (fs: seq<Flag>) => RemoveFlag(fs)),
    Alt(Map(FlagCommand("setflag", t), (fs: seq<Flag>) => SetFlag(fs)),
    Alt(Keyword("discard;", Discard, t),
    Alt(Keyword("keep;", Keep, t),
    Alt(Keyword("stop;", Stop, t),
        Map(ParseFileInto(t), (folder: string) => FileInto(folder))))))))))
  }

  /** The block of an `if`, `elsif` or `else`: `{`, expressions, optional
      whitespace, `}`. */
  function ParseBlock(s: string): (r: Parsed<seq<Expression>>)
    ensures r.Done? ==> |r.rest| < |s| && WellFormedExpressions(r.value)
    decreases |s|, 0
  {
    var open :- Char('{', s);
    var body :- ParseExpressionList(open.1);
    var close :- Char('}', Multispace0(body.1).rest);
    Done(body.0, close.1)
  }

  /** `simple_if(kw)`: the keyword, at least one whitespace character, a
      condition, at least one whitespace character, a block. */
  function SimpleIf(kw: string, s: string): (r: Parsed<Branch>)
    ensures r.Done? ==> |r.rest| < |s|
    ensures r.Done? ==> WellFormedCondition(r.value.condition) && WellFormedExpressions(r.value.body)
    ensures r.Done? ==> StartsWith(s, kw)
    ensures !StartsWith(s, kw) ==> r.Error?
    decreases |s|, 1
  {
    var k :- Tag(kw, s);
    var gap1 :- Multispace1(k.1);
    var cond :- ParseCondition(gap1.1);
    var gap2 :- Multispace1(cond.1);
    var body :- ParseBlock(gap2.1);
    Done(Branch(cond.0, body.0), body.1)
  }

  /** `parse_if`: an `if` branch, any number of `elsif` branches, and an
      optional `else` block, empty when absent. */
  function ParseIf(s: string): (r: Parsed<IfBlock>)
    ensures r.Done? ==> |r.rest| < |s|
    ensures r.Done? ==> WellFormedExpression(If(r.value))
    ensures r.Done? ==> StartsWith(s, "if")
    ensures !StartsWith(s, "if") ==> r.Error?
    decreases |s|, 2
  {
    var first :- SimpleIf("if", s);
    var elsifs :- ParseElsifs(first.1);
    var otherwise :- ParseElse(elsifs.1);
    Done(IfBlock(first.0.condition, first.0.body, elsifs.0, otherwise.0), otherwise.1)
  }

  /** `many0(preceded(multispace0, simple_if("elsif")))`. */
  function ParseElsifs(s: string): (r: Parsed<seq<Branch>>)
    ensures !r.Error?
    ensures r.Done? ==> |r.rest| <= |s| && WellFormedBranches(r.value)
    decreases |s|, 2
  {
    match SimpleIf("elsif", Multispace0(s).rest)
    case Error => Done([], s)
    case Incomplete => Incomplete
    case Done(b, t) =>
      if |t| >= |s| then Error
      else
        var more :- ParseElsifs(t);
        ConsBranches(b, more.0);
        Done([b] + more.0, more.1)
  }

  /** The optional `else` block, defaulting to no expressions. */
  function ParseElse(s: string): (r: Parsed<seq<Expression>>)
    ensures !r.Error?
    ensures ElseBlock(s).Error? ==> r == Done([], s)
    ensures !ElseBlock(s).Error? ==> r == ElseBlock(s)
    ensures r.Done? ==> |r.rest| <= |s| && WellFormedExpressions(r.value)
    decreases |s|, 2
  {
    match ElseBlock(s)
    case Error => Done([], s)
    case Incomplete => Incomplete
    case Done(body, t) => Done(body, t)
  }

  /** `preceded(delimited(multispace0, tag("else"), multispace0), block)`. */
  function ElseBlock(s: string): (r: Parsed<seq<Expression>>)
    ensures r.Done? ==> |r.rest| < |s| && WellFormedExpressions(r.value)
    decreases |s|, 1
  {
    var k :- Tag("else", Multispace0(s).rest);
    ParseBlock(Multispace0(k.1).rest)
  }
}

=== FILE: sieve_printer.dfy ===
/**
 * A reference printer for Sieve trees and the proof that the parser reads
 * its output back. Every printer takes the text `c` that follows, so the
 * round trips also say what the parser leaves unconsumed.
 */
module SievePrinter {
  import opened Text
  import opened Combinators
  import opened SieveStrings
  import opened SieveGrammar

  // ---------------------------------------------------------------- printers

  function ComparisonTag(k: Comparison): string {
    match k
    case Is => ":is"
    case Contains => ":contains"
    case Matches => ":matches"
    case Regex => ":regex"
  }

  function StringConditionThen(t: StringCondition, c: string): string {
    ComparisonTag(t.comparison) + (" " + (Quote(t.source) + (" " + (Quote(t.value) + c))))
  }

  /** `header` and `address` are followed by one space; `allof` and `anyof`
      by none, which the grammar allows. */
  function ConditionThen(cond: Condition, c: string): string
    decreases cond, 1
  {
    match cond
    case Header(t) => "header" + (" " + StringConditionThen(t, c))
    case Address(t) => "address" + (" " + StringConditionThen(t, c))
    case AllOf(cs) => "allof" + ("(" + ConditionsThen(cs, ")" + c))
    case AnyOf(cs) => "anyof" + ("(" + ConditionsThen(cs, ")" + c))
  }

  /** Conditions separated by `, `. */
  function ConditionsThen(cs: seq<Condition>, c: string): string
    decreases cs, 0
  {
    if |cs| == 0 then c else ConditionThen(cs[0], ConditionTailThen(cs[1..], c))
  }

  function ConditionTailThen(cs: seq<Condition>, c: string): string
    decreases cs, 0
  {
    if |cs| == 0 then c else "," + (" " + ConditionThen(cs[0], ConditionTailThen(cs[1..], c)))
  }

  function FlagNames(fs: seq<Flag>): (names: seq<string>)
    ensures |names| == |fs|
    ensures forall i :: 0 <= i < |fs| ==> names[i] == FlagName(fs[i])
  {
    seq(|fs|, i requires 0 <= i < |fs| => FlagName(fs[i]))
  }

  /** Flags are always printed as an array, even a single one. */
  function FlagCommandThen(kw: string, fs: seq<Flag>, c: string): string {
    kw + (" " + (ArrayText(FlagNames(fs), "") + (";" + c)))
  }

  function ExpressionThen(e: Expression, c: string): string
    decreases e, 2
  {
    match e
    case Require(names) => "require " + (ArrayText(names, "") + (";" + c))
    case If(b) => IfThen(b, c)
    case FileInto(folder) => "fileinto" + (" " + (Quote(folder) + (";" + c)))
    case AddFlag(fs) => FlagCommandThen("addflag", fs, c)
    case RemoveFlag(fs) => FlagCommandThen("removeflag", fs, c)
    case SetFlag(fs) => FlagCommandThen("setflag", fs, c)
    case Discard => "discard;" + c
    case Keep => "keep;" + c
    case Stop => "stop;" + c
  }

  /** Expressions, each after one space. */
  function ExpressionsThen(es: seq<Expression>, c: string): string
    decreases es, 0
  {
    if |es| == 0 then c else " " + ExpressionThen(es[0], ExpressionsThen(es[1..], c))
  }

  function BlockThen(body: seq<Expression>, c: string): string
    decreases body, 1
  {
    "{" + ExpressionsThen(body, " " + ("}" + c))
  }

  function BranchThen(kw: string, cond: Condition, body: seq<Expression>, c: string): string
    decreases body, 2
  {
    kw + (" " + ConditionThen(cond, " " + BlockThen(body, c)))
  }

  function ElsifsThen(bs: seq<Branch>, c: string): string
    decreases bs, 1
  {
    if |bs| == 0 then c else " " + BranchThen("elsif", bs[0].condition, bs[0].body, ElsifsThen(bs[1..], c))
  }

  /** An empty `else` block is not printed: it parses the same as none. */
  function ElseThen(body: seq<Expression>, c: string): string
    decreases body, 2
  {
    if |body| == 0 then c else " " + ("else" + (" " + BlockThen(body, c)))
  }

  function IfThen(b: IfBlock, c: string): string
    decreases b, 0
  {
    BranchThen("if", b.condition, b.body, ElsifsThen(b.elsifs, ElseThen(b.elseBlock, c)))
  }

  /** A whole script: its expressions, with nothing after them. */
  function ScriptText(es: seq<Expression>): string {
    ExpressionsThen(es, "")
  }


  // ------------------------------------------------- how printed text begins

  /** The first letters of the nine commands: none is whitespace, `e`
      (the start of `else` / `elsif`) or a closing brace. */
  predicate CommandInitial(ch: char) {
    ch == 'r' || ch == 'i' || ch == 'f' || ch == 'a' || ch == 's' || ch == 'd' || ch == 'k'
  }

  lemma QuoteStart(s: string, c: string)
    ensures |Quote(s) + c| > 0 && (Quote(s) + c)[0] == '"'
  {
  }

  lemma ArrayStart(xs: seq<string>, c: string)
    ensures |ArrayText(xs, "") + c| > 0 && (ArrayText(xs, "") + c)[0] == '['
  {
  }

  lemma StringConditionStart(t: StringCondition, c: string)
    ensures var x := StringConditionThen(t, c); |x| > 0 && x[0] == ':'
  {
  }

  lemma ConditionStart(cond: Condition, c: string)
    ensures var x := ConditionThen(cond, c); |x| > 0 && (x[0] == 'h' || x[0] == 'a')
  {
  }

  lemma ConditionsStart(cs: seq<Condition>, c: string)
    requires |cs| > 0
    ensures var x := ConditionsThen(cs, c); |x| > 0 && (x[0] == 'h' || x[0] == 'a')
  {
    ConditionStart(cs[0], ConditionTailThen(cs[1..], c));
  }

  lemma ExpressionStart(e: Expression, c: string)
    ensures var x := ExpressionThen(e, c); |x| > 0 && CommandInitial(x[0])
  {
    match e
    case If(b) =>
      var d := ElsifsThen(b.elsifs, ElseThen(b.elseBlock, c));
      assert IfThen(b, c) == BranchThen("if", b.condition, b.body, d);
      assert BranchThen("if", b.condition, b.body, d)[0] == 'i';
    case _ =>
  }
}

=== FILE: sieve_properties.dfy ===
/**
 * What the Sieve parser rejects, and what it makes of whole scripts: the
 * spacing rules of `require`, string conditions and `header` / `address`,
 * the ban on empty condition lists, the single-string form of a flag list,
 * and where `parse_expression_list` stops.
 */
module SieveProperties {
  import opened Text
  import opened Combinators
  import opened SieveStrings
  import opened SieveGrammar
  import opened SievePrinter
  import opened SieveRoundTrip

  // --------------------------------------------------------------- require

  /** `require` must be followed by exactly a space before anything else. */
  lemma RequireNeedsSpace(x: string)
    requires |x| > 0 && x[0] != ' '
    ensures ParseRequire("require" + x) == Error
  {
    TagMismatch("require ", "require" + x, 7);
  }

  lemma RequireSemicolonStep(s: string, a: string, names: seq<string>, r: string)
    requires Tag("require ", s) == Done("require ", a) && Multispace0(a).rest == a
    requires ParseStringArray(a) == Done(names, r) && Char(';', r) == Error
    ensures ParseRequire(s) == Error
  {
  }

  /** No whitespace may stand between the array of a `require` and its `;`. */
  lemma SemicolonRightAfterArray(names: seq<string>, w: string, c: string)
    requires |w| > 0 && AllSpace(w)
    ensures ParseRequire("require " + (ArrayText(names, "") + (w + (";" + c)))) == Error
  {
    var a := ArrayText(names, "") + (w + (";" + c));
    TagPrefix("require ", a);
    ArrayStart(names, w + (";" + c));
    Unpadded(a);
    ParseStringArrayRoundTrip(names, "", w + (";" + c));
    assert (w + (";" + c))[0] == w[0];
    RequireSemicolonStep("require " + a, a, names, w + (";" + c));
  }

  // ------------------------------------------------------ string conditions

  lemma SourceGapStep(s: string, k: Comparison, x: string)
    requires ParseComparison(s) == Done(k, x) && Multispace1(x) == Error
    ensures ParseStringCondition(s) == Error
  {
  }

  /** A string condition needs whitespace between the comparison and the
      source literal. */
  lemma SourceNeedsSpace(k: Comparison, source: string, c: string)
    ensures ParseStringCondition(ComparisonTag(k) + (Quote(source) + c)) == Error
  {
    ComparisonRoundTrip(k, Quote(source) + c);
    QuoteStart(source, c);
    Bare(Quote(source) + c);
    SourceGapStep(ComparisonTag(k) + (Quote(source) + c), k, Quote(source) + c);
  }

  lemma ValueGapStep(s: string, k: Comparison, x: string, y: string, source: string, z: string)
    requires ParseComparison(s) == Done(k, x) && Multispace1(x) == Done(" ", y)
    requires ParseString(y) == Done(source, z) && Multispace1(z) == Error
    ensures ParseStringCondition(s) == Error
  {
  }

  /** ... and between the source literal and the value literal. */
  lemma ValueNeedsSpace(k: Comparison, source: string, value: string, c: string)
    ensures ParseStringCondition(ComparisonTag(k) + (" " + (Quote(source) + (Quote(value) + c)))) == Error
  {
    var z := Quote(value) + c;
    var y := Quote(source) + z;
    ComparisonRoundTrip(k, " " + y);
    QuoteStart(source, z);
    SpaceBefore(y);
    ParseStringRoundTrip(source, z);
    QuoteStart(value, c);
    Bare(z);
    ValueGapStep(ComparisonTag(k) + (" " + y), k, " " + y, y, source, z);
  }

  // ------------------------------------------------------------- conditions

  lemma ListTestFails(kw: string, s: string)
    requires Tag(kw, s) == Error
    ensures ListTest(kw, s) == Error
  {
  }

  lemma ConditionFails(s: string)
    requires HeaderTest(s) == Error && AddressTest(s) == Error
    requires ListTest("allof", s) == Error && ListTest("anyof", s) == Error
    ensures ParseCondition(s) == Error
  {
  }

  lemma HeaderGapStep(s: string, a: string)
    requires Tag("header", s) == Done("header", a) && Multispace1(a) == Error
    ensures HeaderTest(s) == Error
  {
  }

  /** `header` needs whitespace before its comparison. */
  lemma HeaderNeedsSpace(t: StringCondition, c: string)
    ensures ParseCondition("header" + StringConditionThen(t, c)) == Error
  {
    var x := StringConditionThen(t, c);
    var s := "header" + x;
    TagPrefix("header", x);
    StringConditionStart(t, c);
    Bare(x);
    HeaderGapStep(s, x);
    TagMismatch("address", s, 0);
    TagMismatch("allof", s, 0);
    TagMismatch("anyof", s, 0);
    ListTestFails("allof", s);
    ListTestFails("anyof", s);
    ConditionFails(s);
  }

  lemma AddressGapStep(s: string, a: string)
    requires Tag("address", s) == Done("address", a) && Multispace1(a) == Error
    ensures AddressTest(s) == Error
  {
  }

  /** `address` needs whitespace before its comparison too. */
  lemma AddressNeedsSpace(t: StringCondition, c: string)
    ensures ParseCondition("address" + StringConditionThen(t, c)) == Error
  {
    var x := StringConditionThen(t, c);
    var s := "address" + x;
    TagPrefix("address", x);
    StringConditionStart(t, c);
    Bare(x);
    AddressGapStep(s, x);
    TagMismatch("header", s, 0);
    TagMismatch("allof", s, 1);
    TagMismatch("anyof", s, 1);
    ListTestFails("allof", s);
    ListTestFails("anyof", s);
    ConditionFails(s);
  }

  lemma EmptyListStep(s: string, x: string, t: string)
    requires Char('(', s) == Done('(', x) && Multispace0(x).rest == t
    requires ParseCondition(t) == Error
    ensures ParseConditionList(s) == Error
  {
  }

  /** `allof` and `anyof` lists are never empty: `(` followed, after any
      whitespace, by `)` is rejected. */
  lemma EmptyConditionList(w: string, c: string)
    requires AllSpace(w)
    ensures ParseConditionList("(" + (w + (")" + c))) == Error
  {
    var t := ")" + c;
    CharThen('(', w + t);
    Multispace0Of(w, t);
    TagMismatch("header", t, 0);
    TagMismatch("address", t, 0);
    TagMismatch("allof", t, 0);
    TagMismatch("anyof", t, 0);
    ListTestFails("allof", t);
    ListTestFails("anyof", t);
    ConditionFails(t);
    EmptyListStep("(" + (w + t), w + t, t);
  }

  // ------------------------------------------------------------------ flags

  lemma SingleFlagStep(s: string, name: string, c: string)
    requires ParseString(s) == Done(name, c)
    ensures ParseFlags(s) == Done(FlagsOf([name]), c)
  {
  }

  /** A single string literal where a flag list is expected is a one-element
      list. */
  lemma SingleFlagString(name: string, c: string)
    ensures ParseFlags(Quote(name) + c) == Done([FlagOf(name)], c)
  {
    ParseStringRoundTrip(name, c);
    SingleFlagStep(Quote(name) + c, name, c);
    assert FlagsOf([name]) == [FlagOf(name)];
  }

  // ------------------------------------------------------- expression lists

  /** `parse_expression_list` stops exactly where no expression can be read:
      whatever it leaves is rejected by `parse_expression`. */
  lemma {:induction false} ListStops(s: string)
    requires ParseExpressionList(s).Done?
    ensures ParseExpression(ParseExpressionList(s).rest) == Error
    decreases |s|
  {
    match ParseExpression(s)
    case Error =>
    case Incomplete =>
    case Done(e, t) =>
      ListStops(t);
  }

  /** A script is accepted, as `es`, when the expression list takes all of it. */
  predicate Accepts(script: string, es: seq<Expression>) {
    ParseExpressionList(script) == Done(es, "")
  }

  /** Every well-formed list of expressions, printed as a script, is accepted
      as exactly that list. */
  lemma ScriptAccepted(es: seq<Expression>)
    requires WellFormedExpressions(es)
    ensures Accepts(ScriptText(es), es)
  {
    ScriptRoundTrip(es, "");
  }

  /** A script followed by text no expression starts with is not accepted:
      that text is left over. */
  lemma TrailingTextRejected(es: seq<Expression>, t: string)
    requires WellFormedExpressions(es)
    requires |t| > 0 && !IsSpace(t[0]) && !CommandInitial(t[0]) && t[0] != 'e'
    ensures ParseExpressionList(ExpressionsThen(es, t)) == Done(es, t)
    ensures !Accepts(ExpressionsThen(es, t), es)
  {
    Unpadded(t);
    NoCommandText(t);
    NoCommandStep(t, t);
    ExpressionsRoundTrip(es, t);
  }
}

=== FILE: sieve_roundtrip.dfy ===
/**
 * The parser reads back what the reference printer writes. Every parser step
 * is proved once from the outcomes of the parsers it calls (the `...Step`
 * lemmas, which mention nothing else); the round trips then supply those
 * outcomes, following the shape of the tree.
 */
module SieveRoundTrip {
  import opened Text
  import opened Combinators
  import opened SieveStrings
  import opened SieveGrammar
  import opened SievePrinter

  // ---------------------------------------------------------- single tokens

  /** Without leading whitespace `multispace0` consumes nothing and
      `multispace1` fails. */
  lemma Bare(s: string)
    requires |s| > 0 && !IsSpace(s[0])
    ensures Multispace0(s) == Done("", s)
    ensures Multispace1(s) == Error
  {
  }

  /** Text that starts with a non-space character has no padding to skip. */
  lemma Unpadded(s: string)
    requires |s| > 0 && !IsSpace(s[0])
    ensures Multispace0(s).rest == s
  {
  }

  /** One space before a non-space character satisfies both whitespace
      parsers. */
  lemma SpaceBefore(x: string)
    requires |x| > 0 && !IsSpace(x[0])
    ensures Multispace0(" " + x) == Done(" ", x)
    ensures Multispace1(" " + x) == Done(" ", x)
  {
    assert (" " + x)[1..] == x;
    Bare(x);
  }

  lemma CharThen(ch: char, c: string)
    ensures Char(ch, [ch] + c) == Done(ch, c)
  {
    assert ([ch] + c)[1..] == c;
  }

  /** The printed forms of the pieces begin with a character that is not
      whitespace. */
  lemma Starts(x: string, ch: char)
    requires |x| > 0 && x[0] == ch && !IsSpace(ch)
    ensures Multispace0(x) == Done("", x) && Multispace1(x) == Error
  {
    Bare(x);
  }

  lemma HeadTail<T>(xs: seq<T>)
    requires |xs| > 0
    ensures [xs[0]] + xs[1..] == xs
  {
  }

  // ------------------------------------------------------ string conditions

  lemma ComparisonRoundTrip(k: Comparison, y: string)
    ensures ParseComparison(ComparisonTag(k) + y) == Done(k, y)
  {
    var s := ComparisonTag(k) + y;
    TagPrefix(ComparisonTag(k), y);
    match k
    case Is =>
    case Contains =>
      TagMismatch(":is", s, 1);
    case Matches =>
      TagMismatch(":is", s, 1);
      TagMismatch(":contains", s, 1);
    case Regex =>
      TagMismatch(":is", s, 1);
      TagMismatch(":contains", s, 1);
      TagMismatch(":matches", s, 1);
  }

  lemma StringConditionStep(s: string, k: Comparison, a: string, x: string, source: string,
                            b: string, y: string, value: string, c: string)
    requires ParseComparison(s) == Done(k, a)
    requires Multispace1(a) == Done(" ", x) && ParseString(x) == Done(source, b)
    requires Multispace1(b) == Done(" ", y) && ParseString(y) == Done(value, c)
    ensures ParseStringCondition(s) == Done(StringCondition(k, source, value), c)
  {
  }

  lemma StringConditionRoundTrip(t: StringCondition, c: string)
    ensures ParseStringCondition(StringConditionThen(t, c)) == Done(t, c)
  {
    var y := Quote(t.value) + c;
    var x := Quote(t.source) + (" " + y);
    ComparisonRoundTrip(t.comparison, " " + x);
    QuoteStart(t.source, " " + y);
    SpaceBefore(x);
    ParseStringRoundTrip(t.source, " " + y);
    QuoteStart(t.value, c);
    SpaceBefore(y);
    ParseStringRoundTrip(t.value, c);
    StringConditionStep(StringConditionThen(t, c), t.comparison, " " + x, x, t.source, " " + y, y, t.value, c);
  }

  // ------------------------------------------------------------- conditions

  lemma HeaderStep(s: string, a: string, x: string, v: StringCondition, c: string)
    requires Tag("header", s) == Done("header", a)
    requires Multispace1(a) == Done(" ", x) && ParseStringCondition(x) == Done(v, c)
    ensures ParseCondition(s) == Done(Header(v), c)
  {
  }

  lemma AddressStep(s: string, a: string, x: string, v: StringCondition, c: string)
    requires Tag("header", s) == Error && Tag("address", s) == Done("address", a)
    requires Multispace1(a) == Done(" ", x) && ParseStringCondition(x) == Done(v, c)
    ensures ParseCondition(s) == Done(Address(v), c)
  {
  }

  lemma ListStep(kw: string, s: string, a: string, cs: seq<Condition>, c: string)
    requires kw == "allof" || kw == "anyof"
    requires Tag("header", s) == Error && Tag("address", s) == Error
    requires kw == "anyof" ==> Tag("allof", s) == Error
    requires Tag(kw, s) == Done(kw, a) && Multispace0(a).rest == a
    requires ParseConditionList(a) == Done(cs, c)
    ensures ParseCondition(s) == Done(if kw == "allof" then AllOf(cs) else AnyOf(cs), c)
  {
  }

  lemma ParenthesisedStep(s: string, x: string, cs: seq<Condition>, r: string, c: string)
    requires Char('(', s) == Done('(', x) && Multispace0(x).rest == x
    requires ConditionList1(x) == Done(cs, r)
    requires Multispace0(r).rest == r && Char(')', r) == Done(')', c)
    ensures ParseConditionList(s) == Done(cs, c)
  {
  }

  lemma List1Step(s: string, first: Condition, r: string, more: seq<Condition>, d: string)
    requires ParseCondition(s) == Done(first, r)
    requires ConditionTail(r) == Done(more, d)
    ensures ConditionList1(s) == Done([first] + more, d)
  {
  }

  lemma SeparatorStep(s: string, a: string, x: string)
    requires Multispace0(s).rest == s && Char(',', s) == Done(',', a)
    requires Multispace0(a).rest == x
    ensures Separator(s) == Done(',', x)
  {
  }

  lemma TailStep(s: string, x: string, first: Condition, r: string, more: seq<Condition>, d: string)
    requires Separator(s) == Done(',', x) && |x| < |s|
    requires ParseCondition(x) == Done(first, r)
    requires ConditionTail(r) == Done(more, d)
    ensures ConditionTail(s) == Done([first] + more, d)
  {
  }

  lemma TailEnd(d: string)
    requires Separator(d) == Error
    ensures ConditionTail(d) == Done([], d)
  {
  }

  /** A closing parenthesis ends a condition list. */
  lemma ClosingParenthesis(c: string)
    ensures Separator(")" + c) == Error
  {
    Starts(")" + c, ')');
  }

  lemma ConditionRoundTrip(cond: Condition, c: string)
    requires WellFormedCondition(cond)
    ensures ParseCondition(ConditionThen(cond, c)) == Done(cond, c)
    decreases cond, 1
  {
    match cond
    case Header(t) =>
      HeaderCase(t, c);
    case Address(t) =>
      AddressCase(t, c);
    case AllOf(cs) =>
      ConditionListRoundTrip(cs, c);
      ListCase("allof", cs, c);
    case AnyOf(cs) =>
      ConditionListRoundTrip(cs, c);
      ListCase("anyof", cs, c);
  }

  lemma HeaderCase(t: StringCondition, c: string)
    ensures ParseCondition("header" + (" " + StringConditionThen(t, c))) == Done(Header(t), c)
  {
    var x := StringConditionThen(t, c);
    StringConditionRoundTrip(t, c);
    StringConditionStart(t, c);
    TagPrefix("header", " " + x);
    SpaceBefore(x);
    HeaderStep("header" + (" " + x), " " + x, x, t, c);
  }

  lemma AddressCase(t: StringCondition, c: string)
    ensures ParseCondition("address" + (" " + StringConditionThen(t, c))) == Done(Address(t), c)
  {
    var x := StringConditionThen(t, c);
    var s := "address" + (" " + x);
    StringConditionRoundTrip(t, c);
    StringConditionStart(t, c);
    TagMismatch("header", s, 0);
    TagPrefix("address", " " + x);
    SpaceBefore(x);
    AddressStep(s, " " + x, x, t, c);
  }

  lemma ListCase(kw: string, cs: seq<Condition>, c: string)
    requires kw == "allof" || kw == "anyof"
    requires ParseConditionList("(" + ConditionsThen(cs, ")" + c)) == Done(cs, c)
    ensures ParseCondition(kw + ("(" + ConditionsThen(cs, ")" + c)))
         == Done(if kw == "allof" then AllOf(cs) else AnyOf(cs), c)
  {
    ListAfter(kw, "(" + ConditionsThen(cs, ")" + c), cs, c);
  }

  /** `allof` or `anyof` before a parenthesised list reads as that list. */
  lemma ListAfter(kw: string, a: string, cs: seq<Condition>, c: string)
    requires kw == "allof" || kw == "anyof"
    requires |a| > 0 && a[0] == '(' && ParseConditionList(a) == Done(cs, c)
    ensures ParseCondition(kw + a) == Done(if kw == "allof" then AllOf(cs) else AnyOf(cs), c)
  {
    ListTags(kw, a);
    Starts(a, '(');
    ListStep(kw, kw + a, a, cs, c);
  }

  /** Which keyword tags match `allof` or `anyof` and what follows. */
  lemma ListTags(kw: string, a: string)
    requires kw == "allof" || kw == "anyof"
    ensures Tag("header", kw + a) == Error && Tag("address", kw + a) == Error
    ensures kw == "anyof" ==> Tag("allof", kw + a) == Error
    ensures Tag(kw, kw + a) == Done(kw, a)
  {
    TagMismatch("header", kw + a, 0);
    TagMismatch("address", kw + a, 1);
    if kw == "anyof" {
      TagMismatch("allof", kw + a, 1);
    }
    TagPrefix(kw, a);
  }

  lemma ConditionListRoundTrip(cs: seq<Condition>, c: string)
    requires |cs| > 0 && forall x | x in cs :: WellFormedCondition(x)
    ensures ParseConditionList("(" + ConditionsThen(cs, ")" + c)) == Done(cs, c)
    decreases cs, 1
  {
    var x := ConditionsThen(cs, ")" + c);
    ClosingParenthesis(c);
    ConditionList1RoundTrip(cs, ")" + c);
    ConditionsStart(cs, ")" + c);
    Bare(x);
    CharThen('(', x);
    Starts(")" + c, ')');
    CharThen(')', c);
    HeadTail(cs);
    ParenthesisedStep("(" + x, x, cs, ")" + c, c);
  }

  lemma ConditionList1RoundTrip(cs: seq<Condition>, d: string)
    requires |cs| > 0 && forall x | x in cs :: WellFormedCondition(x)
    requires Separator(d) == Error
    ensures ConditionList1(ConditionsThen(cs, d)) == Done([cs[0]] + cs[1..], d)
    decreases cs, 0
  {
    var r := ConditionTailThen(cs[1..], d);
    ConditionRoundTrip(cs[0], r);
    ConditionTailRoundTrip(cs[1..], d);
    List1Step(ConditionThen(cs[0], r), cs[0], r, cs[1..], d);
  }

  lemma ConditionTailRoundTrip(cs: seq<Condition>, d: string)
    requires forall x | x in cs :: WellFormedCondition(x)
    requires Separator(d) == Error
    ensures ConditionTail(ConditionTailThen(cs, d)) == Done(cs, d)
    decreases cs, 0
  {
    if |cs| == 0 {
      TailEnd(d);
    } else {
      var r := ConditionTailThen(cs[1..], d);
      ConditionRoundTrip(cs[0], r);
      ConditionTailRoundTrip(cs[1..], d);
      TailCase(cs[0], r, cs[1..], d);
      HeadTail(cs);
    }
  }

  lemma TailCase(first: Condition, r: string, more: seq<Condition>, d: string)
    requires ParseCondition(ConditionThen(first, r)) == Done(first, r)
    requires ConditionTail(r) == Done(more, d)
    ensures ConditionTail("," + (" " + ConditionThen(first, r))) == Done([first] + more, d)
  {
    var x := ConditionThen(first, r);
    var s := "," + (" " + x);
    ConditionStart(first, r);
    Starts(s, ',');
    CharThen(',', " " + x);
    SpaceBefore(x);
    SeparatorStep(s, " " + x, x);
    TailStep(s, x, first, r, more, d);
  }

  // ------------------------------------------------------- command choice

  /** The first `k` alternatives of `parse_expression` reject `t`. */
  predicate Rejects(t: string, k: nat) {
    (k > 0 ==> ParseRequire(t) == Error)
    && (k > 1 ==> ParseIf(t) == Error)
    && (k > 2 ==> FlagCommand("addflag", t) == Error)
    && (k > 3 ==> FlagCommand("removeflag", t) == Error)
    && (k > 4 ==> FlagCommand("setflag", t) == Error)
    && (k > 5 ==> Keyword("discard;", Discard, t) == Error)
    && (k > 6 ==> Keyword("keep;", Keep, t) == Error)
    && (k > 7 ==> Keyword("stop;", Stop, t) == Error)
  }

  /** The command keywords of `parse_expression`, in the order it tries them. */
  function CommandTag(k: nat): string
    requires k < 9
  {
    ["require ", "if", "addflag", "removeflag", "setflag", "discard;", "keep;", "stop;", "fileinto"][k]
  }

  /** Each alternative fails as soon as its keyword does not match. */
  lemma RejectsOf(t: string, k: nat)
    requires k <= 8
    requires forall i :: 0 <= i < k ==> Tag(CommandTag(i), t) == Error
    ensures Rejects(t, k)
  {
    if k > 0 { assert Tag(CommandTag(0), t) == Error; RequireRejects(t); }
    if k > 1 { assert Tag(CommandTag(1), t) == Error; IfFails(t); }
    if k > 2 { assert Tag(CommandTag(2), t) == Error; FlagRejects("addflag", t); }
    if k > 3 { assert Tag(CommandTag(3), t) == Error; FlagRejects("removeflag", t); }
    if k > 4 { assert Tag(CommandTag(4), t) == Error; FlagRejects("setflag", t); }
    if k > 5 { assert Tag(CommandTag(5), t) == Error; }
    if k > 6 { assert Tag(CommandTag(6), t) == Error; }
    if k > 7 { assert Tag(CommandTag(7), t) == Error; }
  }

  lemma RequireRejects(t: string)
    requires Tag("require ", t) == Error
    ensures ParseRequire(t) == Error
  {
  }

  lemma IfFails(t: string)
    requires Tag("if", t) == Error
    ensures ParseIf(t) == Error
  {
    assert SimpleIf("if", t) == Error;
  }

  lemma FlagRejects(kw: string, t: string)
    requires Tag(kw, t) == Error
    ensures FlagCommand(kw, t) == Error
  {
  }

  /** A text whose character at `i` differs from the keywords of the first
      `k` alternatives there is rejected by them. */
  lemma RejectsAt(t: string, k: nat, i: nat)
    requires k <= 8 && i < |t|
    requires forall j :: 0 <= j < k ==> i < |CommandTag(j)| && t[i] != CommandTag(j)[i]
    ensures Rejects(t, k)
  {
    forall j | 0 <= j < k
      ensures Tag(CommandTag(j), t) == Error
    {
      TagMismatch(CommandTag(j), t, i);
    }
    RejectsOf(t, k);
  }

  lemma RequireStep(s: string, names: seq<string>, c: string)
    requires Multispace0(s).rest == s && ParseRequire(s) == Done(names, c)
    ensures ParseExpression(s) == Done(Require(names), c)
  {
  }

  lemma IfStep(s: string, b: IfBlock, c: string)
    requires Multispace0(s).rest == s && ParseRequire(s) == Error && ParseIf(s) == Done(b, c)
    ensures ParseExpression(s) == Done(If(b), c)
  {
  }

  lemma AddFlagStep(s: string, fs: seq<Flag>, c: string)
    requires Multispace0(s).rest == s && Rejects(s, 2)
    requires FlagCommand("addflag", s) == Done(fs, c)
    ensures ParseExpression(s) == Done(AddFlag(fs), c)
  {
  }

  lemma RemoveFlagStep(s: string, fs: seq<Flag>, c: string)
    requires Multispace0(s).rest == s && Rejects(s, 3)
    requires FlagCommand("removeflag", s) == Done(fs, c)
    ensures ParseExpression(s) == Done(RemoveFlag(fs), c)
  {
  }

  lemma SetFlagStep(s: string, fs: seq<Flag>, c: string)
    requires Multispace0(s).rest == s && Rejects(s, 4)
    requires FlagCommand("setflag", s) == Done(fs, c)
    ensures ParseExpression(s) == Done(SetFlag(fs), c)
  {
  }

  lemma DiscardStep(s: string, c: string)
    requires Multispace0(s).rest == s && Rejects(s, 5)
    requires Keyword("discard;", Discard, s) == Done(Discard, c)
    ensures ParseExpression(s) == Done(Discard, c)
  {
  }

  lemma KeepStep(s: string, c: string)
    requires Multispace0(s).rest == s && Rejects(s, 6)
    requires Keyword("keep;", Keep, s) == Done(Keep, c)
    ensures ParseExpression(s) == Done(Keep, c)
  {
  }

  lemma StopStep(s: string, c: string)
    requires Multispace0(s).rest == s && Rejects(s, 7)
    requires Keyword("stop;", Stop, s) == Done(Stop, c)
    ensures ParseExpression(s) == Done(Stop, c)
  {
  }

  lemma FileIntoStep(s: string, folder: string, c: string)
    requires Multispace0(s).rest == s && Rejects(s, 8)
    requires ParseFileInto(s) == Done(folder, c)
    ensures ParseExpression(s) == Done(FileInto(folder), c)
  {
  }

  lemma NoCommandStep(s: string, t: string)
    requires Multispace0(s).rest == t && Rejects(t, 8) && ParseFileInto(t) == Error
    ensures ParseExpression(s) == Error
  {
  }

  /** Text that is empty or starts with a character no command starts with
      is rejected by every alternative. */
  lemma NoCommandText(t: string)
    requires |t| == 0 || !CommandInitial(t[0])
    ensures Rejects(t, 8) && ParseFileInto(t) == Error
  {
    if |t| == 0 {
      RejectsOf(t, 8);
    } else {
      RejectsAt(t, 8, 0);
      TagMismatch("fileinto", t, 0);
    }
  }

  /** A space before a command is skipped. */
  lemma SameCommand(s1: string, s2: string)
    requires Multispace0(s1).rest == Multispace0(s2).rest
    ensures ParseExpression(s1) == ParseExpression(s2)
  {
  }

  lemma LeadingSpace(x: string)
    requires |x| > 0 && !IsSpace(x[0])
    ensures ParseExpression(" " + x) == ParseExpression(x)
  {
    SpaceBefore(x);
    Bare(x);
    SameCommand(" " + x, x);
  }

  // ------------------------------------------------------- simple commands

  lemma RequireParseStep(s: string, a: string, names: seq<string>, r: string, c: string)
    requires Tag("require ", s) == Done("require ", a) && Multispace0(a).rest == a
    requires ParseStringArray(a) == Done(names, r) && Char(';', r) == Done(';', c)
    ensures ParseRequire(s) == Done(names, c)
  {
  }

  lemma RequireCase(names: seq<string>, c: string)
    ensures ParseExpression("require " + (ArrayText(names, "") + (";" + c))) == Done(Require(names), c)
  {
    var a := ArrayText(names, "") + (";" + c);
    var s := "require " + a;
    TagPrefix("require ", a);
    ArrayStart(names, ";" + c);
    Starts(a, '[');
    ParseStringArrayRoundTrip(names, "", ";" + c);
    CharThen(';', c);
    RequireParseStep(s, a, names, ";" + c, c);
    Unpadded(s);
    RequireStep(s, names, c);
  }

  lemma DiscardCase(c: string)
    ensures ParseExpression("discard;" + c) == Done(Discard, c)
  {
    var s := "discard;" + c;
    RejectsAt(s, 5, 0);
    TagPrefix("discard;", c);
    Unpadded(s);
    DiscardStep(s, c);
  }

  lemma KeepCase(c: string)
    ensures ParseExpression("keep;" + c) == Done(Keep, c)
  {
    var s := "keep;" + c;
    RejectsAt(s, 6, 0);
    TagPrefix("keep;", c);
    Unpadded(s);
    KeepStep(s, c);
  }

  lemma StopCase(c: string)
    ensures ParseExpression("stop;" + c) == Done(Stop, c)
  {
    var s := "stop;" + c;
    RejectsAt(s, 7, 1);
    TagPrefix("stop;", c);
    Unpadded(s);
    StopStep(s, c);
  }

  lemma FileIntoParseStep(s: string, a: string, x: string, folder: string, r: string, c: string)
    requires Tag("fileinto", s) == Done("fileinto", a) && Multispace1(a) == Done(" ", x)
    requires ParseString(x) == Done(folder, r) && Char(';', r) == Done(';', c)
    ensures ParseFileInto(s) == Done(folder, c)
  {
  }

  lemma FileIntoRoundTrip(folder: string, c: string)
    ensures ParseFileInto("fileinto" + (" " + (Quote(folder) + (";" + c)))) == Done(folder, c)
  {
    var x := Quote(folder) + (";" + c);
    TagPrefix("fileinto", " " + x);
    QuoteStart(folder, ";" + c);
    SpaceBefore(x);
    ParseStringRoundTrip(folder, ";" + c);
    CharThen(';', c);
    FileIntoParseStep("fileinto" + (" " + x), " " + x, x, folder, ";" + c, c);
  }

  lemma FileIntoCase(folder: string, c: string)
    ensures ParseExpression("fileinto" + (" " + (Quote(folder) + (";" + c)))) == Done(FileInto(folder), c)
  {
    var s := "fileinto" + (" " + (Quote(folder) + (";" + c)));
    FileIntoRoundTrip(folder, c);
    FileIntoInitial(s);
    Unpadded(s);
    FileIntoStep(s, folder, c);
  }

  /** Only the last alternative's keyword starts with `f`. */
  lemma FileIntoInitial(s: string)
    requires |s| > 0 && s[0] == 'f'
    ensures Rejects(s, 8)
  {
    RejectsAt(s, 8, 0);
  }

  // ------------------------------------------------------------------ flags

  /** Reading back the names of well-formed flags gives the same flags. */
  lemma FlagsOfNames(fs: seq<Flag>)
    requires WellFormedFlags(fs)
    ensures FlagsOf(FlagNames(fs)) == fs
  {
    forall i | 0 <= i < |fs|
      ensures FlagsOf(FlagNames(fs))[i] == fs[i]
    {
      FlagOfName(fs[i]);
    }
  }

  lemma FlagArrayStep(x: string, names: seq<string>, r: string)
    requires |x| > 0 && x[0] == '['
    requires ParseStringArray(x) == Done(names, r)
    ensures ParseFlags(x) == Done(FlagsOf(names), r)
  {
  }

  lemma FlagCommandStep(kw: string, s: string, a: string, x: string, fs: seq<Flag>, r: string, c: string)
    requires Tag(kw, s) == Done(kw, a) && Multispace1(a) == Done(" ", x)
    requires ParseFlags(x) == Done(fs, r)
    requires Multispace0(r).rest == r && Char(';', r) == Done(';', c)
    ensures FlagCommand(kw, s) == Done(fs, c)
  {
  }

  lemma FlagCommandRoundTrip(kw: string, fs: seq<Flag>, c: string)
    requires WellFormedFlags(fs)
    ensures FlagCommand(kw, FlagCommandThen(kw, fs, c)) == Done(fs, c)
  {
    var names := FlagNames(fs);
    var x := ArrayText(names, "") + (";" + c);
    ParseStringArrayRoundTrip(names, "", ";" + c);
    ArrayStart(names, ";" + c);
    FlagArrayStep(x, names, ";" + c);
    FlagsOfNames(fs);
    TagPrefix(kw, " " + x);
    SpaceBefore(x);
    Starts(";" + c, ';');
    CharThen(';', c);
    FlagCommandStep(kw, kw + (" " + x), " " + x, x, fs, ";" + c, c);
  }

  /** A flag command's text starts with its keyword. */
  lemma FlagTextStart(kw: string, fs: seq<Flag>, c: string)
    requires |kw| >= 3
    ensures |FlagCommandThen(kw, fs, c)| > 3
    ensures FlagCommandThen(kw, fs, c)[..3] == kw[..3]
  {
  }

  /** What the three flag cases share: the printed command starts with its
      keyword, has no leading whitespace and reads back as its flags. */
  lemma FlagCaseFacts(kw: string, fs: seq<Flag>, c: string)
    requires |kw| >= 3 && !IsSpace(kw[0]) && WellFormedFlags(fs)
    ensures var s := FlagCommandThen(kw, fs, c);
      |s| > 3 && s[..3] == kw[..3] && Multispace0(s).rest == s && FlagCommand(kw, s) == Done(fs, c)
  {
    var s := FlagCommandThen(kw, fs, c);
    FlagCommandRoundTrip(kw, fs, c);
    FlagTextStart(kw, fs, c);
    Unpadded(s);
  }

  /** The first three letters of each flag keyword. */
  lemma FlagKeywordHeads()
    ensures "addflag"[..3] == "add" && "removeflag"[..3] == "rem" && "setflag"[..3] == "set"
  {
  }

  lemma AddFlagRejects(s: string)
    requires |s| > 3 && s[..3] == "add"
    ensures Rejects(s, 2)
  {
    assert s[0] == 'a';
    RejectsAt(s, 2, 0);
  }

  /** `removeflag` differs from `require ` only at its third character. */
  lemma RemoveFlagRejects(s: string)
    requires |s| > 3 && s[..3] == "rem"
    ensures Rejects(s, 3)
  {
    assert s[0] == 'r' && s[2] == 'm';
    TagMismatch(CommandTag(0), s, 2);
    TagMismatch(CommandTag(1), s, 0);
    TagMismatch(CommandTag(2), s, 0);
    RejectsOf(s, 3);
  }

  lemma SetFlagRejects(s: string)
    requires |s| > 3 && s[..3] == "set"
    ensures Rejects(s, 4)
  {
    assert s[0] == 's';
    RejectsAt(s, 4, 0);
  }

  lemma AddFlagCase(fs: seq<Flag>, c: string)
    requires WellFormedFlags(fs)
    ensures ParseExpression(FlagCommandThen("addflag", fs, c)) == Done(AddFlag(fs), c)
  {
    var s := FlagCommandThen("addflag", fs, c);
    FlagCaseFacts("addflag", fs, c);
    FlagKeywordHeads();
    AddFlagAt(s, fs, c);
  }

  lemma AddFlagAt(s: string, fs: seq<Flag>, c: string)
    requires |s| > 3 && s[..3] == "add" && Multispace0(s).rest == s
    requires FlagCommand("addflag", s) == Done(fs, c)
    ensures ParseExpression(s) == Done(AddFlag(fs), c)
  {
    AddFlagRejects(s);
    AddFlagStep(s, fs, c);
  }

  lemma RemoveFlagCase(fs: seq<Flag>, c: string)
    requires WellFormedFlags(fs)
    ensures ParseExpression(FlagCommandThen("removeflag", fs, c)) == Done(RemoveFlag(fs), c)
  {
    var s := FlagCommandThen("removeflag", fs, c);
    FlagCaseFacts("removeflag", fs, c);
    FlagKeywordHeads();
    RemoveFlagAt(s, fs, c);
  }

  lemma RemoveFlagAt(s: string, fs: seq<Flag>, c: string)
    requires |s| > 3 && s[..3] == "rem" && Multispace0(s).rest == s
    requires FlagCommand("removeflag", s) == Done(fs, c)
    ensures ParseExpression(s) == Done(RemoveFlag(fs), c)
  {
    RemoveFlagRejects(s);
    RemoveFlagStep(s, fs, c);
  }

  lemma SetFlagCase(fs: seq<Flag>, c: string)
    requires WellFormedFlags(fs)
    ensures ParseExpression(FlagCommandThen("setflag", fs, c)) == Done(SetFlag(fs), c)
  {
    var s := FlagCommandThen("setflag", fs, c);
    FlagCaseFacts("setflag", fs, c);
    FlagKeywordHeads();
    SetFlagAt(s, fs, c);
  }

  lemma SetFlagAt(s: string, fs: seq<Flag>, c: string)
    requires |s| > 3 && s[..3] == "set" && Multispace0(s).rest == s
    requires FlagCommand("setflag", s) == Done(fs, c)
    ensures ParseExpression(s) == Done(SetFlag(fs), c)
  {
    SetFlagRejects(s);
    SetFlagStep(s, fs, c);
  }

  // ---------------------------------------------------------- what follows

  /** Text that may follow a printed expression: after optional whitespace it
      is empty or does not start with `e`, so no `else` or `elsif` is read
      into the expression before it. */
  predicate Follows(c: string) {
    var t := Multispace0(c).rest;
    |t| == 0 || t[0] != 'e'
  }

  /** No `elsif` keyword starts here once whitespace is skipped. */
  predicate NoElsif(d: string) {
    Tag("elsif", Multispace0(d).rest) == Error
  }

  lemma FollowsTags(c: string)
    requires Follows(c)
    ensures Tag("else", Multispace0(c).rest) == Error
    ensures NoElsif(c)
  {
    var t := Multispace0(c).rest;
    if |t| > 0 {
      TagMismatch("else", t, 0);
      TagMismatch("elsif", t, 0);
    }
  }

  /** A sequence of printed expressions may itself be followed by anything
      that may follow an expression. */
  lemma ExpressionsFollow(es: seq<Expression>, d: string)
    requires Follows(d)
    ensures Follows(ExpressionsThen(es, d))
  {
    if |es| > 0 {
      var x := ExpressionThen(es[0], ExpressionsThen(es[1..], d));
      ExpressionStart(es[0], ExpressionsThen(es[1..], d));
      SpaceBefore(x);
      assert ExpressionsThen(es, d) == " " + x;
      assert Multispace0(" " + x).rest == x;
      assert x[0] != 'e';
    }
  }

  /** A space and a closing brace end an expression list and may follow an
      expression. */
  lemma ClosingBrace(c: string)
    ensures ParseExpression(" " + ("}" + c)) == Error
    ensures Follows(" " + ("}" + c))
  {
    var t := "}" + c;
    SpaceBefore(t);
    NoCommandText(t);
    NoCommandStep(" " + t, t);
  }

  /** Whitespace alone ends an expression list and may follow an expression. */
  lemma TrailingSpace(w: string)
    requires AllSpace(w)
    ensures ParseExpression(w) == Error
    ensures Follows(w)
  {
    Multispace0Of(w, "");
    assert w + "" == w;
    NoCommandText("");
    NoCommandStep(w, "");
  }

  // ------------------------------------------------------- expression lists

  lemma ListEnd(d: string)
    requires ParseExpression(d) == Error
    ensures ParseExpressionList(d) == Done([], d)
  {
  }

  lemma ExpressionListStep(s: string, e: Expression, r: string, more: seq<Expression>, d: string)
    requires ParseExpression(s) == Done(e, r)
    requires ParseExpressionList(r) == Done(more, d)
    ensures ParseExpressionList(s) == Done([e] + more, d)
  {
  }

  lemma ListAssemble(e: Expression, r: string, more: seq<Expression>, d: string)
    requires ParseExpression(ExpressionThen(e, r)) == Done(e, r)
    requires ParseExpressionList(r) == Done(more, d)
    ensures ParseExpressionList(" " + ExpressionThen(e, r)) == Done([e] + more, d)
  {
    SpacedExpression(e, r);
    ExpressionListStep(" " + ExpressionThen(e, r), e, r, more, d);
  }

  /** The space a printer puts before an expression changes nothing. */
  lemma SpacedExpression(e: Expression, r: string)
    ensures ParseExpression(" " + ExpressionThen(e, r)) == ParseExpression(ExpressionThen(e, r))
  {
    ExpressionStart(e, r);
    LeadingSpace(ExpressionThen(e, r));
  }

  /** Printed expressions, followed by text that ends the list and may follow
      an expression, read back as the same expressions, stopping at that text. */
  lemma ExpressionsRoundTrip(es: seq<Expression>, d: string)
    requires WellFormedExpressions(es)
    requires ParseExpression(d) == Error && Follows(d)
    ensures ParseExpressionList(ExpressionsThen(es, d)) == Done(es, d)
    decreases es, 0
  {
    if |es| == 0 {
      ListEnd(d);
    } else {
      var r := ExpressionsThen(es[1..], d);
      ExpressionsFollow(es[1..], d);
      WellFormedSplit(es);
      ExpressionRoundTrip(es[0], r);
      ExpressionsRoundTrip(es[1..], d);
      ListCons(es, d);
    }
  }

  lemma WellFormedSplit(es: seq<Expression>)
    requires |es| > 0 && WellFormedExpressions(es)
    ensures WellFormedExpression(es[0]) && WellFormedExpressions(es[1..])
  {
    assert forall i :: 0 <= i < |es| - 1 ==> es[1..][i] == es[i + 1];
  }

  /** One step of `ExpressionsRoundTrip`: the head read back, then the tail. */
  lemma ListCons(es: seq<Expression>, d: string)
    requires |es| > 0
    requires ParseExpression(ExpressionThen(es[0], ExpressionsThen(es[1..], d))) == Done(es[0], ExpressionsThen(es[1..], d))
    requires ParseExpressionList(ExpressionsThen(es[1..], d)) == Done(es[1..], d)
    ensures ParseExpressionList(ExpressionsThen(es, d)) == Done(es, d)
  {
    ListAssemble(es[0], ExpressionsThen(es[1..], d), es[1..], d);
    HeadTail(es);
  }

  // ---------------------------------------------------------------- blocks

  lemma BlockStep(s: string, x: string, body: seq<Expression>, r: string, u: string, c: string)
    requires Char('{', s) == Done('{', x)
    requires ParseExpressionList(x) == Done(body, r)
    requires Multispace0(r).rest == u && Char('}', u) == Done('}', c)
    ensures ParseBlock(s) == Done(body, c)
  {
  }

  lemma BlockAssemble(body: seq<Expression>, c: string)
    requires ParseExpressionList(ExpressionsThen(body, " " + ("}" + c))) == Done(body, " " + ("}" + c))
    ensures ParseBlock(BlockThen(body, c)) == Done(body, c)
  {
    var d := " " + ("}" + c);
    var x := ExpressionsThen(body, d);
    CharThen('{', x);
    SpaceBefore("}" + c);
    CharThen('}', c);
    BlockStep("{" + x, x, body, d, "}" + c, c);
  }

  lemma BlockRoundTrip(body: seq<Expression>, c: string)
    requires WellFormedExpressions(body)
    ensures ParseBlock(BlockThen(body, c)) == Done(body, c)
    decreases body, 1
  {
    ClosingBrace(c);
    ExpressionsRoundTrip(body, " " + ("}" + c));
    BlockAssemble(body, c);
  }

  // -------------------------------------------------------------- branches

  lemma SimpleIfStep(kw: string, s: string, a: string, x: string, cond: Condition, r: string,
                     y: string, body: seq<Expression>, c: string)
    requires Tag(kw, s) == Done(kw, a) && Multispace1(a) == Done(" ", x)
    requires ParseCondition(x) == Done(cond, r) && Multispace1(r) == Done(" ", y)
    requires ParseBlock(y) == Done(body, c)
    ensures SimpleIf(kw, s) == Done(Branch(cond, body), c)
  {
  }

  /** The tokens of a printed branch: the keyword, a space, the condition
      `x`, a space, the block `y`. */
  lemma BranchTokens(kw: string, x: string, y: string)
    requires |x| > 0 && (x[0] == 'h' || x[0] == 'a')
    requires |y| > 0 && y[0] == '{'
    ensures Tag(kw, kw + (" " + x)) == Done(kw, " " + x)
    ensures Multispace1(" " + x) == Done(" ", x)
    ensures Multispace1(" " + y) == Done(" ", y)
  {
    TagPrefix(kw, " " + x);
    SpaceBefore(x);
    SpaceBefore(y);
  }

  lemma BranchAssemble(kw: string, cond: Condition, body: seq<Expression>, c: string)
    requires ParseCondition(ConditionThen(cond, " " + BlockThen(body, c))) == Done(cond, " " + BlockThen(body, c))
    requires ParseBlock(BlockThen(body, c)) == Done(body, c)
    ensures SimpleIf(kw, BranchThen(kw, cond, body, c)) == Done(Branch(cond, body), c)
  {
    var y := BlockThen(body, c);
    var x := ConditionThen(cond, " " + y);
    ConditionStart(cond, " " + y);
    BranchTokens(kw, x, y);
    SimpleIfStep(kw, kw + (" " + x), " " + x, x, cond, " " + y, y, body, c);
  }

  /** A printed `if` or `elsif` branch reads back as the same condition and
      block. */
  lemma BranchRoundTrip(kw: string, cond: Condition, body: seq<Expression>, c: string)
    requires WellFormedCondition(cond) && WellFormedExpressions(body)
    ensures SimpleIf(kw, BranchThen(kw, cond, body, c)) == Done(Branch(cond, body), c)
    decreases body, 2
  {
    ConditionRoundTrip(cond, " " + BlockThen(body, c));
    BlockRoundTrip(body, c);
    BranchAssemble(kw, cond, body, c);
  }

  lemma ElsifsEnd(d: string)
    requires NoElsif(d)
    ensures ParseElsifs(d) == Done([], d)
  {
    ElsifFails(Multispace0(d).rest);
  }

  lemma ElsifFails(t: string)
    requires Tag("elsif", t) == Error
    ensures SimpleIf("elsif", t) == Error
  {
  }

  lemma ElsifStep(s: string, x: string, b: Branch, r: string, more: seq<Branch>, d: string)
    requires Multispace0(s).rest == x && SimpleIf("elsif", x) == Done(b, r) && |r| < |s|
    requires ParseElsifs(r) == Done(more, d)
    ensures ParseElsifs(s) == Done([b] + more, d)
  {
  }

  lemma ElsifAssemble(b: Branch, r: string, more: seq<Branch>, d: string)
    requires SimpleIf("elsif", BranchThen("elsif", b.condition, b.body, r)) == Done(b, r)
    requires ParseElsifs(r) == Done(more, d)
    ensures ParseElsifs(" " + BranchThen("elsif", b.condition, b.body, r)) == Done([b] + more, d)
  {
    var z := BranchThen("elsif", b.condition, b.body, r);
    assert z[0] == 'e';
    SpaceBefore(z);
    ElsifStep(" " + z, z, b, r, more, d);
  }

  lemma ElsifsRoundTrip(bs: seq<Branch>, d: string)
    requires WellFormedBranches(bs) && NoElsif(d)
    ensures ParseElsifs(ElsifsThen(bs, d)) == Done(bs, d)
    decreases bs, 1
  {
    if |bs| == 0 {
      ElsifsEnd(d);
    } else {
      var r := ElsifsThen(bs[1..], d);
      BranchRoundTrip("elsif", bs[0].condition, bs[0].body, r);
      ElsifsRoundTrip(bs[1..], d);
      ElsifAssemble(bs[0], r, bs[1..], d);
      HeadTail(bs);
    }
  }

  lemma ElseEnd(c: string)
    requires Tag("else", Multispace0(c).rest) == Error
    ensures ParseElse(c) == Done([], c)
  {
  }

  lemma ElseStep(s: string, x: string, a: string, y: string, body: seq<Expression>, c: string)
    requires Multispace0(s).rest == x && Tag("else", x) == Done("else", a)
    requires Multispace0(a).rest == y && ParseBlock(y) == Done(body, c)
    ensures ParseElse(s) == Done(body, c)
  {
  }

  /** The tokens of a printed `else`: a space, the keyword, a space, the block. */
  lemma ElseTokens(y: string)
    requires |y| > 0 && y[0] == '{'
    ensures Multispace0(" " + ("else" + (" " + y))).rest == "else" + (" " + y)
    ensures Tag("else", "else" + (" " + y)) == Done("else", " " + y)
    ensures Multispace0(" " + y).rest == y
  {
    SpaceBefore("else" + (" " + y));
    TagPrefix("else", " " + y);
    SpaceBefore(y);
  }

  lemma ElseAssemble(body: seq<Expression>, c: string)
    requires ParseBlock(BlockThen(body, c)) == Done(body, c)
    ensures ParseElse(" " + ("else" + (" " + BlockThen(body, c)))) == Done(body, c)
  {
    var y := BlockThen(body, c);
    ElseTokens(y);
    ElseStep(" " + ("else" + (" " + y)), "else" + (" " + y), " " + y, y, body, c);
  }

  lemma ElseRoundTrip(body: seq<Expression>, c: string)
    requires WellFormedExpressions(body) && Follows(c)
    ensures ParseElse(ElseThen(body, c)) == Done(body, c)
    decreases body, 2
  {
    if |body| == 0 {
      FollowsTags(c);
      ElseEnd(c);
    } else {
      BlockRoundTrip(body, c);
      ElseAssemble(body, c);
    }
  }

  /** A printed `else` is not mistaken for an `elsif`: the keywords part at
      their fourth letter. */
  lemma ElseNoElsif(body: seq<Expression>, c: string)
    requires Follows(c)
    ensures NoElsif(ElseThen(body, c))
  {
    if |body| == 0 {
      FollowsTags(c);
    } else {
      var z := "else" + (" " + BlockThen(body, c));
      SpaceBefore(z);
      TagMismatch("elsif", z, 3);
    }
  }

  // ------------------------------------------------------------------- if

  lemma IfParseStep(s: string, br: Branch, d: string, bs: seq<Branch>, e: string,
                    body: seq<Expression>, c: string)
    requires SimpleIf("if", s) == Done(br, d)
    requires ParseElsifs(d) == Done(bs, e) && ParseElse(e) == Done(body, c)
    ensures ParseIf(s) == Done(IfBlock(br.condition, br.body, bs, body), c)
  {
  }

  lemma IfRoundTrip(b: IfBlock, c: string)
    requires WellFormedExpression(If(b)) && Follows(c)
    ensures ParseIf(IfThen(b, c)) == Done(b, c)
    decreases b, 0
  {
    var e := ElseThen(b.elseBlock, c);
    var d := ElsifsThen(b.elsifs, e);
    IfWellFormed(b);
    ElseRoundTrip(b.elseBlock, c);
    ElseNoElsif(b.elseBlock, c);
    ElsifsRoundTrip(b.elsifs, e);
    BranchRoundTrip("if", b.condition, b.body, d);
    IfParseStep(IfThen(b, c), Branch(b.condition, b.body), d, b.elsifs, e, b.elseBlock, c);
  }

  /** The well-formedness of an `if` covers each of its parts. */
  lemma IfWellFormed(b: IfBlock)
    requires WellFormedExpression(If(b))
    ensures WellFormedCondition(b.condition)
    ensures WellFormedExpressions(b.body) && WellFormedExpressions(b.elseBlock)
    ensures WellFormedBranches(b.elsifs)
  {
    assert forall i :: 0 <= i < |b.elsifs| ==> b.elsifs[i] in b.elsifs;
  }

  lemma IfTextStart(b: IfBlock, c: string)
    ensures |IfThen(b, c)| > 0 && IfThen(b, c)[0] == 'i'
  {
  }

  lemma IfRejects(s: string)
    requires |s| > 0 && s[0] == 'i'
    ensures ParseRequire(s) == Error
  {
    RejectsAt(s, 1, 0);
  }

  lemma IfCase(b: IfBlock, c: string)
    requires ParseIf(IfThen(b, c)) == Done(b, c)
    ensures ParseExpression(IfThen(b, c)) == Done(If(b), c)
  {
    IfTextStart(b, c);
    IfChoice(IfThen(b, c), b, c);
  }

  lemma IfChoice(s: string, b: IfBlock, c: string)
    requires |s| > 0 && s[0] == 'i' && ParseIf(s) == Done(b, c)
    ensures ParseExpression(s) == Done(If(b), c)
  {
    IfRejects(s);
    Unpadded(s);
    IfStep(s, b, c);
  }

  // ------------------------------------------------------------ expressions

  /** A printed expression, followed by text that may follow it, reads back
      as the same expression. */
  lemma ExpressionRoundTrip(e: Expression, c: string)
    requires WellFormedExpression(e) && Follows(c)
    ensures ParseExpression(ExpressionThen(e, c)) == Done(e, c)
    decreases e, 2
  {
    match e
    case Require(names) => RequireCase(names, c);
    case If(b) =>
      IfRoundTrip(b, c);
      IfCase(b, c);
    case FileInto(folder) => FileIntoCase(folder, c);
    case AddFlag(fs) => AddFlagCase(fs, c);
    case RemoveFlag(fs) => RemoveFlagCase(fs, c);
    case SetFlag(fs) => SetFlagCase(fs, c);
    case Discard => DiscardCase(c);
    case Keep => KeepCase(c);
    case Stop => StopCase(c);
  }

  /** A printed script, with any trailing whitespace, reads back as the same
      expressions and leaves exactly that whitespace. */
  lemma ScriptRoundTrip(es: seq<Expression>, w: string)
    requires WellFormedExpressions(es) && AllSpace(w)
    ensures ParseExpressionList(ExpressionsThen(es, w)) == Done(es, w)
  {
    TrailingSpace(w);
    ExpressionsRoundTrip(es, w);
  }
}

=== FILE: sieve_strings.dfy ===
/**
 * Sieve string primitives (sieve_client/src/parser/util.rs): quoted string
 * literals with exactly the two escapes `\\` and `\"`, whitespace runs, and
 * bracketed string arrays.
 *
 * Unlike section 2.4.2 of RFC 5228, which reads an undefined escape as the
 * escaped character, this decoder fails on one: after the body stops at the
 * stray backslash, the closing quote parser meets that backslash.
 */
module SieveStrings {
  import opened Text
  import opened Combinators

  /** Characters an unescaped run may hold. */
  predicate IsPlain(c: char) {
    c != '\\' && c != '"'
  }

  /** The whitespace of `multispace0`: space, tab, line feed, carriage return. */
  predicate IsSpace(c: char) {
    c == ' ' || c == '\t' || c == '\n' || c == '\r'
  }

  predicate AllSpace(w: string) {
    forall i :: 0 <= i < |w| ==> IsSpace(w[i])
  }

  // ---------------------------------------------------------------- literals

  /** `parse_escaped_char`: a backslash followed by a backslash or a quote. */
  function ParseEscapedChar(s: string): (r: Parsed<char>)
    ensures r.Done? <==> |s| >= 2 && s[0] == '\\' && !IsPlain(s[1])
    ensures r.Done? ==> r.value == s[1] && r.rest == s[2..]
    ensures r.Incomplete? <==> |s| == 0 || (|s| == 1 && s[0] == '\\')
  {
    var b :- Char('\\', s);
    // `value('\\', char('\\'))` and `value('"', char('"'))` yield the matched character itself
    Alt(Char('\\', b.1), Char('"', b.1))
  }

  /** `parse_unescaped_sequence`: the longest non-empty prefix free of
      backslashes and quotes. */
  function ParseUnescapedSequence(s: string): (r: Parsed<string>)
    ensures !r.Incomplete?
    ensures r.Done? <==> |s| > 0 && IsPlain(s[0])
    ensures r.Done? ==> |r.value| > 0 && r.value + r.rest == s
    ensures r.Done? ==> forall i :: 0 <= i < |r.value| ==> IsPlain(r.value[i])
    ensures r.Done? ==> |r.rest| == 0 || !IsPlain(r.rest[0])
  {
    var n := PrefixLength(s, IsPlain);
    if n == 0 then Error else Done(s[..n], s[n..])
  }

  datatype StringPart = Literal(text: string) | Escaped(c: char)

  /** The characters a part contributes to the decoded string. */
  function PartText(p: StringPart): string {
    match p
    case Literal(t) => t
    case Escaped(c) => [c]
  }

  /** `parse_string_part`: an unescaped run, else an escaped character. */
  function ParseStringPart(s: string): (r: Parsed<StringPart>)
    ensures r.Done? ==> |r.rest| < |s|
    ensures r.Done? && r.value.Literal? ==>
      |r.value.text| > 0 && r.value.text + r.rest == s
      && forall i :: 0 <= i < |r.value.text| ==> IsPlain(r.value.text[i])
    ensures r.Done? && r.value.Escaped? ==> !IsPlain(r.value.c) && ['\\', r.value.c] + r.rest == s
    ensures r.Error? <==> BodyStop(s)
    ensures r.Incomplete? <==> |s| == 0 || s == "\\"
  {
    match ParseUnescapedSequence(s)
    case Done(t, u) => Done(Literal(t), u)
    case Incomplete => Incomplete
    case Error =>
      match ParseEscapedChar(s)
      case Done(c, u) => Done(Escaped(c), u)
      case Incomplete => Incomplete
      case Error => Error
  }

  /** Where the body of a literal ends: at a quote, or at a backslash that
      starts no defined escape. */
  predicate BodyStop(t: string) {
    |t| > 0 && (t[0] == '"' || (t[0] == '\\' && |t| >= 2 && IsPlain(t[1])))
  }

  /** The `fold_many0` over string parts inside `parse_string`, concatenating
      the parts; nom's guard against a part that consumes nothing is kept. */
  function ParseStringBody(s: string): (r: Parsed<string>)
    ensures !r.Error?
    ensures r.Done? ==> |r.rest| <= |s| && BodyStop(r.rest)
    decreases |s|
  {
    match ParseStringPart(s)
    case Error => Done("", s)
    case Incomplete => Incomplete
    case Done(part, t) =>
      if |t| >= |s| then Error
      else
        var tail :- ParseStringBody(t);
        Done(PartText(part) + tail.0, tail.1)
  }

  /** `parse_string`: a quote, the body, a closing quote. */
  function ParseString(s: string): (r: Parsed<string>)
    ensures r.Done? ==> |r.rest| < |s| && s[0] == '"'
    ensures |s| == 0 ==> r.Incomplete?
    ensures |s| > 0 && s[0] != '"' ==> r.Error?
  {
    var open :- Char('"', s);
    var body :- ParseStringBody(open.1);
    var close :- Char('"', body.1);
    Done(body.0, close.1)
  }

  // ------------------------------------------------- the reference encoding

  function EscapeChar(c: char): string {
    if IsPlain(c) then [c] else ['\\', c]
  }

  /** Writes `\` as `\\` and `"` as `\"`, everything else as itself. */
  function Escape(s: string): string {
    if |s| == 0 then "" else EscapeChar(s[0]) + Escape(s[1..])
  }

  /** The literal that stands for `s`. */
  function Quote(s: string): string {
    "\"" + Escape(s) + "\""
  }

  lemma {:induction false} EscapeAppend(a: string, b: string)
    ensures Escape(a + b) == Escape(a) + Escape(b)
  {
    if |a| > 0 {
      assert (a + b)[1..] == a[1..] + b;
      EscapeAppend(a[1..], b);
    } else {
      assert a + b == b;
    }
  }

  lemma {:induction false} EscapePlain(s: string)
    requires forall i :: 0 <= i < |s| ==> IsPlain(s[i])
    ensures Escape(s) == s
  {
    if |s| > 0 {
      EscapePlain(s[1..]);
    }
  }

  /** Adds the characters decoded so far in front of a body result. */
  function Prepend(s: string, r: Parsed<string>): Parsed<string> {
    if r.Done? then Done(s + r.value, r.rest) else r
  }

  /** One part: an escaped character. */
  lemma PartEscaped(c: char, y: string)
    requires !IsPlain(c)
    ensures ParseStringPart(['\\', c] + y) == Done(Escaped(c), y)
  {
    assert (['\\', c] + y)[2..] == y;
  }

  /** One part: a maximal unescaped run. */
  lemma PartLiteral(run: string, y: string)
    requires |run| > 0 && forall i :: 0 <= i < |run| ==> IsPlain(run[i])
    requires |y| == 0 || !IsPlain(y[0])
    ensures ParseStringPart(run + y) == Done(Literal(run), y)
  {
    PrefixLengthAppend(run, y, IsPlain);
    assert (run + y)[..|run|] == run && (run + y)[|run|..] == y;
  }

  /** One step of the body fold. */
  lemma BodyStep(s: string, part: StringPart, t: string)
    requires ParseStringPart(s) == Done(part, t)
    ensures ParseStringBody(s) == Prepend(PartText(part), ParseStringBody(t))
  {
  }

  lemma PrependNothing(r: Parsed<string>)
    ensures Prepend("", r) == r
  {
    if r.Done? {
      assert "" + r.value == r.value;
    }
  }

  lemma PrependTwice(a: string, b: string, r: Parsed<string>)
    ensures Prepend(a, Prepend(b, r)) == Prepend(a + b, r)
  {
    if r.Done? {
      ConcatAssoc(a, b, r.value);
    }
  }

  /** The body reads an escaped character written by `Escape`. */
  lemma BodyHeadEscaped(s: string, t: string)
    requires |s| > 0 && !IsPlain(s[0])
    ensures ParseStringBody(Escape(s) + t) == Prepend(s[..1], ParseStringBody(Escape(s[1..]) + t))
  {
    var y := Escape(s[1..]) + t;
    assert Escape(s) + t == ['\\', s[0]] + y;
    PartEscaped(s[0], y);
    BodyStep(Escape(s) + t, Escaped(s[0]), y);
    assert s[..1] == [s[0]];
  }

  /** `Escape` keeps a leading plain run as it is, and what it writes next
      cannot extend that run. */
  lemma EscapeLeadingRun(s: string, t: string)
    requires |t| == 0 || !IsPlain(t[0])
    ensures var k := PrefixLength(s, IsPlain);
      var y := Escape(s[k..]) + t;
      Escape(s) + t == s[..k] + y && (|y| == 0 || !IsPlain(y[0]))
  {
    var k := PrefixLength(s, IsPlain);
    assert s[..k] + s[k..] == s;
    EscapeAppend(s[..k], s[k..]);
    EscapePlain(s[..k]);
    ConcatAssoc(s[..k], Escape(s[k..]), t);
    if |s[k..]| > 0 {
      assert Escape(s[k..])[0] == '\\';
    }
  }

  /** The body reads a maximal run of plain characters written by `Escape`. */
  lemma BodyHeadLiteral(s: string, t: string)
    requires |s| > 0 && IsPlain(s[0])
    requires |t| == 0 || !IsPlain(t[0])
    ensures var k := PrefixLength(s, IsPlain);
      ParseStringBody(Escape(s) + t) == Prepend(s[..k], ParseStringBody(Escape(s[k..]) + t))
  {
    var k := PrefixLength(s, IsPlain);
    var y := Escape(s[k..]) + t;
    EscapeLeadingRun(s, t);
    PartLiteral(s[..k], y);
    BodyStep(s[..k] + y, Literal(s[..k]), y);
  }

  /** The first part the body reads from `Escape(s)`: `k` characters of `s`. */
  lemma BodyHead(s: string, t: string) returns (k: nat)
    requires |s| > 0
    requires |t| == 0 || !IsPlain(t[0])
    ensures 0 < k <= |s|
    ensures ParseStringBody(Escape(s) + t) == Prepend(s[..k], ParseStringBody(Escape(s[k..]) + t))
  {
    if IsPlain(s[0]) {
      k := PrefixLength(s, IsPlain);
      BodyHeadLiteral(s, t);
    } else {
      k := 1;
      BodyHeadEscaped(s, t);
    }
  }

  /** The body decoder reads `Escape(s)` back as `s` and then carries on with
      whatever follows, as long as that does not continue an unescaped run. */
  lemma {:induction false} BodyOfEscaped(s: string, t: string)
    requires |t| == 0 || !IsPlain(t[0])
    ensures ParseStringBody(Escape(s) + t) == Prepend(s, ParseStringBody(t))
    decreases |s|
  {
    if |s| == 0 {
      assert Escape(s) + t == t;
      PrependNothing(ParseStringBody(t));
    } else {
      var k := BodyHead(s, t);
      BodyOfEscaped(s[k..], t);
      PrependTwice(s[..k], s[k..], ParseStringBody(t));
      assert s[..k] + s[k..] == s;
    }
  }

  /** Escape round trip: the literal written for `s` decodes to `s`, and the
      input after the closing quote is returned untouched. */
  lemma ParseStringRoundTrip(s: string, rest: string)
    ensures ParseString(Quote(s) + rest) == Done(s, rest)
  {
    var t := "\"" + rest;
    ConcatAssoc("\"" + Escape(s), "\"", rest);
    ConcatAssoc("\"", Escape(s), t);
    BodyOfEscaped(s, t);
    assert ParseStringPart(t) == Error;
    assert s + "" == s;
  }

  /** The empty literal `""` decodes to the empty string. */
  lemma EmptyLiteral(rest: string)
    ensures ParseString("\"\"" + rest) == Done("", rest)
  {
    ParseStringRoundTrip("", rest);
    assert Quote("") == "\"\"";
  }

  /** A part consumes exactly the escaped form of the text it stands for. */
  lemma PartInverse(s: string)
    requires ParseStringPart(s).Done?
    ensures Escape(PartText(ParseStringPart(s).value)) + ParseStringPart(s).rest == s
  {
    match ParseStringPart(s).value
    case Literal(x) => EscapePlain(x);
    case Escaped(c) => assert Escape([c]) == ['\\', c];
  }

  lemma EscapeJoin(a: string, b: string, r: string)
    ensures Escape(a + b) + r == Escape(a) + (Escape(b) + r)
  {
    EscapeAppend(a, b);
  }

  lemma {:induction false} BodyInverse(s: string)
    requires ParseStringBody(s).Done?
    ensures s == Escape(ParseStringBody(s).value) + ParseStringBody(s).rest
    decreases |s|
  {
    var p := ParseStringPart(s);
    if p.Done? {
      BodyStep(s, p.value, p.rest);
      BodyInverse(p.rest);
      PartInverse(s);
      EscapeJoin(PartText(p.value), ParseStringBody(p.rest).value, ParseStringBody(p.rest).rest);
    } else {
      assert ParseStringBody(s) == Done("", s);
    }
  }

  /** Remainder untouched: whatever `parse_string` accepts is exactly the
      literal of the decoded string, followed by the unconsumed rest. */
  lemma ParseStringInverse(s: string)
    requires ParseString(s).Done?
    ensures s == Quote(ParseString(s).value) + ParseString(s).rest
  {
    var body := ParseStringBody(s[1..]);
    BodyInverse(s[1..]);
    var v := body.value;
    var u := body.rest;
    assert u == "\"" + u[1..];
    assert s == "\"" + (Escape(v) + ("\"" + u[1..]));
    ConcatAssoc("\"", Escape(v), "\"" + u[1..]);
    ConcatAssoc("\"" + Escape(v), "\"", u[1..]);
  }

  /** `parse_string` succeeds with `(v, rest)` exactly on the literal of `v`
      followed by `rest`. */
  lemma ParseStringExactly(s: string, v: string, rest: string)
    ensures ParseString(s) == Done(v, rest) <==> s == Quote(v) + rest
  {
    if ParseString(s) == Done(v, rest) {
      ParseStringInverse(s);
    }
    if s == Quote(v) + rest {
      ParseStringRoundTrip(v, rest);
    }
  }

  /** Only two escapes exist: a backslash before any other character makes the
      whole literal fail, instead of standing for that character. */
  lemma UndefinedEscapeFails(s: string, c: char, rest: string)
    requires IsPlain(c)
    ensures ParseString("\"" + Escape(s) + ['\\', c] + rest) == Error
  {
    var t := ['\\', c] + rest;
    ConcatAssoc("\"" + Escape(s), ['\\', c], rest);
    ConcatAssoc("\"", Escape(s), t);
    BodyOfEscaped(s, t);
    assert ParseStringPart(t) == Error;
  }

  /** A literal cut off before its closing quote, even right after a backslash,
      asks for more input rather than failing. */
  lemma UnterminatedIsIncomplete(s: string, tail: string)
    requires tail == "" || tail == "\\"
    ensures ParseString("\"" + Escape(s) + tail) == Incomplete
  {
    ConcatAssoc("\"", Escape(s), tail);
    BodyOfEscaped(s, tail);
  }

  // -------------------------------------------------------------- whitespace

  /** `multispace0`: the longest prefix of spaces, tabs, line feeds and
      carriage returns; it always succeeds. */
  function Multispace0(s: string): (r: Parsed<string>)
    ensures r.Done? && r.value + r.rest == s
    ensures AllSpace(r.value)
    ensures |r.rest| == 0 || !IsSpace(r.rest[0])
    decreases |s|
  {
    if |s| == 0 || !IsSpace(s[0]) then Done("", s)
    else
      var more := Multispace0(s[1..]);
      assert [s[0]] + more.value + more.rest == s by {
        ConcatAssoc([s[0]], more.value, more.rest);
        ConsTail(s);
      }
      SpaceCons(s[0], more.value);
      Done([s[0]] + more.value, more.rest)
  }

  lemma SpaceCons(c: char, w: string)
    requires IsSpace(c) && AllSpace(w)
    ensures AllSpace([c] + w)
  {
    var v := [c] + w;
    forall i | 0 <= i < |v| ensures IsSpace(v[i]) {
      if i > 0 { assert v[i] == w[i - 1]; }
    }
  }

  /** `multispace1`: `multispace0` that fails on an empty run. */
  function Multispace1(s: string): (r: Parsed<string>)
    ensures !r.Incomplete?
    ensures r.Done? <==> |s| > 0 && IsSpace(s[0])
    ensures r.Done? ==> r == Multispace0(s)
  {
    var w := Multispace0(s);
    if |w.value| == 0 then Error else w
  }

  /** `multispace0` takes a whitespace run exactly when what follows it is not
      whitespace. */
  lemma {:induction false} Multispace0Of(w: string, t: string)
    requires AllSpace(w)
    requires |t| == 0 || !IsSpace(t[0])
    ensures Multispace0(w + t) == Done(w, t)
    decreases |w|
  {
    if |w| == 0 {
      assert w + t == t;
    } else {
      assert (w + t)[1..] == w[1..] + t;
      Multispace0Of(w[1..], t);
      assert [w[0]] + w[1..] == w;
    }
  }

  // ------------------------------------------------------------ string arrays

  /** `delimited(multispace0, char(','), multispace0)`. */
  function Separator(s: string): (r: Parsed<char>)
    ensures r.Done? ==> |r.rest| < |s|
  {
    var comma :- Char(',', Multispace0(s).rest);
    Done(',', Multispace0(comma.1).rest)
  }

  /** The (separator, string) repetition of `separated_list0`; on a failed
      element the input before the separator is kept. */
  function StringListTail(s: string): (r: Parsed<seq<string>>)
    ensures r.Done? ==> |r.rest| <= |s|
    decreases |s|
  {
    match Separator(s)
    case Error => Done([], s)
    case Incomplete => Incomplete
    case Done(_, t) =>
      if |t| >= |s| then Error
      else
        match ParseString(t)
        case Error => Done([], s)
        case Incomplete => Incomplete
        case Done(x, u) =>
          var more :- StringListTail(u);
          Done([x] + more.0, more.1)
  }

  /** `separated_list0(separator, parse_string)`. */
  function StringList0(s: string): (r: Parsed<seq<string>>)
    ensures r.Done? ==> |r.rest| <= |s|
  {
    match ParseString(s)
    case Error => Done([], s)
    case Incomplete => Incomplete
    case Done(x, t) =>
      var more :- StringListTail(t);
      Done([x] + more.0, more.1)
  }

  /** `parse_string_array`: `[`, whitespace, zero or more comma-separated
      literals, whitespace, `]`. */
  function ParseStringArray(s: string): (r: Parsed<seq<string>>)
    ensures r.Done? ==> |r.rest| < |s| && s[0] == '['
    ensures |s| == 0 ==> r.Incomplete?
    ensures |s| > 0 && s[0] != '[' ==> r.Error?
  {
    var open :- Char('[', s);
    var items :- StringList0(Multispace0(open.1).rest);
    var close :- Char(']', Multispace0(items.1).rest);
    Done(items.0, close.1)
  }

  /** An array of `xs` with the whitespace `w` after `[`, around every comma
      and before `]`. */
  function ArrayText(xs: seq<string>, w: string): string {
    "[" + w + ItemsText(xs, w) + w + "]"
  }

  function ItemsText(xs: seq<string>, w: string): string {
    if |xs| == 0 then "" else Quote(xs[0]) + TailText(xs[1..], w)
  }

  function TailText(xs: seq<string>, w: string): string {
    if |xs| == 0 then "" else w + "," + w + Quote(xs[0]) + TailText(xs[1..], w)
  }

  lemma TailTextStep(xs: seq<string>, w: string, c: string)
    requires |xs| > 0
    ensures TailText(xs, w) + c == w + ("," + (w + (Quote(xs[0]) + (TailText(xs[1..], w) + c))))
  {
    var e := TailText(xs[1..], w);
    ConcatAssoc(w + "," + w + Quote(xs[0]), e, c);
    ConcatAssoc(w + "," + w, Quote(xs[0]), e + c);
    ConcatAssoc(w + ",", w, Quote(xs[0]) + (e + c));
    ConcatAssoc(w, ",", w + (Quote(xs[0]) + (e + c)));
  }

  lemma {:induction false} StringListTailOf(xs: seq<string>, w: string, c: string)
    requires AllSpace(w)
    requires Separator(c).Error?
    ensures StringListTail(TailText(xs, w) + c) == Done(xs, c)
    decreases |xs|
  {
    if |xs| == 0 {
      assert TailText(xs, w) + c == c;
    } else {
      var more := TailText(xs[1..], w) + c;
      var q := Quote(xs[0]) + more;
      TailTextStep(xs, w, c);
      Multispace0Of(w, "," + (w + q));
      Multispace0Of(w, q);
      assert Separator(TailText(xs, w) + c) == Done(',', q);
      ParseStringRoundTrip(xs[0], more);
      StringListTailOf(xs[1..], w, c);
      ConsTail(xs);
    }
  }

  /** Where a list of strings ends, before the closing bracket. */
  lemma ClosingStopsList(w: string, rest: string)
    requires AllSpace(w)
    ensures Separator(w + ("]" + rest)).Error?
    ensures Multispace0(w + ("]" + rest)) == Done(w, "]" + rest)
  {
    Multispace0Of(w, "]" + rest);
  }

  lemma ArrayTextStep(xs: seq<string>, w: string, rest: string)
    ensures ArrayText(xs, w) + rest == "[" + (w + (ItemsText(xs, w) + (w + ("]" + rest))))
  {
    var i := ItemsText(xs, w);
    ConcatAssoc("[" + w + i + w, "]", rest);
    ConcatAssoc("[" + w + i, w, "]" + rest);
    ConcatAssoc("[" + w, i, w + ("]" + rest));
    ConcatAssoc("[", w, i + (w + ("]" + rest)));
  }

  /** The brackets around a list of strings. */
  lemma ArrayFrame(inner: string, xs: seq<string>, w: string, rest: string)
    requires AllSpace(w)
    requires StringList0(Multispace0(inner).rest) == Done(xs, w + ("]" + rest))
    ensures ParseStringArray("[" + inner) == Done(xs, rest)
  {
    ClosingStopsList(w, rest);
    assert ("[" + inner)[1..] == inner;
  }

  lemma StringList0Of(xs: seq<string>, w: string, c: string)
    requires |xs| > 0 && AllSpace(w)
    requires Separator(c).Error?
    ensures StringList0(ItemsText(xs, w) + c) == Done(xs, c)
  {
    var tail := TailText(xs[1..], w) + c;
    ConcatAssoc(Quote(xs[0]), TailText(xs[1..], w), c);
    ParseStringRoundTrip(xs[0], tail);
    StringListTailOf(xs[1..], w, c);
    ConsTail(xs);
  }

  /** String arrays: the array written for `xs`, with any whitespace around its
      commas and brackets, decodes to `xs` in order; `[]` is the empty list. */
  lemma ParseStringArrayRoundTrip(xs: seq<string>, w: string, rest: string)
    requires AllSpace(w)
    ensures ParseStringArray(ArrayText(xs, w) + rest) == Done(xs, rest)
  {
    var c := w + ("]" + rest);
    var inner := w + (ItemsText(xs, w) + c);
    ArrayTextStep(xs, w, rest);
    if |xs| == 0 {
      assert inner == (w + w) + ("]" + rest) by {
        assert ItemsText(xs, w) + c == c;
        ConcatAssoc(w, w, "]" + rest);
      }
      assert AllSpace(w + w);
      Multispace0Of(w + w, "]" + rest);
      assert ParseString("]" + rest) == Error;
      assert "" + ("]" + rest) == "]" + rest;
      ArrayFrame(inner, xs, "", rest);
    } else {
      ClosingStopsList(w, rest);
      Multispace0Of(w, ItemsText(xs, w) + c);
      StringList0Of(xs, w, c);
      ArrayFrame(inner, xs, w, rest);
    }
  }

  /** A separator followed by something other than a string ends the list
      before the separator. */
  lemma DanglingComma(rest: string)
    ensures StringListTail(",]" + rest) == Done([], ",]" + rest)
  {
    var tail := ",]" + rest;
    Multispace0Of("", tail);
    assert "" + tail == tail;
    Multispace0Of("", "]" + rest);
    assert "" + ("]" + rest) == "]" + rest;
    assert tail[1..] == "]" + rest;
    assert Separator(tail) == Done(',', "]" + rest);
    assert ParseString("]" + rest) == Error;
  }

  lemma ListBeforeTrailingComma(x: string, rest: string)
    ensures StringList0(Quote(x) + (",]" + rest)) == Done([x], ",]" + rest)
  {
    ParseStringRoundTrip(x, ",]" + rest);
    DanglingComma(rest);
    assert [x] + [] == [x];
  }

  /** A comma after the last element is not accepted. */
  lemma TrailingCommaRejected(x: string, rest: string)
    ensures ParseStringArray("[" + Quote(x) + ",]" + rest) == Error
  {
    var tail := ",]" + rest;
    var inner := Quote(x) + tail;
    ConcatAssoc("[" + Quote(x), ",]", rest);
    ConcatAssoc("[", Quote(x), tail);
    Multispace0Of("", inner);
    assert "" + inner == inner;
    ListBeforeTrailingComma(x, rest);
    Multispace0Of("", tail);
    assert "" + tail == tail;
    assert ("[" + inner)[1..] == inner;
  }
}

=== FILE: text.dfy ===
/**
 * Character and string helpers shared by the script parser and the protocol
 * client: prefix scans, Rust's `trim`, ASCII upper-casing, substring search
 * and `split_whitespace`.
 */
module Text {

  /** Length of the longest prefix of `s` whose characters all satisfy `p`
      (the count behind nom's `take_while` and Rust's `trim_start_matches`). */
  function PrefixLength(s: string, p: char -> bool): (n: nat)
    ensures n <= |s|
    ensures forall i :: 0 <= i < n ==> p(s[i])
    ensures n < |s| ==> !p(s[n])
  {
    if |s| == 0 || !p(s[0]) then 0 else 1 + PrefixLength(s[1..], p)
  }

  /** Length of the longest suffix of `s` whose characters all satisfy `p`. */
  function SuffixLength(s: string, p: char -> bool): (n: nat)
    ensures n <= |s|
    ensures forall i :: |s| - n <= i < |s| ==> p(s[i])
    ensures n < |s| ==> !p(s[|s| - n - 1])
  {
    if |s| == 0 || !p(s[|s| - 1]) then 0 else 1 + SuffixLength(s[..|s| - 1], p)
  }

  /** A prefix scan stops exactly at the first character that fails `p`. */
  lemma {:induction false} PrefixLengthAppend(a: string, b: string, p: char -> bool)
    requires forall i :: 0 <= i < |a| ==> p(a[i])
    requires |b| == 0 || !p(b[0])
    ensures PrefixLength(a + b, p) == |a|
  {
    if |a| > 0 {
      assert (a + b)[1..] == a[1..] + b;
      PrefixLengthAppend(a[1..], b, p);
    }
  }

  /** A non-empty sequence is its head followed by its tail. */
  lemma ConsTail<T>(s: seq<T>)
    requires |s| > 0
    ensures [s[0]] + s[1..] == s
  {
  }

  /** Concatenation regroups freely; proofs name this step rather than leave
      the solver to rediscover it by extensionality. */
  lemma ConcatAssoc<T>(a: seq<T>, b: seq<T>, c: seq<T>)
    ensures (a + b) + c == a + (b + c)
  {
  }

  predicate StartsWith(s: string, prefix: string) {
    |prefix| <= |s| && s[..|prefix|] == prefix
  }

  /** `s` does not start with `prefix` as soon as one position differs. */
  lemma MismatchAt(s: string, prefix: string, i: nat)
    requires i < |s| && i < |prefix| && s[i] != prefix[i]
    ensures !StartsWith(s, prefix)
  {
    if |prefix| <= |s| {
      assert s[..|prefix|][i] == s[i];
    }
  }

  lemma StartsWithAppend(p: string, rest: string)
    ensures StartsWith(p + rest, p)
  {
    assert (p + rest)[..|p|] == p;
  }

  /** Rust's `str::contains` with a string pattern. */
  predicate Contains(s: string, pattern: string)
    decreases |s|
  {
    StartsWith(s, pattern) || (|s| > 0 && Contains(s[1..], pattern))
  }

  /** A pattern found at position `i` is contained. */
  lemma {:induction false} ContainsAt(s: string, pattern: string, i: nat)
    requires i + |pattern| <= |s| && s[i..i + |pattern|] == pattern
    ensures Contains(s, pattern)
  {
    if i == 0 {
      assert s[..|pattern|] == s[0..|pattern|];
    } else {
      assert s[1..][i - 1..i - 1 + |pattern|] == s[i..i + |pattern|];
      ContainsAt(s[1..], pattern, i - 1);
    }
  }

  /** A contained pattern occurs at some position. */
  lemma {:induction false} ContainsFound(s: string, pattern: string) returns (i: nat)
    requires Contains(s, pattern)
    ensures i + |pattern| <= |s| && s[i..i + |pattern|] == pattern
    decreases |s|
  {
    if StartsWith(s, pattern) {
      i := 0;
    } else {
      var j := ContainsFound(s[1..], pattern);
      assert s[1..][j..j + |pattern|] == s[j + 1..j + 1 + |pattern|];
      i := j + 1;
    }
  }

  /** A pattern contained in the tail of a string is contained in it. */
  lemma {:induction false} ContainsSuffix(a: string, b: string, pattern: string)
    requires Contains(b, pattern)
    ensures Contains(a + b, pattern)
    decreases |a|
  {
    if |a| > 0 {
      assert (a + b)[1..] == a[1..] + b;
      ContainsSuffix(a[1..], b, pattern);
    } else {
      assert a + b == b;
    }
  }

  /** Rust's `char::is_whitespace`: the Unicode White_Space property. */
  predicate IsWhitespace(c: char) {
    var n := c as int;
    (9 <= n <= 13) || n == 0x20 || n == 0x85 || n == 0xA0 || n == 0x1680
    || (0x2000 <= n <= 0x200A) || n == 0x2028 || n == 0x2029 || n == 0x202F
    || n == 0x205F || n == 0x3000
  }

  predicate IsNotWhitespace(c: char) {
    !IsWhitespace(c)
  }

  /** Number of White_Space characters `trim` drops at the front of `s`. */
  function Leading(s: string): nat {
    PrefixLength(s, IsWhitespace)
  }

  /** Rust's `str::trim`: drop leading and trailing White_Space. */
  function Trim(s: string): (r: string)
    ensures Leading(s) + |r| <= |s|
    ensures r == s[Leading(s)..Leading(s) + |r|]
    ensures forall k :: 0 <= k < Leading(s) ==> IsWhitespace(s[k])
    ensures forall k :: Leading(s) + |r| <= k < |s| ==> IsWhitespace(s[k])
    ensures |r| > 0 ==> IsNotWhitespace(r[0]) && IsNotWhitespace(r[|r| - 1])
  {
    var lead := Leading(s);
    var t := s[lead..];
    var trail := SuffixLength(t, IsWhitespace);
    assert trail < |t| ==> lead < |s| && !IsWhitespace(s[lead]);
    var r := t[..|t| - trail];
    assert r == s[lead..lead + |r|];
    r
  }

  /** Trimming leaves a string unchanged when both of its ends are not White_Space. */
  lemma TrimNoop(s: string)
    requires |s| > 0 ==> IsNotWhitespace(s[0]) && IsNotWhitespace(s[|s| - 1])
    ensures Trim(s) == s
  {
    var lead := PrefixLength(s, IsWhitespace);
    if |s| > 0 {
      assert lead == 0;
      assert s[lead..] == s;
    }
  }

  /** Trimming drops a whitespace-only tail after a string whose last character
      is not White_Space. */
  lemma {:induction false} TrimWhitespaceTail(s: string, w: string)
    requires |s| > 0 && IsNotWhitespace(s[0]) && IsNotWhitespace(s[|s| - 1])
    requires forall i :: 0 <= i < |w| ==> IsWhitespace(w[i])
    ensures Trim(s + w) == s
  {
    var x := s + w;
    var lead := PrefixLength(x, IsWhitespace);
    assert lead == 0 by { assert x[0] == s[0]; }
    assert x[lead..] == x;
    SuffixOfWhitespace(s, w);
    assert x[..|x| - |w|] == s;
  }

  lemma {:induction false} SuffixOfWhitespace(s: string, w: string)
    requires |s| > 0 && IsNotWhitespace(s[|s| - 1])
    requires forall i :: 0 <= i < |w| ==> IsWhitespace(w[i])
    ensures SuffixLength(s + w, IsWhitespace) == |w|
  {
    if |w| == 0 {
      assert s + w == s;
    } else {
      var x := s + w;
      assert x[..|x| - 1] == s + w[..|w| - 1];
      SuffixOfWhitespace(s, w[..|w| - 1]);
    }
  }

  /** ASCII upper-casing of one character (`char::to_ascii_uppercase`). */
  function UpperChar(c: char): char {
    if 'a' <= c <= 'z' then (c as int - 32) as char else c
  }

  /** ASCII lower-casing of one character. */
  function LowerChar(c: char): char {
    if 'A' <= c <= 'Z' then (c as int + 32) as char else c
  }

  /** Upper-casing of a whole string, character by character. */
  function Upper(s: string): (r: string)
    ensures |r| == |s|
    ensures forall i :: 0 <= i < |s| ==> r[i] == UpperChar(s[i])
  {
    seq(|s|, i requires 0 <= i < |s| => UpperChar(s[i]))
  }

  function Lower(s: string): (r: string)
    ensures |r| == |s|
    ensures forall i :: 0 <= i < |s| ==> r[i] == LowerChar(s[i])
  {
    seq(|s|, i requires 0 <= i < |s| => LowerChar(s[i]))
  }

  /** Rust's `str::split_whitespace`: the maximal runs of non-White_Space
      characters, in order. */
  function SplitWhitespace(s: string): (words: seq<string>)
    ensures forall k :: 0 <= k < |words| ==> IsWord(words[k])
    decreases |s|
  {
    var lead := PrefixLength(s, IsWhitespace);
    if lead == |s| then []
    else
      var t := s[lead..];
      var n := PrefixLength(t, IsNotWhitespace);
      [t[..n]] + SplitWhitespace(t[n..])
  }

  /** A non-empty run without White_Space. */
  predicate IsWord(w: string) {
    |w| > 0 && forall i :: 0 <= i < |w| ==> IsNotWhitespace(w[i])
  }

  /** Words joined with single spaces: the canonical text `split_whitespace` inverts. */
  function JoinSpaced(words: seq<string>): string {
    if |words| == 0 then ""
    else if |words| == 1 then words[0]
    else words[0] + " " + JoinSpaced(words[1..])
  }

  predicate AllWhitespace(w: string) {
    forall i :: 0 <= i < |w| ==> IsWhitespace(w[i])
  }

  /** `words` laid out with the runs `gaps` around and between them:
      `gaps[0] + words[0] + gaps[1] + ... + words[n - 1] + gaps[n]`. */
  function Spaced(words: seq<string>, gaps: seq<string>): string
    requires |gaps| == |words| + 1
    decreases |words|
  {
    if |words| == 0 then gaps[0] else gaps[0] + words[0] + Spaced(words[1..], gaps[1..])
  }

  /** Runs that may separate `n` words: White_Space only, and not empty
      between two words. */
  predicate Separators(gaps: seq<string>, n: nat) {
    |gaps| == n + 1
    && (forall k :: 0 <= k < |gaps| ==> AllWhitespace(gaps[k]))
    && (forall k :: 0 < k < n ==> |gaps[k]| > 0)
  }

  /** `split_whitespace` gives back the words, whatever runs of White_Space
      stand around and between them. */
  lemma {:induction false} SplitSpaced(words: seq<string>, gaps: seq<string>)
    requires forall k :: 0 <= k < |words| ==> IsWord(words[k])
    requires Separators(gaps, |words|)
    ensures SplitWhitespace(Spaced(words, gaps)) == words
    decreases |words|
  {
    if |words| == 0 {
      SplitAllWhitespace(gaps[0]);
    } else {
      var rest := words[1..];
      var after := Spaced(rest, gaps[1..]);
      assert gaps[1..][0] == gaps[1];
      SpacedStart(rest, gaps[1..]);
      SplitStep(gaps[0], words[0], after);
      forall k | 0 <= k < |rest| ensures IsWord(rest[k]) {
        assert rest[k] == words[k + 1];
      }
      SeparatorsTail(gaps, |words|);
      SplitSpaced(rest, gaps[1..]);
      ConsTail(words);
    }
  }

  /** Conversely, every text is the words `split_whitespace` finds, laid
      out with the runs of White_Space it skips. */
  lemma {:induction false} SplitLayout(s: string) returns (gaps: seq<string>)
    ensures Separators(gaps, |SplitWhitespace(s)|)
    ensures s == Spaced(SplitWhitespace(s), gaps)
    decreases |s|
  {
    var lead := PrefixLength(s, IsWhitespace);
    if lead == |s| {
      gaps := [s];
    } else {
      var t := s[lead..];
      var n := PrefixLength(t, IsNotWhitespace);
      var words := SplitWhitespace(s);
      var u := t[n..];
      assert words == [t[..n]] + SplitWhitespace(u);
      var inner := SplitLayout(u);
      gaps := [s[..lead]] + inner;
      LayoutStep(s, lead, t, n, u, words, inner, gaps);
    }
  }

  lemma LayoutStep(s: string, lead: nat, t: string, n: nat, u: string,
                   words: seq<string>, inner: seq<string>, gaps: seq<string>)
    requires lead < |s| && t == s[lead..] && n <= |t| && u == t[n..]
    requires forall i :: 0 <= i < lead ==> IsWhitespace(s[i])
    requires n < |t| ==> IsWhitespace(t[n])
    requires |words| > 0 && words[0] == t[..n] && words[1..] == SplitWhitespace(u)
    requires IsWord(words[0])
    requires Separators(inner, |SplitWhitespace(u)|) && u == Spaced(SplitWhitespace(u), inner)
    requires gaps == [s[..lead]] + inner
    ensures Separators(gaps, |words|) && s == Spaced(words, gaps)
  {
    assert gaps[0] == s[..lead] && gaps[1..] == inner;
    LayoutJoin(s, lead, t, n, u);
    if |words| > 1 {
      FirstGapNonEmpty(u, SplitWhitespace(u), inner);
    }
    SeparatorsCons(s[..lead], inner, |words| - 1);
  }

  lemma LayoutJoin(s: string, lead: nat, t: string, n: nat, u: string)
    requires lead <= |s| && t == s[lead..] && n <= |t| && u == t[n..]
    ensures s == s[..lead] + t[..n] + u
  {
    assert t == t[..n] + u;
  }

  /** Words laid out after White_Space (or nothing) start with a run that
      is not empty. */
  lemma FirstGapNonEmpty(u: string, w: seq<string>, inner: seq<string>)
    requires |w| > 0 && IsWord(w[0]) && |inner| == |w| + 1 && u == Spaced(w, inner)
    requires |u| > 0 && IsWhitespace(u[0])
    ensures |inner[0]| > 0
  {
  }

  lemma SeparatorsCons(g: string, inner: seq<string>, n: nat)
    requires AllWhitespace(g) && Separators(inner, n) && (n > 0 ==> |inner[0]| > 0)
    ensures Separators([g] + inner, n + 1)
  {
    var gaps := [g] + inner;
    assert forall k :: 0 < k < |gaps| ==> gaps[k] == inner[k - 1];
  }

  /** Laid-out words start with their first run. */
  lemma SpacedStart(words: seq<string>, gaps: seq<string>)
    requires |gaps| == |words| + 1
    ensures |gaps[0]| <= |Spaced(words, gaps)| && Spaced(words, gaps)[..|gaps[0]|] == gaps[0]
  {
  }

  lemma SeparatorsTail(gaps: seq<string>, n: nat)
    requires n > 0 && Separators(gaps, n)
    ensures Separators(gaps[1..], n - 1)
  {
    assert forall k :: 0 <= k < |gaps| - 1 ==> gaps[1..][k] == gaps[k + 1];
  }

  /** A White_Space-only string splits into no words. */
  lemma SplitAllWhitespace(w: string)
    requires forall i :: 0 <= i < |w| ==> IsWhitespace(w[i])
    ensures SplitWhitespace(w) == []
  {
    PrefixLengthAppend(w, "", IsWhitespace);
    assert w + "" == w;
  }

  /** One step of `split_whitespace`: padding, then a word, then a tail that is
      empty or starts with White_Space. */
  lemma SplitStep(pre: string, w: string, after: string)
    requires forall i :: 0 <= i < |pre| ==> IsWhitespace(pre[i])
    requires IsWord(w)
    requires |after| == 0 || IsWhitespace(after[0])
    ensures SplitWhitespace(pre + w + after) == [w] + SplitWhitespace(after)
  {
    var s := pre + w + after;
    var t := w + after;
    ConcatAssoc(pre, w, after);
    PrefixLengthAppend(pre, t, IsWhitespace);
    assert s[|pre|..] == t;
    PrefixLengthAppend(w, after, IsNotWhitespace);
    assert t[..|w|] == w;
    assert t[|w|..] == after;
    SplitUnfold(s, t, w, after);
  }

  /** `split_whitespace` takes the first word after the leading White_Space. */
  lemma SplitUnfold(s: string, t: string, w: string, after: string)
    requires PrefixLength(s, IsWhitespace) < |s|
    requires t == s[PrefixLength(s, IsWhitespace)..]
    requires PrefixLength(t, IsNotWhitespace) == |w|
    requires t[..|w|] == w && t[|w|..] == after
    ensures SplitWhitespace(s) == [w] + SplitWhitespace(after)
  {
  }

  /** `split_whitespace` recovers the words that were joined with spaces, with
      any White_Space padding around them. */
  lemma {:induction false} SplitJoinSpaced(words: seq<string>, pre: string, post: string)
    requires forall k :: 0 <= k < |words| ==> IsWord(words[k])
    requires forall i :: 0 <= i < |pre| ==> IsWhitespace(pre[i])
    requires forall i :: 0 <= i < |post| ==> IsWhitespace(post[i])
    ensures SplitWhitespace(pre + JoinSpaced(words) + post) == words
    decreases |words|
  {
    if |words| == 0 {
      assert pre + JoinSpaced(words) + post == pre + post;
      SplitPadding(pre, post);
    } else if |words| == 1 {
      SplitStep(pre, words[0], post);
      SplitAllWhitespace(post);
    } else {
      var rest := words[1..];
      var after := " " + JoinSpaced(rest) + post;
      SpaceRegroup(pre, words[0], JoinSpaced(rest), post);
      SplitStep(pre, words[0], after);
      assert forall k :: 0 <= k < |rest| ==> IsWord(rest[k]) by {
        forall k | 0 <= k < |rest| ensures IsWord(rest[k]) {
          assert rest[k] == words[k + 1];
        }
      }
      SplitJoinSpaced(rest, " ", post);
      ConsTail(words);
    }
  }

  lemma SplitPadding(pre: string, post: string)
    requires forall i :: 0 <= i < |pre| ==> IsWhitespace(pre[i])
    requires forall i :: 0 <= i < |post| ==> IsWhitespace(post[i])
    ensures SplitWhitespace(pre + post) == []
  {
    var w := pre + post;
    forall i | 0 <= i < |w| ensures IsWhitespace(w[i]) {
      if i < |pre| { assert w[i] == pre[i]; } else { assert w[i] == post[i - |pre|]; }
    }
    SplitAllWhitespace(w);
  }

  lemma SpaceRegroup(pre: string, a: string, b: string, post: string)
    ensures pre + (a + " " + b) + post == pre + a + (" " + b + post)
  {
  }

  /** Position of the first occurrence of `c` in `s`, if any (`str::find`). */
  function FindChar(s: string, c: char): (r: int)
    ensures -1 <= r < |s|
    ensures r >= 0 ==> s[r] == c && forall i :: 0 <= i < r ==> s[i] != c
    ensures r < 0 ==> forall i :: 0 <= i < |s| ==> s[i] != c
  {
    var n := PrefixLength(s, x => x != c);
    if n == |s| then -1 else n
  }

  /** Position of the last occurrence of `c` in `s`, if any (`str::rfind`). */
  function FindLastChar(s: string, c: char): (r: int)
    ensures -1 <= r < |s|
    ensures r >= 0 ==> s[r] == c && forall i :: r < i < |s| ==> s[i] != c
    ensures r < 0 ==> forall i :: 0 <= i < |s| ==> s[i] != c
  {
    var n := SuffixLength(s, x => x != c);
    if n == |s| then -1 else |s| - n - 1
  }

  predicate EndsWith(s: string, suffix: string) {
    |suffix| <= |s| && s[|s| - |suffix|..] == suffix
  }

  /** Characters mapped one by one. */
  function MapChars(f: char -> char, s: string): (r: string)
    ensures |r| == |s|
    ensures forall i :: 0 <= i < |s| ==> r[i] == f(s[i])
  {
    seq(|s|, i requires 0 <= i < |s| => f(s[i]))
  }

  /** A character map that sends White_Space to White_Space and nothing else. */
  predicate KeepsWhitespace(f: char -> char) {
    forall c :: IsWhitespace(f(c)) <==> IsWhitespace(c)
  }

  lemma {:induction false} LeadingMapped(f: char -> char, s: string)
    requires KeepsWhitespace(f)
    ensures PrefixLength(MapChars(f, s), IsWhitespace) == PrefixLength(s, IsWhitespace)
    decreases |s|
  {
    if |s| > 0 {
      assert IsWhitespace(f(s[0])) <==> IsWhitespace(s[0]);
      assert MapChars(f, s)[1..] == MapChars(f, s[1..]);
      LeadingMapped(f, s[1..]);
    }
  }

  lemma {:induction false} TrailingMapped(f: char -> char, s: string)
    requires KeepsWhitespace(f)
    ensures SuffixLength(MapChars(f, s), IsWhitespace) == SuffixLength(s, IsWhitespace)
    decreases |s|
  {
    if |s| > 0 {
      assert IsWhitespace(f(s[|s| - 1])) <==> IsWhitespace(s[|s| - 1]);
      assert MapChars(f, s)[..|s| - 1] == MapChars(f, s[..|s| - 1]);
      TrailingMapped(f, s[..|s| - 1]);
    }
  }

  /** Trimming commutes with a character map that keeps White_Space apart. */
  lemma TrimMapped(f: char -> char, s: string)
    requires KeepsWhitespace(f)
    ensures Trim(MapChars(f, s)) == MapChars(f, Trim(s))
  {
    var m := MapChars(f, s);
    LeadingMapped(f, s);
    var lead := Leading(s);
    assert Leading(m) == lead;
    var t := s[lead..];
    var mt := m[lead..];
    MapSuffix(f, s, lead);
    assert mt == MapChars(f, t);
    TrailingMapped(f, t);
    var k := |t| - SuffixLength(t, IsWhitespace);
    assert k == |mt| - SuffixLength(mt, IsWhitespace);
    MapPrefix(f, t, k);
    TrimParts(s);
    TrimParts(m);
    assert Trim(m) == mt[..k];
    assert Trim(s) == t[..k];
  }

  /** `trim` as the two scans it performs. */
  lemma TrimParts(s: string)
    ensures var t := s[Leading(s)..];
      Trim(s) == t[..|t| - SuffixLength(t, IsWhitespace)]
  {
  }

  lemma MapSuffix(f: char -> char, s: string, k: nat)
    requires k <= |s|
    ensures MapChars(f, s)[k..] == MapChars(f, s[k..])
  {
  }

  lemma MapPrefix(f: char -> char, s: string, k: nat)
    requires k <= |s|
    ensures MapChars(f, s)[..k] == MapChars(f, s[..k])
  {
  }

  lemma CaseMapsKeepWhitespace()
    ensures KeepsWhitespace(LowerChar) && KeepsWhitespace(UpperChar)
  {
  }

  lemma UpperOfMapped(t: string)
    ensures Upper(MapChars(LowerChar, t)) == Upper(t)
    ensures Upper(MapChars(UpperChar, t)) == Upper(t)
  {
  }

  /** Upper-casing after a trim ignores the case a string was written in. */
  lemma NormalCase(s: string)
    ensures Upper(Trim(Lower(s))) == Upper(Trim(s))
    ensures Upper(Trim(Upper(s))) == Upper(Trim(s))
  {
    CaseMapsKeepWhitespace();
    assert Lower(s) == MapChars(LowerChar, s);
    assert Upper(s) == MapChars(UpperChar, s);
    TrimMapped(LowerChar, s);
    TrimMapped(UpperChar, s);
    UpperOfMapped(Trim(s));
  }

  lemma UpperAppend(a: string, b: string)
    ensures Upper(a + b) == Upper(a) + Upper(b)
  {
  }
}
